=== FILE: README.md ===
# ONDM-POD-OCS in Dafny

This project models ONDM-POD-OCS, a small simulator of a pod-based data-centre fabric. Each pod holds ToR and Aggregation ("Aggr") switches. Pods are joined through optical circuit switch ("OCS") nodes. The model covers:

- the three topology builders of `topology.py`. Each builder places ToR and Aggr nodes per pod, meshes every ToR with every Aggr of its pod, then wires pod pairs through fresh `OCS_<n>` nodes, each joined to one Aggr on each side. The wiring is random (uniform and non-uniform budgets) or round-robin over per-pod Aggr cycles.
- the three routing strategies of `routing_strategies.py`:
  - ECMP: a random shortest path;
  - VLB: shortest paths through a random intermediate ToR;
  - TE: the least-cost simple path of at most 6 hops, with ties broken by the Aggr OCS-port count.
- the per-link FIFO completion-time simulation `simulate_fct`.
- the two driver scripts, `non_uniform_traffic.py` and `ocs_topo_compar.py`. Each has its own `pod_id` and traffic generator. Both share the per-flow `run_strategy` loop, which routes, records hops, adds `FLOW_UNIT` of usage along the path and records the completion time, and the final "OCS Links Used" count.

Modules:

- `Wrappers`: `Option` and `Result`.
- `NodeNames`: `str(int)`, `int()`, `split('_')[0]`, the `Pod<p>_<Role><i>` and `OCS_<n>` names, `pod_id`.
- `Fabric`: the networkx graph. It is a value `Network` (node kinds, adjacency sets, one `Edge` per sorted node pair) and a `class Graph` whose methods update those maps in place.
- `Topology`: `TopoConfig` and the builders, as imperative methods on a `Graph`.
- `RoutingStrategies`: the routing functions, and `simulate_fct` as a method over a `FinishTimes` object that holds the `last_finish` dictionary.
- `Evaluation`: the routing loop, as a method proved against the functional `Replay`, and the OCS-used count.
- `NonUniformTraffic` and `OcsTopoCompar`: traffic generation and `run_strategy` of each driver script.

Randomness is an input:

- A builder's `random.choice(xs)` reads the next value `d` of a finite stream `draws` and picks `xs[d % |xs|]`.
- `random.shuffle` (Fisher-Yates) and the per-flow choices in ECMP and VLB read a function `nat -> nat`. Flow `k` uses draw `k`.

The networkx path searches (`all_shortest_paths`, `shortest_path`, `all_simple_paths` with `cutoff=6`) are a `PathSearch` record of functions passed in. `Evaluation.Sound` states what each search must return. `all_shortest_paths` returns simple paths that no walk between the two ends undercuts. `shortest_path` returns a walk between the two ends. `all_simple_paths` returns simple paths of at most 6 hops.

## Model

| member | source | states |
|---|---|---|
| NodeNames.ParseNat | non_uniform_traffic.py:15 | `int()` succeeds exactly on non-empty all-digit strings |
| NodeNames.Decimal | topology.py:25 | `str(n)` is a non-empty digit string with no leading zero |
| NodeNames.DecimalRoundTrip | non_uniform_traffic.py:15 | `int(str(n)) == n` |
| NodeNames.DecimalInjective | topology.py:25 | distinct numbers give distinct decimal strings |
| NodeNames.SplitHead | ocs_topo_compar.py:19 | `s.split('_')[0]` is the longest `_`-free prefix of `s` |
| NodeNames.SplitHeadOfJoin | ocs_topo_compar.py:19 | `(a + "_" + b).split('_')[0] == a` when `a` has no `_` |
| NodeNames.DropThree | non_uniform_traffic.py:15 | `s[3:]` is what follows the first three characters, or empty |
| NodeNames.PodIdOfNodeName | non_uniform_traffic.py:14-15 | `pod_id(node_name(p, role, i)) == p` for every role and index |
| NodeNames.SplitHeadOfNodeName | ocs_topo_compar.py:19 | the pod prefix of `node_name(p, role, i)` is `"Pod" + str(p)` |
| NodeNames.NodeNameInjective | topology.py:24-25 | `node_name` is injective over pods, the two roles and indices |
| NodeNames.OcsNameInjective | topology.py:64 | `OCS_m == OCS_n` only when `m == n` |
| NodeNames.NameInitials | topology.py:64 | pod-node names and OCS names never coincide (`P` vs `O`) |
| Fabric.StrLeTotal | routing_strategies.py:49 | Python string order is total |
| Fabric.StrLeAntisymmetric | routing_strategies.py:49 | Python string order is antisymmetric |
| Fabric.LinkKey | routing_strategies.py:49 | `tuple(sorted([u, v]))` is `(u, v)` or `(v, u)`, in order |
| Fabric.LinkKeySymmetric | routing_strategies.py:49 | both directions of an edge share one key |
| Fabric.Steps | routing_strategies.py:48 | `zip(path[:-1], path[1:])` has one link per hop |
| Fabric.Network.EdgeOf | routing_strategies.py:27 | an adjacent pair's edge has positive capacity and non-negative usage |
| Fabric.ValidAfterEdge | topology.py:47 | adding an edge between two existing nodes keeps the graph well-formed |
| Fabric.RaisedUsage | non_uniform_traffic.py:52-53 | crossing a link `k` times adds `k * FLOW_UNIT` to its usage |
| Fabric.RaisedNotBelow | non_uniform_traffic.py:52-53 | adding non-negative amounts never lowers usage |
| Fabric.StepsAreLinks | non_uniform_traffic.py:52-53 | every hop of a walk is an existing edge |
| Fabric.RaiseAlong | non_uniform_traffic.py:52-53 | the usage loop keeps the link set and raises each link by its number of crossings |
| Fabric.RaisedKeepsValid | non_uniform_traffic.py:52-53 | raising usage along a walk keeps the graph well-formed |
| Fabric.Graph.constructor | topology.py:28 | `nx.Graph()` is empty |
| Fabric.Graph.AddNode | topology.py:35 | `add_node` sets the node's attributes and keeps its neighbours and all edges |
| Fabric.Graph.AddEdge | topology.py:47 | `add_edge` joins both ends and sets the edge under its sorted key; nothing else changes |
| Fabric.Graph.AddUsage | non_uniform_traffic.py:52-53 | each link's new usage is its old usage plus `amount` per crossing; nodes and edges are unchanged |
| Topology.TorListSpec | topology.py:32-36 | `tors` has `NUM_PODS * TORS_PER_POD` entries, `Pod<p>_Tor<t>` at index `p * TORS_PER_POD + t`, all in range |
| Topology.TorsUpToDistinct | topology.py:32-36 | `tors` has no duplicates |
| Topology.TorListEntry | topology.py:32-36 | every entry of `tors` is the name of some in-range ToR |
| Topology.TorListPlaced | topology.py:35 | every entry of `tors` is a node of the graph |
| Topology.TorsOfCard | topology.py:33 | a pod has exactly `TORS_PER_POD` ToR names |
| Topology.AggrsOfCard | topology.py:37 | a pod has exactly `AGGRS_PER_POD` Aggr names |
| Topology.AddPodNodes | topology.py:32-39 | creates every ToR and Aggr with its type and pod, no OCS node and no edge; returns `tors` in creation order |
| Topology.AddPodMeshes | topology.py:42-47 | afterwards each ToR's neighbours are exactly its pod's Aggrs, each Aggr's are exactly its pod's ToRs, and every edge is fresh (`capacity=LINK_CAPACITY, usage=0`) |
| Topology.MeshDone | topology.py:42-47 | once all pods are meshed, the mesh invariant holds |
| Topology.AddOcsLink | topology.py:64-67 | adds `OCS_<counter>` joined to exactly the two chosen Aggrs and keeps the whole-fabric invariant |
| Topology.TryWire | topology.py:59-69 | one draw of the random loop: a tried pair leaves graph, wires and `tried` as they were; a fresh pair is added to `tried`, and it gets exactly one new OCS node joining its two Aggrs when both have spare ports, otherwise nothing changes; a missing Aggr fails |
| Topology.WireFresh | topology.py:63-69 | the degree test on a fresh pair: the graph becomes `WithOcs` of the old one with `OCS_<counter>` when both Aggrs have spare ports, and is left as it was otherwise |
| Topology.JoinPair | topology.py:65-69 | the new OCS node between two free Aggrs: the graph is the old one plus `OCS_<counter>` and its two links, and the slot's invariant holds with the pair tried and one more wire |
| Topology.DrawnPair | topology.py:57-58 | the two `random.choice` calls of a pass pick one of the pod pair's `AGGRS_PER_POD`² Aggr pairs |
| Topology.DrawnSettled | topology.py:56-61 | `tried` holds exactly the pairs a loop drew, so each drawn pair ends joined or blocked by a full Aggr, and each OCS node of the slot joins a drawn pair |
| Topology.DrawnStep | topology.py:50-69 | the next pod pair's stretch of draws starts where the last one ended, and the earlier stretches stay settled as the graph grows |
| Topology.WireRandomPair | topology.py:51-69 | one pod pair: at most its budget of OCS nodes, never on the same Aggr pair twice; it reads `draws[d0 .. d)` two at a time, every pair drawn there is wired or blocked by a full Aggr, and every OCS node it adds joins a pair drawn there; when it ends short of budget with two draws left, every Aggr pair is wired or blocked; graph, OCS list, `d` and `ok` are exactly where `RandomRef` from the old graph ends |
| Topology.WireRandom | topology.py:50-69 | the random wiring over a budget list: every OCS node belongs to its pod pair and no pair exceeds its budget; pod pair `s` reads `draws[starts[s] .. starts[s+1])` right after pair `s-1`, every pair drawn there is settled, each of its OCS nodes joins a pair drawn there, and a pair short of budget while draws remain is settled; graph, OCS list and `ok` are exactly what `RandomFrom` gives from the old graph |
| Topology.NamePairsCard | topology.py:56 | there are at most `len(cands1) * len(cands2)` distinct Aggr pairs, so the `tried` bound ends the loop |
| Topology.CombosProduct | topology.py:56 | the loop bound `len(cands1)*len(cands2)`, summed row by row, is the product |
| Topology.RandomPassOf | topology.py:57-69 | one pass of the random loop moves two draws on, and never drops an OCS node |
| Topology.RandomRef | topology.py:55-69 | the random loop for one pod pair, pass after pass on the graph the earlier passes left, never moves the draw position back or drops an OCS node |
| Topology.RandomRefStep | topology.py:56-69 | while the guard holds, the run is one pass followed by the rest of the run, or ends where a degree read raises |
| Topology.RandomRefDone | topology.py:56 | once the budget is met, every combination is tried or the draws run out, the run stops where it stands |
| Topology.RandomPassStep | topology.py:57-69 | what one pass of the loop does to graph, OCS list, `tried` and `connected` is exactly `RandomPassOf` |
| Topology.RandomInvStep | topology.py:57-69 | one pass keeps the loop invariant: bookkeeping, the drawn pairs tried, and the rest of the run leading to the same end |
| Topology.RandomInvStart | topology.py:53-56 | with `tried` empty and nothing connected, the invariant holds and the whole run is ahead |
| Topology.RandomPass | topology.py:57-69 | the two `random.choice` calls and `TryWire` keep the loop invariant, moving the draws on by two |
| Topology.RandomLoop | topology.py:56-69 | the loop body repeated under the source's guard ends in the state `RandomRef` names from the old graph, or where a degree read raised |
| Topology.RandomFrom | topology.py:50-69 | the random builders over a budget list never drop an OCS node |
| Topology.RandomFromStep | topology.py:50-69 | a pod pair of the budget is its own run from where the previous pair left the graph and the draws, then the rest |
| Topology.RoundAttempt | topology.py:156-173 | one round-robin draw: if either Aggr is full, they are adjacent or an OCS already joins them, graph and wires are unchanged; otherwise the graph gains exactly `OCS_<counter>` joining the two Aggrs |
| Topology.RoundJoin | topology.py:168-173 | the round-robin wiring step: the graph is the old one plus `OCS_<counter>` and its two links, and the loop invariant holds one attempt on |
| Topology.RoundPassOf | topology.py:156-173 | one attempt counts, whatever it does, and never drops an OCS node |
| Topology.RoundRef | topology.py:155-173 | the round-robin loop for one pod pair, attempt after attempt on the graph the earlier attempts left, never lowers the attempt count or drops an OCS node |
| Topology.RoundRefStep | topology.py:155-173 | while the guard holds, the run is one attempt followed by the rest of the run |
| Topology.RoundRefDone | topology.py:155 | once the budget is met or `max_attempts` are used, the run stops where it stands |
| Topology.RoundPassStep | topology.py:156-173 | for present Aggrs, what one attempt does to graph, OCS list and `connected` is exactly `RoundPassOf` |
| Topology.RoundRunStep | topology.py:156-173 | the attempt `RoundAttempt` makes is the first step of the rest of the run, so the run still ends where it would have |
| Topology.RoundInvStep | topology.py:155-173 | an attempt keeps the loop invariant: bookkeeping, a growing graph, the attempt bound, and the same end of run |
| Topology.RoundInvStart | topology.py:152-155 | with no attempt made, the invariant holds and the whole run is ahead |
| Topology.RoundInvDone | topology.py:155 | when the guard fails, the run has ended at the loop's state, short of budget only after `10 * OCS_LINKS_PER_POD_PAIR` attempts |
| Topology.RoundPass | topology.py:156-173 | the two `next` calls and `RoundAttempt` keep the loop invariant, one attempt on |
| Topology.RoundFrom | topology.py:146-173 | the round-robin builder over a budget list never drops an OCS node |
| Topology.RoundFromStep | topology.py:151-173 | a pod pair of the budget is its own run from where the cycles and the graph stand, then the rest with both cycles moved on by its attempts |
| Topology.WireRoundRobinSlot | topology.py:151-173 | one pod pair of the builder's loop: `RoundFrom` from the old state is `RoundFrom` from the next pair with the new graph, OCS list and cycles, or the failed run; the slot's bookkeeping and cycle positions carry on |
| Topology.CyclePair | topology.py:156-157 | the `m`-th pair of `next` calls on the two pods' cycles is one of the pod pair's `AGGRS_PER_POD`² Aggr pairs |
| Topology.CycleDrawnStep | topology.py:156-173 | the OCS node a draw creates joins that draw's Aggrs, so every OCS node of the pod pair still joins a drawn pair |
| Topology.SlotWiredStep | topology.py:151-173 | closing a pod pair's loop keeps each earlier pair's OCS nodes on the pairs it drew, the shared cycles having moved on |
| Topology.RoundLoop | topology.py:152-173 | the pair's loop makes at most `10 * OCS_LINKS_PER_POD_PAIR` attempts, and all of them when it ends short; every drawn pair is settled and every new OCS node joins the Aggrs of one of the draws; it stops at the attempt `RoundRef` stops at, with the graph and OCS list `RoundRef` gives from the old graph |
| Topology.WireRoundRobinPair | topology.py:151-173 | one pod pair: both cycles advance by the attempts made, and each new OCS node joins `(Aggr (c1+m) % A, Aggr (c2+m) % A)` for some attempt `m`; `cycle([])` fails exactly when there are no Aggrs and the budget is positive; with Aggrs, attempts, graph and OCS list are those of `RoundRef` from the cycles' positions, and without them nothing changes |
| Topology.WireRoundRobin | topology.py:146-173 | round-robin wiring: no two OCS nodes join the same Aggr pair, budgets hold, every drawn pair is settled, and every OCS node of pod pair `s` joins one of the pairs that pair drew from where the shared cycles stood; graph, OCS list and `ok` are exactly what `RoundFrom` gives from the old graph and fresh cycles |
| Topology.DrawsBeforePrefix | topology.py:146-149 | a pod's cycle position before pair `s` depends only on the attempts of earlier pairs, so later pairs do not move it |
| Topology.PairsFromSpec | topology.py:50 | `combinations(range(n), 2)`: exactly the pairs `p1 < p2 < n`, in lexicographic order, `n(n-1)/2` of them |
| Topology.UniformPlanEmpty | topology.py:50 | there are no pod pairs exactly when there are fewer than two pods |
| Topology.UniformPlanFits | topology.py:50 | every pod pair of `combinations(range(NUM_PODS), 2)` has two distinct existing pods and the configured budget |
| Topology.UniformPlanIdle | topology.py:50 | the uniform budget asks for no OCS node exactly when `OCS_LINKS_PER_POD_PAIR` is 0 or there are fewer than two pods |
| Topology.NonUniformMissingPod | topology.py:75-82 | a table pod is missing only with fewer than four pods |
| Topology.BuildLocal | topology.py:28-47 | the shared node and mesh phases yield the meshed graph with no OCS node |
| Topology.BuildUniform | topology.py:27-71 | `build_uniform_topology`: meshed pods, OCS nodes per pod pair within `OCS_LINKS_PER_POD_PAIR`, distinct Aggr pairs; the pod pairs read consecutive stretches of the draws from the start, every drawn pair is settled, every OCS node joins a pair its pod pair drew, and a pair short of budget while draws remain is settled; the result is `RandomFrom` run on the meshed graph |
| Topology.BuildNonUniform | topology.py:73-120 | `build_nonuniform_topology` with the six-entry budget table, with the same draw stretches, drawn-pair OCS nodes and settledness; it fails only when a table pod does not exist, and the result is `RandomFrom` over the table on the meshed graph |
| Topology.BuildRoundRobin | topology.py:122-175 | `build_aggr_uniform_topology`: budgets hold, no two OCS nodes on one Aggr pair, each OCS node on a pair drawn from the cycles and every drawn pair settled; it succeeds exactly when there are Aggrs, no budget or fewer than two pods; the result is `RoundFrom` over `combinations(range(NUM_PODS), 2)` on the meshed graph with fresh cycles |
| RoutingStrategies.RunEcmp | routing_strategies.py:5-11 | `None` exactly for same-pod pairs or no paths; a missing route is the networkx error; otherwise the chosen path is one of the shortest paths |
| RoutingStrategies.EcmpReachesAll | routing_strategies.py:11 | every shortest path is chosen by some draw |
| RoutingStrategies.Intermediates | routing_strategies.py:16 | the VLB candidates are the ToRs other than `src` and `dst` |
| RoutingStrategies.RunVlb | routing_strategies.py:13-19 | `None` exactly for same-pod pairs; fails on an empty candidate list or a missing leg; otherwise returns `p1 + p2[1:]` through a candidate ToR |
| RoutingStrategies.JoinLegs | routing_strategies.py:19 | two joined legs form a walk from `src` to `dst` whose hop count is the sum |
| RoutingStrategies.VlbRoute | routing_strategies.py:13-19 | with real shortest legs, VLB returns a `src`-`dst` walk of `len(p1) + len(p2) - 1` nodes |
| RoutingStrategies.UtilNonNegative | routing_strategies.py:27 | path utilisation is non-negative |
| RoutingStrategies.CostAtLeastHops | routing_strategies.py:25-28 | with `beta >= 0`, a path's cost is at least `alpha * hops` |
| RoutingStrategies.MinCost | routing_strategies.py:36 | `min_cost` is the cost of some candidate and at most every candidate's |
| RoutingStrategies.NearMinPaths | routing_strategies.py:37 | `eq` holds exactly the candidates within `1e-1` of `min_cost` |
| RoutingStrategies.NearMinNonEmpty | routing_strategies.py:35-37 | `eq` is never empty |
| RoutingStrategies.AggrsOn | routing_strategies.py:40 | `ags` holds exactly the path's Aggr nodes |
| RoutingStrategies.MaxPorts | routing_strategies.py:41 | the maximum of `degree - TORS_PER_POD` over `ags` |
| RoutingStrategies.OcsPortsIsMax | routing_strategies.py:39-41 | `ocs_ports` is 0 without Aggrs, else the largest Aggr OCS-port count on the path |
| RoutingStrategies.FirstMax | routing_strategies.py:43 | Python `max` with a key returns the first index of the greatest key |
| RoutingStrategies.TieBreak | routing_strategies.py:43 | the chosen `eq` index has the largest `ocs_ports`, and no earlier index ties with it |
| RoutingStrategies.RunTe | routing_strategies.py:21-43 | `None` exactly for same-pod pairs or no candidates; otherwise a near-minimal-cost candidate with the most OCS ports, first among ties |
| RoutingStrategies.TeRoute | routing_strategies.py:31 | TE's path is a simple `src`-`dst` path of at most 6 hops |
| RoutingStrategies.HopTimes | routing_strategies.py:52 | one transmission time per hop |
| RoutingStrategies.HopTimesNonNegative | routing_strategies.py:52 | transmission times are non-negative |
| RoutingStrategies.FifoFrame | routing_strategies.py:53 | `last_finish` gains exactly the path's links; other links keep their times |
| RoutingStrategies.FifoClock | routing_strategies.py:47-53 | the completion time is at least the sum of the hop times |
| RoutingStrategies.FifoKeepsOrder | routing_strategies.py:50-53 | no link's free time ever moves earlier |
| RoutingStrategies.FifoHopFloor | routing_strategies.py:50-53 | each hop finishes no earlier than its link's old free time plus its own transmission time |
| RoutingStrategies.FinishTimes.constructor | non_uniform_traffic.py:33 | `last_finish` starts empty |
| RoutingStrategies.SimulateFct | routing_strategies.py:46-54 | the loop returns the FIFO completion time and leaves `last_finish` updated accordingly; a path of fewer than two nodes takes 0 |
| RoutingStrategies.SecondFlowWaits | routing_strategies.py:50-53 | a later flow sharing a link finishes no earlier than the earlier flow's finish on it plus its own hop time |
| Evaluation.Route | non_uniform_traffic.py:39-44 | the chosen strategy returns no path for same-pod pairs, and any path it returns joins `src` to `dst`; an ECMP path is simple and no walk between the two is shorter, a TE path is simple with at most 6 hops |
| Evaluation.RaiseLinks | non_uniform_traffic.py:52-53 | raising usage keeps the link set |
| Evaluation.Step | non_uniform_traffic.py:38-57 | one flow keeps the graph well-formed and its nodes and edges unchanged |
| Evaluation.StepSkips | non_uniform_traffic.py:46-47 | a flow with no path changes nothing |
| Evaluation.StepRoutes | non_uniform_traffic.py:49-57 | a routed flow appends its hop count and a completion time at least its transmission time, and raises each link by `FLOW_UNIT` per crossing |
| Evaluation.StepShape | non_uniform_traffic.py:46-57 | every step extends `hop_list` and `fct_list` by at most one entry together and never lowers usage |
| Evaluation.ReplayLengths | non_uniform_traffic.py:37-57 | the loop yields equally long lists with at most one entry per request |
| Evaluation.ReplayUsageGrows | non_uniform_traffic.py:37-57 | over the loop, capacities are fixed and usage only grows |
| Evaluation.ReplayFails | non_uniform_traffic.py:40-44 | a search error on any request ends the run with an error |
| Evaluation.RoutedOcsBusy | non_uniform_traffic.py:64-67 | an OCS node inside a routed path counts as used afterwards |
| Evaluation.RoutedOffPath | non_uniform_traffic.py:52-53 | links off the path keep their usage |
| Evaluation.RunFlow | non_uniform_traffic.py:38-57 | one loop iteration advances `Replay` by one request, or fails with it |
| Evaluation.RunFlows | non_uniform_traffic.py:37-57 | the loop succeeds exactly when `Replay` does, and then leaves the graph, `last_finish`, `hop_list` and `fct_list` that `Replay` gives |
| Evaluation.OcsUsedCounts | non_uniform_traffic.py:64-67 | over distinct nodes, the count is the number of used OCS nodes and at most the number of OCS nodes |
| Evaluation.CountOcsUsed | non_uniform_traffic.py:64-67 | `ocs_used` is the number of OCS nodes with a positive-usage link, at most the number of OCS nodes |
| NonUniformTraffic.Repeat | non_uniform_traffic.py:26 | `[(src, dst)] * weight` has `weight` entries |
| NonUniformTraffic.RequestsCount | non_uniform_traffic.py:21-26 | each pair occurs `weight` times when it crosses pods, and 0 times otherwise |
| NonUniformTraffic.TrafficDemand | non_uniform_traffic.py:18-26 | ToR pair demand: 0 within a pod, 5 between pods 0 and 1, else 1 |
| NonUniformTraffic.PairDemand | non_uniform_traffic.py:23-25 | the skip test on ToR names is "same pod", and the weight is 5 exactly for the pod set {0, 1} |
| NonUniformTraffic.RequestsCrossPods | non_uniform_traffic.py:23-26 | every request joins different nodes of different pods |
| NonUniformTraffic.Swap | non_uniform_traffic.py:27 | a swap is a permutation |
| NonUniformTraffic.ShufflePermutes | non_uniform_traffic.py:27 | the Fisher-Yates result is a permutation of its input |
| NonUniformTraffic.Shuffle | non_uniform_traffic.py:27 | the in-place `random.shuffle` loop computes the Fisher-Yates result, a permutation |
| NonUniformTraffic.ExtendRow | non_uniform_traffic.py:22-26 | the inner loop appends the source's weighted row |
| NonUniformTraffic.GenerateTraffic | non_uniform_traffic.py:18-28 | `generate_traffic` returns a shuffle of the weighted all-pairs request list |
| NonUniformTraffic.TrafficDemandShuffled | non_uniform_traffic.py:18-28 | after the shuffle each ToR pair still occurs 0, 5 or 1 times, by pods |
| NonUniformTraffic.TrafficCrossPods | non_uniform_traffic.py:18-28 | every generated flow joins two distinct listed ToRs of different pods |
| NonUniformTraffic.TrafficIn | non_uniform_traffic.py:31-32 | every generated flow's ends are nodes of the built graph |
| NonUniformTraffic.RunStrategy | non_uniform_traffic.py:30-67 | builds the uniform topology, then its outcome is `Replay` over the generated traffic; at most one hop and one completion time per request; `ocs_used` counts the used OCS nodes |
| OcsTopoCompar.AppendRow | ocs_topo_compar.py:18-20 | the inner loop appends the source's row |
| OcsTopoCompar.GenerateTraffic | ocs_topo_compar.py:14-21 | `generate_traffic` returns the all-to-all cross-pod list, `(P*T) * ((P-1)*T)` long |
| OcsTopoCompar.RequestsCount | ocs_topo_compar.py:17-20 | over distinct ToRs, each cross-pod pair occurs once and any other pair never |
| OcsTopoCompar.CrossPodOfTors | ocs_topo_compar.py:19 | for ToR names, the test holds exactly for different pods |
| OcsTopoCompar.TrafficPairsOnce | ocs_topo_compar.py:14-21 | every cross-pod ToR pair occurs exactly once |
| OcsTopoCompar.RequestsMember | ocs_topo_compar.py:17-20 | every request joins two distinct nodes with different pod prefixes |
| OcsTopoCompar.TrafficCrossPods | ocs_topo_compar.py:14-21 | every flow joins two distinct listed ToRs, and `pod_id` tells their pods apart |
| OcsTopoCompar.TrafficLength | ocs_topo_compar.py:14-21 | the request list has `(P*T) * ((P-1)*T)` entries |
| OcsTopoCompar.TrafficIn | ocs_topo_compar.py:24-25 | every generated flow's ends are nodes of the built graph |
| OcsTopoCompar.RunStrategy | ocs_topo_compar.py:23-61 | builds the uniform topology, then its outcome is `Replay` over the all-to-all traffic; at most `(P*T) * ((P-1)*T)` hops and completion times; `ocs_used` counts the used OCS nodes |

## Left out

- Plotting (`custom_layout`, matplotlib) and the `__main__` blocks are not modelled. They draw and save figures only.
- The metrics after the loop are not computed: mean, percentile, standard deviation, `round` and the pandas table are floating-point statistics. `RunStrategy` returns the raw `hop_list`, `fct_list`, final graph and `ocs_used` instead.
- Floating point: capacities, usage and times are `real`, and `1e-1` is the exact real `1/10`. Rounding is not modelled.
- The Mersenne Twister, `random.seed(42)` and the exact way `random.choice` and `random.shuffle` consume bits are not modelled. Draws are inputs, reduced `% n`.
- Draw streams: each driver's topology build, shuffle and routing read separate streams, and flow `k` routes with draw `k`. The source draws all of them from one global generator, so the model covers every interleaving but not the specific one the seed gives.
- The networkx searches are inputs (`Evaluation.PathSearch`) constrained by `Evaluation.Sound`. The search algorithms themselves are not part of this model. Where networkx raises `NetworkXNoPath`, the search returns `None` and the run ends in `Failure`.
- Topology.WireRandomPair: the random loop also stops when the finite draw stream runs out. The settledness of all Aggr pairs it states therefore holds only when draws remain; the source would keep drawing. Every pair it did draw is settled either way.
- Topology.WireRandom, Topology.BuildUniform, Topology.BuildNonUniform: they state settledness of a short pod pair only when its stretch of draws ended with two draws left, for the same reason.
- Topology.TryWire: `G.degree(a)` of a missing Aggr (a table pod beyond `NUM_PODS`) returns a `DegreeView` rather than a number, and the `<` comparison with it at topology.py:63 raises `TypeError`. It is modelled as `ok == false`, not as an exception.
- Topology.WireRoundRobinPair: `next` on `cycle([])` raises `StopIteration`. It is modelled as `ok == false`.
- Every builder requires `LINK_CAPACITY > 0`, because utilisation and transmission time divide by it. The source does not check it.
- NodeNames.ParseNat: `int()` is modelled on ASCII digits only. Signs, whitespace, underscores and non-ASCII digits are not modelled, and no pod name contains them.
- The module-level `config` object is a `TopoConfig` parameter. `Topology.DefaultConfig` holds its defaults.
- `G.nodes` iteration order is not modelled. `CountOcsUsed` counts over the node set, which gives the same number in any order.
- Each driver's own `pod_id` (`non_uniform_traffic.py:14-15`, `ocs_topo_compar.py:10-11`) is the single `NodeNames.PodId`, since the two are textually identical.
- Graph usage is stated through `Fabric.Raised` (adding `amount` once per crossing). `Fabric.RaisedUsage` gives the closed form `usage + amount * k`.

=== FILE: evaluation.dfy ===
/**
 * The per-flow loop that both driver scripts run in `run_strategy`: route
 * the flow with the chosen strategy, skip it when there is no route,
 * otherwise record its hop count, add `FLOW_UNIT` to the usage of every
 * link it crosses and record its completion time; and the "OCS Links Used"
 * count taken at the end.
 */
module Evaluation {
  import opened Wrappers
  import opened NodeNames
  import opened Fabric
  import opened Topology
  import opened RoutingStrategies

  /** The `name` argument of `run_strategy`. */
  datatype Strategy = Ecmp | Vlb | Te

  type Flow = (NodeId, NodeId)

  /**
   * networkx's path searches, as functions of the graph: `allShortest` is
   * `list(nx.all_shortest_paths(G, s, d))` and `shortest` is
   * `nx.shortest_path(G, s, d)`, both `None` where networkx raises
   * `NetworkXNoPath`; `allSimple` is `list(nx.all_simple_paths(G, s, d, cutoff=6))`.
   */
  datatype PathSearch = PathSearch(
    allShortest: (Network, NodeId, NodeId) -> Option<seq<Path>>,
    shortest: (Network, NodeId, NodeId) -> Option<Path>,
    allSimple: (Network, NodeId, NodeId) -> seq<Path>)

  /**
   * What networkx hands back, for the graph and the two nodes it was asked
   * about: `all_shortest_paths` gives simple paths no walk between the two
   * nodes is shorter than, `shortest_path` a path between them, and
   * `all_simple_paths` with `cutoff=6` simple paths of at most six hops.
   */
  ghost predicate Sound(search: PathSearch)
  {
    && (forall net: Network, s: NodeId, d: NodeId | search.allShortest(net, s, d).Some? ::
          ShortestPaths(net, s, d, search.allShortest(net, s, d).value))
    && (forall net: Network, s: NodeId, d: NodeId | search.shortest(net, s, d).Some? ::
          net.PathBetween(search.shortest(net, s, d).value, s, d))
    && (forall net: Network, s: NodeId, d: NodeId :: SimplePathsWithin(net, s, d, search.allSimple(net, s, d)))
  }

  /**
   * The strategy dispatch of `run_strategy`: the route of one flow (`None`
   * when the strategy gives none) or the exception the strategy raises.
   * TE runs with its default weights `alpha = beta = 1.0`.
   */
  function Route(strategy: Strategy, net: Network, cfg: TopoConfig, tors: seq<NodeId>, search: PathSearch,
                 src: NodeId, dst: NodeId, draw: nat): (r: Result<Option<Path>>)
    requires net.Valid() && src in net.kinds && dst in net.kinds && Sound(search)
    ensures SamePod(net, src, dst) ==> r == Success(None)
    ensures r.Success? && r.value.Some? ==> net.PathBetween(r.value.value, src, dst)
    ensures strategy == Ecmp && r.Success? && r.value.Some? ==>
              net.IsSimple(r.value.value) && forall w | net.PathBetween(w, src, dst) :: Hops(r.value.value) <= Hops(w)
    ensures strategy == Te && r.Success? && r.value.Some? ==> net.IsSimple(r.value.value) && Hops(r.value.value) <= 6
  {
    match strategy
    case Ecmp => RunEcmp(net, src, dst, search.allShortest(net, src, dst), draw)
    case Vlb =>
      var shortest := (a: NodeId, b: NodeId) => search.shortest(net, a, b);
      var r := RunVlb(net, tors, src, dst, draw, shortest);
      if r.Success? && r.value.Some? then
        VlbRoute(net, tors, src, dst, draw, shortest);
        r
      else r
    case Te => Success(RunTe(net, cfg, src, dst, search.allSimple(net, src, dst), 1.0, 1.0))
  }

  /** The edge map after `G[u][v]["usage"] += amount` along every hop of `path`. */
  function RaiseLinks(links: map<Link, Edge>, path: Path, amount: real): (ls: map<Link, Edge>)
    ensures ls.Keys == links.Keys
  {
    map l | l in links :: Raised(links[l], amount, Crossings(path, l))
  }

  /** What the loop keeps between flows: the graph, `last_finish`, `hop_list` and `fct_list`. */
  datatype Sim = Sim(net: Network, last: map<Link, real>, hops: seq<int>, fcts: seq<real>)

  /** All flows' endpoints are nodes of the graph. */
  ghost predicate FlowsIn(net: Network, flows: seq<Flow>)
  {
    forall k | 0 <= k < |flows| :: flows[k].0 in net.kinds && flows[k].1 in net.kinds
  }

  /**
   * One iteration of the flow loop. A flow without a route leaves the state
   * as it was; a routed flow appends its hop count, raises the usage along
   * its path and appends the completion time `simulate_fct` computes on the
   * updated graph. An exception ends the run.
   */
  function Step(strategy: Strategy, cfg: TopoConfig, tors: seq<NodeId>, search: PathSearch, s: Sim, f: Flow, draw: nat)
    : (r: Result<Sim>)
    requires s.net.Valid() && f.0 in s.net.kinds && f.1 in s.net.kinds && Sound(search)
    ensures r.Success? ==> r.value.net.Valid() && r.value.net.kinds == s.net.kinds && r.value.net.adj == s.net.adj
  {
    match Route(strategy, s.net, cfg, tors, search, f.0, f.1, draw)
    case Failure(e) => Failure(e)
    case Success(None) => Success(s)
    case Success(Some(path)) =>
      if |path| == 0 then Success(s)
      else
        var amount := cfg.flowUnit as real;
        var net' := Network(s.net.kinds, s.net.adj, RaiseLinks(s.net.links, path, amount));
        RaisedKeepsValid(s.net, net'.links, amount, path);
        var fifo := Fifo(Steps(path), HopTimes(net', path, amount), 0, 0.0, s.last);
        Success(Sim(net', fifo.1, s.hops + [|path| - 1], s.fcts + [fifo.0]))
  }

  /** The loop over `traffic_requests` from flow `k` on, flow `k` using the `k`-th draw. */
  function Replay(strategy: Strategy, cfg: TopoConfig, tors: seq<NodeId>, search: PathSearch, s: Sim,
                  flows: seq<Flow>, draws: nat -> nat, k: nat): Result<Sim>
    requires s.net.Valid() && FlowsIn(s.net, flows) && Sound(search)
    decreases |flows| - k
  {
    if k >= |flows| then Success(s)
    else
      match Step(strategy, cfg, tors, search, s, flows[k], draws(k))
      case Failure(e) => Failure(e)
      case Success(s') => Replay(strategy, cfg, tors, search, s', flows, draws, k + 1)
  }

  /** A flow the strategy gives no route is skipped: no usage change, no hop and no completion time. */
  lemma StepSkips(strategy: Strategy, cfg: TopoConfig, tors: seq<NodeId>, search: PathSearch, s: Sim, f: Flow, draw: nat)
    requires s.net.Valid() && f.0 in s.net.kinds && f.1 in s.net.kinds && Sound(search)
    requires Route(strategy, s.net, cfg, tors, search, f.0, f.1, draw) == Success(None) || SamePod(s.net, f.0, f.1)
    ensures Step(strategy, cfg, tors, search, s, f, draw) == Success(s)
  {
  }

  /** The graph after a routed flow: the same nodes and edges with the usage raised along the path. */
  function Routed(net: Network, path: Path, amount: real): Network
  {
    Network(net.kinds, net.adj, RaiseLinks(net.links, path, amount))
  }

  /** The state after a flow the strategy routes along `path`. */
  lemma StepRouted(strategy: Strategy, cfg: TopoConfig, tors: seq<NodeId>, search: PathSearch, s: Sim, f: Flow, draw: nat, path: Path)
    requires s.net.Valid() && f.0 in s.net.kinds && f.1 in s.net.kinds && Sound(search)
    requires Route(strategy, s.net, cfg, tors, search, f.0, f.1, draw) == Success(Some(path))
    ensures s.net.IsWalk(path) && |path| > 0 && Routed(s.net, path, cfg.flowUnit as real).Valid()
    ensures var net' := Routed(s.net, path, cfg.flowUnit as real);
            var fifo := Fifo(Steps(path), HopTimes(net', path, cfg.flowUnit as real), 0, 0.0, s.last);
            Step(strategy, cfg, tors, search, s, f, draw) == Success(Sim(net', fifo.1, s.hops + [|path| - 1], s.fcts + [fifo.0]))
  {
    var amount := cfg.flowUnit as real;
    RaisedKeepsValid(s.net, RaiseLinks(s.net.links, path, amount), amount, path);
  }

  /** The edge `l` after routing along `path`: raised once per crossing. */
  lemma RoutedAt(net: Network, path: Path, amount: real, l: Link)
    requires l in net.links
    ensures Routed(net, path, amount).links[l] == Raised(net.links[l], amount, Crossings(path, l))
  {
  }

  /**
   * A routed flow: the hop list and the completion-time list each grow by
   * one entry, the hop being `len(path) - 1`; each edge's usage rises by
   * `FLOW_UNIT` for every time the path crosses it, capacities stay, and
   * the completion time is at least the flow's pure transfer time.
   */
  lemma StepRoutes(strategy: Strategy, cfg: TopoConfig, tors: seq<NodeId>, search: PathSearch, s: Sim, f: Flow, draw: nat, path: Path)
    requires s.net.Valid() && f.0 in s.net.kinds && f.1 in s.net.kinds && Sound(search)
    requires Route(strategy, s.net, cfg, tors, search, f.0, f.1, draw) == Success(Some(path))
    ensures var r := Step(strategy, cfg, tors, search, s, f, draw);
            && r.Success?
            && r.value.hops == s.hops + [Hops(path)] && Hops(path) >= 0
            && r.value.fcts[..|s.fcts|] == s.fcts && |r.value.fcts| == |s.fcts| + 1
            && r.value.fcts[|s.fcts|] >= SumFrom(HopTimes(r.value.net, path, cfg.flowUnit as real), 0)
            && r.value.net.kinds == s.net.kinds && r.value.net.adj == s.net.adj
            && r.value.net.links.Keys == s.net.links.Keys
            && (forall l | l in s.net.links :: r.value.net.links[l] == Raised(s.net.links[l], cfg.flowUnit as real, Crossings(path, l)))
  {
    var amount := cfg.flowUnit as real;
    StepRouted(strategy, cfg, tors, search, s, f, draw, path);
    var net' := Routed(s.net, path, amount);
    HopTimesNonNegative(net', path, amount);
    FifoClock(Steps(path), HopTimes(net', path, amount), 0, 0.0, s.last);
    var fifo := Fifo(Steps(path), HopTimes(net', path, amount), 0, 0.0, s.last);
    assert (s.fcts + [fifo.0])[..|s.fcts|] == s.fcts;
    forall l | l in s.net.links ensures net'.links[l] == Raised(s.net.links[l], amount, Crossings(path, l)) {
      RoutedAt(s.net, path, amount, l);
    }
  }

  /** Whatever the flow, a step that succeeds keeps the edges, never lowers a usage, and grows both lists by the same 0 or 1 entries. */
  lemma StepShape(strategy: Strategy, cfg: TopoConfig, tors: seq<NodeId>, search: PathSearch, s: Sim, f: Flow, draw: nat)
    requires s.net.Valid() && f.0 in s.net.kinds && f.1 in s.net.kinds && Sound(search)
    ensures var r := Step(strategy, cfg, tors, search, s, f, draw);
            r.Success? ==>
              && r.value.net.links.Keys == s.net.links.Keys
              && (forall l | l in s.net.links ::
                    r.value.net.links[l].capacity == s.net.links[l].capacity && r.value.net.links[l].usage >= s.net.links[l].usage)
              && |r.value.hops| - |s.hops| == |r.value.fcts| - |s.fcts| <= 1
              && |s.hops| <= |r.value.hops| && r.value.hops[..|s.hops|] == s.hops
  {
    var route := Route(strategy, s.net, cfg, tors, search, f.0, f.1, draw);
    if route.Success? && route.value.Some? {
      var path := route.value.value;
      StepRoutes(strategy, cfg, tors, search, s, f, draw, path);
      assert (s.hops + [Hops(path)])[..|s.hops|] == s.hops;
      var r := Step(strategy, cfg, tors, search, s, f, draw).value;
      forall l | l in s.net.links ensures r.net.links[l].capacity == s.net.links[l].capacity && r.net.links[l].usage >= s.net.links[l].usage {
        RaisedNotBelow(s.net.links[l], cfg.flowUnit as real, Crossings(path, l));
      }
    }
  }


  /** The first flow of a run that completes: its step succeeds, keeps the edges, never lowers a usage and grows both lists together. */
  lemma ReplayStep(strategy: Strategy, cfg: TopoConfig, tors: seq<NodeId>, search: PathSearch, s: Sim,
                   flows: seq<Flow>, draws: nat -> nat, k: nat)
    returns (s': Sim)
    requires s.net.Valid() && FlowsIn(s.net, flows) && Sound(search) && k < |flows|
    requires Replay(strategy, cfg, tors, search, s, flows, draws, k).Success?
    ensures s'.net.Valid() && FlowsIn(s'.net, flows)
    ensures Replay(strategy, cfg, tors, search, s, flows, draws, k) == Replay(strategy, cfg, tors, search, s', flows, draws, k + 1)
    ensures s'.net.kinds == s.net.kinds && s'.net.adj == s.net.adj && s'.net.links.Keys == s.net.links.Keys
    ensures forall l | l in s.net.links ::
              s'.net.links[l].capacity == s.net.links[l].capacity && s'.net.links[l].usage >= s.net.links[l].usage
    ensures |s'.hops| - |s.hops| == |s'.fcts| - |s.fcts| <= 1
    ensures |s.hops| <= |s'.hops| && s'.hops[..|s.hops|] == s.hops
  {
    s' := Step(strategy, cfg, tors, search, s, flows[k], draws(k)).value;
    ReplayNext(strategy, cfg, tors, search, s, flows, draws, k, s');
    StepShape(strategy, cfg, tors, search, s, flows[k], draws(k));
  }

  /** Over any run that completes, `hop_list` and `fct_list` grow together, by at most one entry per flow. */
  lemma {:induction false} ReplayLengths(strategy: Strategy, cfg: TopoConfig, tors: seq<NodeId>, search: PathSearch, s: Sim,
                                         flows: seq<Flow>, draws: nat -> nat, k: nat)
    requires s.net.Valid() && FlowsIn(s.net, flows) && Sound(search) && k <= |flows|
    ensures var r := Replay(strategy, cfg, tors, search, s, flows, draws, k);
            r.Success? ==>
              && |r.value.hops| - |s.hops| == |r.value.fcts| - |s.fcts|
              && |s.hops| <= |r.value.hops| <= |s.hops| + (|flows| - k)
              && r.value.hops[..|s.hops|] == s.hops
    decreases |flows| - k
  {
    if k < |flows| && Replay(strategy, cfg, tors, search, s, flows, draws, k).Success? {
      var s' := ReplayStep(strategy, cfg, tors, search, s, flows, draws, k);
      ReplayLengths(strategy, cfg, tors, search, s', flows, draws, k + 1);
      var r := Replay(strategy, cfg, tors, search, s', flows, draws, k + 1).value;
      LengthsCompose(s.hops, s.fcts, s'.hops, s'.fcts, r.hops, r.fcts, |flows| - k);
    }
  }

  /** One step that adds at most one entry to each list, followed by `n - 1` more steps of the same kind. */
  lemma LengthsCompose(h0: seq<int>, f0: seq<real>, h1: seq<int>, f1: seq<real>, h2: seq<int>, f2: seq<real>, n: nat)
    requires |h1| - |h0| == |f1| - |f0| <= 1 && |h0| <= |h1| && h1[..|h0|] == h0
    requires |h2| - |h1| == |f2| - |f1| && |h1| <= |h2| <= |h1| + (n - 1) && h2[..|h1|] == h1
    ensures |h2| - |h0| == |f2| - |f0| && |h0| <= |h2| <= |h0| + n && h2[..|h0|] == h0
  {
    assert h2[..|h0|] == h2[..|h1|][..|h0|];
  }

  /** No edge's usage ever goes down over the run, and the edges stay the same. */
  lemma {:induction false} ReplayUsageGrows(strategy: Strategy, cfg: TopoConfig, tors: seq<NodeId>, search: PathSearch, s: Sim,
                                            flows: seq<Flow>, draws: nat -> nat, k: nat)
    requires s.net.Valid() && FlowsIn(s.net, flows) && Sound(search)
    ensures var r := Replay(strategy, cfg, tors, search, s, flows, draws, k);
            r.Success? ==>
              && r.value.net.kinds == s.net.kinds && r.value.net.adj == s.net.adj
              && r.value.net.links.Keys == s.net.links.Keys
              && forall l | l in s.net.links ::
                   r.value.net.links[l].capacity == s.net.links[l].capacity && r.value.net.links[l].usage >= s.net.links[l].usage
    decreases |flows| - k
  {
    if k < |flows| && Replay(strategy, cfg, tors, search, s, flows, draws, k).Success? {
      var s' := ReplayStep(strategy, cfg, tors, search, s, flows, draws, k);
      ReplayUsageGrows(strategy, cfg, tors, search, s', flows, draws, k + 1);
      var net' := Replay(strategy, cfg, tors, search, s', flows, draws, k + 1).value.net;
      forall l | l in s.net.links
        ensures net'.links[l].capacity == s.net.links[l].capacity && net'.links[l].usage >= s.net.links[l].usage
      {
        assert l in s'.net.links;
      }
    }
  }

  /** A flow whose strategy raises ends the run with that exception. */
  lemma ReplayFails(strategy: Strategy, cfg: TopoConfig, tors: seq<NodeId>, search: PathSearch, s: Sim,
                    flows: seq<Flow>, draws: nat -> nat, k: nat)
    requires s.net.Valid() && FlowsIn(s.net, flows) && Sound(search) && k < |flows|
    requires Route(strategy, s.net, cfg, tors, search, flows[k].0, flows[k].1, draws(k)).Failure?
    ensures Replay(strategy, cfg, tors, search, s, flows, draws, k).Failure?
  {
  }

  /** A flow without a route moves the run on to the next flow with the state unchanged. */
  lemma ReplaySkips(strategy: Strategy, cfg: TopoConfig, tors: seq<NodeId>, search: PathSearch, s: Sim,
                    flows: seq<Flow>, draws: nat -> nat, k: nat)
    requires s.net.Valid() && FlowsIn(s.net, flows) && Sound(search) && k < |flows|
    requires var r := Route(strategy, s.net, cfg, tors, search, flows[k].0, flows[k].1, draws(k));
             r.Success? && (r.value.None? || |r.value.value| == 0)
    ensures Replay(strategy, cfg, tors, search, s, flows, draws, k) == Replay(strategy, cfg, tors, search, s, flows, draws, k + 1)
  {
  }

  /** A routed flow moves the run on to the next flow from the state `Step` describes. */
  lemma ReplayRoutes(strategy: Strategy, cfg: TopoConfig, tors: seq<NodeId>, search: PathSearch, s: Sim,
                     flows: seq<Flow>, draws: nat -> nat, k: nat, path: Path)
    requires s.net.Valid() && FlowsIn(s.net, flows) && Sound(search) && k < |flows|
    requires Route(strategy, s.net, cfg, tors, search, flows[k].0, flows[k].1, draws(k)) == Success(Some(path))
    ensures s.net.IsWalk(path) && |path| > 0 && Routed(s.net, path, cfg.flowUnit as real).Valid()
    ensures var net' := Routed(s.net, path, cfg.flowUnit as real);
            var fifo := Fifo(Steps(path), HopTimes(net', path, cfg.flowUnit as real), 0, 0.0, s.last);
            var s' := Sim(net', fifo.1, s.hops + [|path| - 1], s.fcts + [fifo.0]);
            && FlowsIn(net', flows)
            && Replay(strategy, cfg, tors, search, s, flows, draws, k) == Replay(strategy, cfg, tors, search, s', flows, draws, k + 1)
  {
    StepRouted(strategy, cfg, tors, search, s, flows[k], draws(k), path);
    var net' := Routed(s.net, path, cfg.flowUnit as real);
    var fifo := Fifo(Steps(path), HopTimes(net', path, cfg.flowUnit as real), 0, 0.0, s.last);
    ReplayNext(strategy, cfg, tors, search, s, flows, draws, k, Sim(net', fifo.1, s.hops + [|path| - 1], s.fcts + [fifo.0]));
  }

  /** A step that succeeds hands its state to the rest of the run. */
  lemma ReplayNext(strategy: Strategy, cfg: TopoConfig, tors: seq<NodeId>, search: PathSearch, s: Sim,
                   flows: seq<Flow>, draws: nat -> nat, k: nat, s': Sim)
    requires s.net.Valid() && FlowsIn(s.net, flows) && Sound(search) && k < |flows|
    requires Step(strategy, cfg, tors, search, s, flows[k], draws(k)) == Success(s')
    ensures s'.net.Valid() && FlowsIn(s'.net, flows)
    ensures Replay(strategy, cfg, tors, search, s, flows, draws, k) == Replay(strategy, cfg, tors, search, s', flows, draws, k + 1)
  {
  }

  /** What `AddUsage` leaves in the graph is the routed network. */
  lemma AddedIsRouted(before: Network, links: map<Link, Edge>, path: Path, amount: real)
    requires links.Keys == before.links.Keys
    requires forall l | l in links :: links[l] == Raised(before.links[l], amount, Crossings(path, l))
    ensures Network(before.kinds, before.adj, links) == Routed(before, path, amount)
  {
    assert links == RaiseLinks(before.links, path, amount);
  }

  /** `G[u][v]["usage"] += flow_unit` along the path, then `simulate_fct` on the updated graph. */
  method CarryFlow(g: Graph, path: Path, ft: FinishTimes, amount: real) returns (t: real)
    requires g.Valid() && g.View().IsWalk(path) && amount >= 0.0
    modifies g, ft
    ensures g.Valid() && g.kinds == old(g.kinds) && g.adj == old(g.adj) && g.View().IsWalk(path)
    ensures g.View() == Routed(old(g.View()), path, amount)
    ensures (t, ft.last) == Fifo(Steps(path), HopTimes(g.View(), path, amount), 0, 0.0, old(ft.last))
  {
    ghost var before := g.View();
    g.AddUsage(path, amount);
    AddedIsRouted(before, g.links, path, amount);
    t := SimulateFct(g.View(), path, ft, amount);
  }

  /**
   * One pass of `run_strategy`'s loop body for flow `k`: route it, and if it
   * has a route record its hop count, raise the usage along the path and
   * record its completion time; `ok` is false when the strategy raises.
   */
  method RunFlow(strategy: Strategy, g: Graph, cfg: TopoConfig, tors: seq<NodeId>, search: PathSearch,
                 flows: seq<Flow>, draws: nat -> nat, ft: FinishTimes, k: nat, hops: seq<int>, fcts: seq<real>)
    returns (ok: bool, hops': seq<int>, fcts': seq<real>)
    requires g.Valid() && FlowsIn(g.View(), flows) && Sound(search) && k < |flows|
    modifies g, ft
    ensures g.Valid() && g.kinds == old(g.kinds) && g.adj == old(g.adj) && FlowsIn(g.View(), flows)
    ensures var r := Replay(strategy, cfg, tors, search, Sim(old(g.View()), old(ft.last), hops, fcts), flows, draws, k);
            if ok then r == Replay(strategy, cfg, tors, search, Sim(g.View(), ft.last, hops', fcts'), flows, draws, k + 1)
            else r.Failure?
  {
    ghost var cur := Sim(g.View(), ft.last, hops, fcts);
    var (src, dst) := flows[k];
    var route := Route(strategy, g.View(), cfg, tors, search, src, dst, draws(k));
    if route.Failure? {
      ReplayFails(strategy, cfg, tors, search, cur, flows, draws, k);
      return false, hops, fcts;
    }
    ok := true;
    if route.value.Some? && |route.value.value| > 0 {
      var path := route.value.value;
      var amount := cfg.flowUnit as real;
      ReplayRoutes(strategy, cfg, tors, search, cur, flows, draws, k, path);
      hops' := hops + [|path| - 1];
      var t := CarryFlow(g, path, ft, amount);
      fcts' := fcts + [t];
    } else {
      ReplaySkips(strategy, cfg, tors, search, cur, flows, draws, k);
      hops', fcts' := hops, fcts;
    }
  }

  /**
   * `run_strategy`'s loop over `traffic_requests` (both driver scripts),
   * updating the graph and `last_finish` in place; `ok` is false when a
   * strategy raises, which ends the script.
   */
  method RunFlows(strategy: Strategy, g: Graph, cfg: TopoConfig, tors: seq<NodeId>, search: PathSearch,
                  flows: seq<Flow>, draws: nat -> nat, ft: FinishTimes)
    returns (ok: bool, hops: seq<int>, fcts: seq<real>)
    requires g.Valid() && FlowsIn(g.View(), flows) && Sound(search)
    modifies g, ft
    ensures g.Valid() && g.kinds == old(g.kinds) && g.adj == old(g.adj)
    ensures var r := Replay(strategy, cfg, tors, search, Sim(old(g.View()), old(ft.last), [], []), flows, draws, 0);
            (ok <==> r.Success?) && (ok ==> r.value == Sim(g.View(), ft.last, hops, fcts))
    ensures ok ==> |hops| == |fcts| <= |flows|
  {
    ghost var whole := Replay(strategy, cfg, tors, search, Sim(g.View(), ft.last, [], []), flows, draws, 0);
    hops, fcts := [], [];
    var k := 0;
    while k < |flows|
      invariant k <= |flows| && g.Valid() && g.kinds == old(g.kinds) && g.adj == old(g.adj)
      invariant FlowsIn(g.View(), flows)
      invariant whole == Replay(strategy, cfg, tors, search, Sim(g.View(), ft.last, hops, fcts), flows, draws, k)
    {
      ok, hops, fcts := RunFlow(strategy, g, cfg, tors, search, flows, draws, ft, k, hops, fcts);
      if !ok {
        return;
      }
      k := k + 1;
    }
    ok := true;
    ReplayLengths(strategy, cfg, tors, search, Sim(old(g.View()), old(ft.last), [], []), flows, draws, 0);
  }

  /** `any(G[n][nbr]["usage"] > 0 for nbr in G.neighbors(n))`. */
  predicate Busy(net: Network, n: NodeId)
    requires n in net.adj
  {
    exists nbr | nbr in net.adj[n] :: LinkKey(n, nbr) in net.links && net.links[LinkKey(n, nbr)].usage > 0.0
  }

  /** An OCS node that carries traffic. */
  predicate UsedOcs(net: Network, n: NodeId)
  {
    n in net.kinds && net.kinds[n] == Ocs && n in net.adj && Busy(net, n)
  }

  /** `sum(1 for n in G.nodes if G.nodes[n]["type"] == "ocs" and any(...))`, over `G.nodes` listed as `nodes`. */
  function OcsUsed(net: Network, nodes: seq<NodeId>): nat
  {
    if |nodes| == 0 then 0
    else OcsUsed(net, nodes[..|nodes| - 1]) + (if UsedOcs(net, nodes[|nodes| - 1]) then 1 else 0)
  }

  /** The OCS nodes among `nodes` that carry traffic. */
  function UsedAmong(net: Network, nodes: seq<NodeId>): set<NodeId>
  {
    set n | n in nodes && UsedOcs(net, n)
  }

  /** The OCS nodes among `nodes`. */
  function OcsAmong(net: Network, nodes: seq<NodeId>): set<NodeId>
  {
    set n | n in nodes && n in net.kinds && net.kinds[n] == Ocs
  }

  /**
   * Over a list of distinct nodes, the count is exactly the number of OCS
   * nodes among them with a positive-usage incident edge, and so at most
   * the number of OCS nodes among them.
   */
  lemma {:induction false} OcsUsedCounts(net: Network, nodes: seq<NodeId>)
    requires Distinct(nodes)
    ensures OcsUsed(net, nodes) == |UsedAmong(net, nodes)|
    ensures OcsUsed(net, nodes) <= |OcsAmong(net, nodes)|
  {
    if |nodes| > 0 {
      var front, n := nodes[..|nodes| - 1], nodes[|nodes| - 1];
      assert Distinct(front) by {
        forall i, j | 0 <= i < j < |front| ensures front[i] != front[j] {
          assert front[i] == nodes[i] && front[j] == nodes[j];
        }
      }
      OcsUsedCounts(net, front);
      assert n !in front;
      UsedAmongSnoc(net, nodes);
      if UsedOcs(net, n) {
        assert n !in UsedAmong(net, front);
      }
      UsedWithinOcs(net, nodes);
      SubsetCard(UsedAmong(net, nodes), OcsAmong(net, nodes));
    }
  }

  lemma UsedAmongSnoc(net: Network, nodes: seq<NodeId>)
    requires |nodes| > 0
    ensures var n := nodes[|nodes| - 1];
            UsedAmong(net, nodes) == UsedAmong(net, nodes[..|nodes| - 1]) + (if UsedOcs(net, n) then {n} else {})
  {
    assert nodes == nodes[..|nodes| - 1] + [nodes[|nodes| - 1]];
  }

  lemma UsedWithinOcs(net: Network, nodes: seq<NodeId>)
    ensures UsedAmong(net, nodes) <= OcsAmong(net, nodes)
  {
  }

  /** The OCS nodes of the graph that carry traffic. */
  function UsedSet(net: Network): set<NodeId>
  {
    set n | n in net.kinds && UsedOcs(net, n)
  }

  /** The OCS nodes of the graph. */
  function OcsSet(net: Network): set<NodeId>
  {
    set n | n in net.kinds && net.kinds[n] == Ocs
  }

  /**
   * The `ocs_used` sum, visiting the nodes of `G.nodes` one at a time in
   * whatever order the graph lists them: the OCS nodes with a positive-usage
   * incident edge, never more than there are OCS nodes.
   */
  method CountOcsUsed(g: Graph) returns (count: nat)
    ensures count == |UsedSet(g.View())| && count <= |OcsSet(g.View())|
  {
    var net := g.View();
    var remaining := net.kinds.Keys;
    ghost var order: seq<NodeId> := [];
    count := 0;
    while remaining != {}
      invariant remaining <= net.kinds.Keys && Distinct(order)
      invariant forall n :: n in order <==> n in net.kinds && n !in remaining
      invariant count == OcsUsed(net, order)
      decreases |remaining|
    {
      var n :| n in remaining;
      if n in net.adj && net.kinds[n] == Ocs && Busy(net, n) {
        count := count + 1;
      }
      assert (order + [n])[..|order|] == order;
      order := order + [n];
      remaining := remaining - {n};
    }
    OcsUsedCounts(net, order);
    assert UsedAmong(net, order) == UsedSet(net);
    assert OcsAmong(net, order) == OcsSet(net);
  }

  /**
   * What `run_strategy` does once the fabric is built and the traffic
   * generated: the per-flow loop, from an empty `last_finish` and empty
   * hop and completion-time lists, then the "OCS Links Used" count.
   */
  method RunAndCount(strategy: Strategy, g: Graph, cfg: TopoConfig, tors: seq<NodeId>, search: PathSearch,
                     flows: seq<Flow>, draws: nat -> nat)
    returns (ok: bool, hops: seq<int>, fcts: seq<real>, ocsUsed: nat)
    requires g.Valid() && FlowsIn(g.View(), flows) && Sound(search)
    modifies g
    ensures var r := Replay(strategy, cfg, tors, search, Sim(old(g.View()), map[], [], []), flows, draws, 0);
            && (ok <==> r.Success?)
            && (ok ==> r.value.net == g.View() && r.value.hops == hops && r.value.fcts == fcts)
    ensures ok ==> |hops| == |fcts| <= |flows|
    ensures ok ==> ocsUsed == |UsedSet(g.View())| && ocsUsed <= |OcsSet(g.View())|
  {
    var ft := new FinishTimes();
    ok, hops, fcts := RunFlows(strategy, g, cfg, tors, search, flows, draws, ft);
    ocsUsed := 0;
    if ok {
      ocsUsed := CountOcsUsed(g);
    }
  }

  /**
   * With a positive flow unit, an OCS node that a routed path passes
   * through (on any hop but the last node) counts as used afterwards.
   */
  lemma RoutedOcsBusy(net: Network, path: Path, amount: real, k: nat)
    requires net.Valid() && net.IsWalk(path) && amount > 0.0 && k + 1 < |path|
    requires path[k] in net.kinds && net.kinds[path[k]] == Ocs
    ensures UsedOcs(Routed(net, path, amount), path[k])
  {
    var n, nbr := path[k], path[k + 1];
    var l := LinkKey(n, nbr);
    assert net.Adjacent(n, nbr);
    CrossedAt(path, k);
    RoutedAt(net, path, amount, l);
    RaisedPositive(net.links[l], amount, Crossings(path, l));
  }

  /** A walk crosses each of its own hops at least once. */
  lemma CrossedAt(path: Path, k: nat)
    requires k + 1 < |path|
    ensures Crossings(path, LinkKey(path[k], path[k + 1])) >= 1
  {
    var s := Steps(path);
    assert s[k] == LinkKey(path[k], path[k + 1]);
    assert s[k] in multiset(s);
  }

  /** Routing a flow leaves every edge it does not cross as it was. */
  lemma RoutedOffPath(net: Network, path: Path, amount: real, l: Link)
    requires l in net.links && l !in Steps(path)
    ensures Routed(net, path, amount).links[l] == net.links[l]
  {
    RoutedAt(net, path, amount, l);
    assert Crossings(path, l) == 0;
  }

  /** At least one addition of a positive amount to a non-negative usage leaves it positive. */
  lemma {:induction false} RaisedPositive(e: Edge, amount: real, k: nat)
    requires e.usage >= 0.0 && amount > 0.0 && k >= 1
    ensures Raised(e, amount, k).usage > 0.0
  {
    if k > 1 {
      RaisedPositive(e, amount, k - 1);
    }
  }
}

=== FILE: fabric.dfy ===
/**
 * The undirected graph the simulator keeps in a networkx `Graph`: typed nodes
 * (`type` and `pod` attributes) and edges carrying `capacity` and `usage`.
 * Edge attributes are stored once per unordered node pair, under the key
 * `LinkKey(u, v)`, so `G[u][v]` and `G[v][u]` read the same record.
 */
module Fabric {
  import opened Wrappers
  import opened NodeNames

  /** The `type`/`pod` attribute pair of a node: `pod` is `None` for OCS nodes. */
  datatype NodeKind = Tor(pod: nat) | Aggr(pod: nat) | Ocs

  /** The attribute record of an edge. */
  datatype Edge = Edge(capacity: real, usage: real)

  type Link = (NodeId, NodeId)
  type Path = seq<NodeId>

  /** Python's `a <= b` on strings: lexicographic order by code point. */
  predicate StrLe(a: string, b: string)
    decreases |a|
  {
    |a| == 0 || (|b| > 0 && (a[0] < b[0] || (a[0] == b[0] && StrLe(a[1..], b[1..]))))
  }

  lemma {:induction false} StrLeTotal(a: string, b: string)
    ensures StrLe(a, b) || StrLe(b, a)
    decreases |a|
  {
    if |a| > 0 && |b| > 0 && a[0] == b[0] {
      StrLeTotal(a[1..], b[1..]);
    }
  }

  lemma {:induction false} StrLeAntisymmetric(a: string, b: string)
    requires StrLe(a, b) && StrLe(b, a)
    ensures a == b
    decreases |a|
  {
    if |a| > 0 {
      StrLeAntisymmetric(a[1..], b[1..]);
      assert a == [a[0]] + a[1..] && b == [b[0]] + b[1..];
    }
  }

  /** `tuple(sorted([u, v]))`: the canonical key of the unordered pair {u, v}. */
  function LinkKey(u: NodeId, v: NodeId): (l: Link)
    ensures (l == (u, v) || l == (v, u)) && StrLe(l.0, l.1)
  {
    StrLeTotal(u, v);
    if StrLe(u, v) then (u, v) else (v, u)
  }

  /** Both orientations of an edge share one key. */
  lemma LinkKeySymmetric(u: NodeId, v: NodeId)
    ensures LinkKey(u, v) == LinkKey(v, u)
  {
    if StrLe(u, v) && StrLe(v, u) {
      StrLeAntisymmetric(u, v);
    }
  }

  /** The links a walk crosses, one per consecutive node pair, in order. */
  function Steps(path: Path): (s: seq<Link>)
    ensures |s| == if |path| < 2 then 0 else |path| - 1
  {
    if |path| < 2 then []
    else seq(|path| - 1, j requires 0 <= j < |path| - 1 => LinkKey(path[j], path[j + 1]))
  }

  /** How many times a walk crosses link `l` (in either direction). */
  function Crossings(path: Path, l: Link): nat
  {
    multiset(Steps(path))[l]
  }

  /** A snapshot of the graph's state, read by the routing strategies. */
  datatype Network = Network(kinds: map<NodeId, NodeKind>, adj: map<NodeId, set<NodeId>>, links: map<Link, Edge>)
  {
    /** Simple undirected graph whose every edge has a positive capacity and a non-negative usage. */
    ghost predicate Valid()
    {
      && adj.Keys == kinds.Keys
      && (forall u | u in adj :: u !in adj[u] && adj[u] <= kinds.Keys)
      && (forall u, v | u in adj && v in adj[u] :: u in adj[v])
      && (forall u, v | u in adj && v in adj[u] :: LinkKey(u, v) in links)
      && Weighted()
    }

    ghost predicate Weighted()
    {
      forall l | l in links :: links[l].capacity > 0.0 && links[l].usage >= 0.0
    }

    predicate Adjacent(u: NodeId, v: NodeId)
    {
      u in adj && v in adj[u]
    }

    /** `G.degree(n)`. */
    function Degree(n: NodeId): nat
      requires n in adj
    {
      |adj[n]|
    }

    /** `G.nodes[n]["pod"]`. */
    function PodAttr(n: NodeId): Option<nat>
      requires n in kinds
    {
      match kinds[n]
      case Tor(p) => Some(p)
      case Aggr(p) => Some(p)
      case Ocs => None
    }

    predicate IsAggr(n: NodeId)
    {
      n in kinds && kinds[n].Aggr?
    }

    /** Consecutive nodes are adjacent: every `G[u][v]` along it exists. */
    predicate IsWalk(p: Path)
    {
      forall i | 0 <= i < |p| - 1 :: Adjacent(p[i], p[i + 1])
    }

    /** A non-empty walk all of whose nodes are in the graph. */
    predicate IsPath(p: Path)
    {
      |p| >= 1 && (forall i | 0 <= i < |p| :: p[i] in kinds) && IsWalk(p)
    }

    predicate PathBetween(p: Path, a: NodeId, b: NodeId)
    {
      IsPath(p) && p[0] == a && p[|p| - 1] == b
    }

    /** No node repeats. */
    predicate IsSimple(p: Path)
    {
      forall i, j | 0 <= i < j < |p| :: p[i] != p[j]
    }

    /** `G[u][v]` for an edge of the graph. */
    function EdgeOf(u: NodeId, v: NodeId): (e: Edge)
      requires Valid() && Adjacent(u, v)
      ensures e.capacity > 0.0 && e.usage >= 0.0
    {
      links[LinkKey(u, v)]
    }
  }

  lemma ValidAfterEdge(net: Network, u: NodeId, v: NodeId, e: Edge)
    requires net.Valid() && u in net.kinds && v in net.kinds && u != v
    requires e.capacity > 0.0 && e.usage >= 0.0
    ensures Network(net.kinds,
                    net.adj[u := net.adj[u] + {v}][v := net.adj[v] + {u}],
                    net.links[LinkKey(u, v) := e]).Valid()
  {
    var adj := net.adj[u := net.adj[u] + {v}][v := net.adj[v] + {u}];
    var links := net.links[LinkKey(u, v) := e];
    forall x | x in adj
      ensures x !in adj[x] && adj[x] <= net.kinds.Keys
    {
      if x != u && x != v {
        assert adj[x] == net.adj[x];
      }
    }
    forall x, y | x in adj && y in adj[x]
      ensures x in adj[y]
    {
      if !(x == u && y == v) && !(x == v && y == u) {
        assert y in net.adj[x];
      }
    }
    LinkKeySymmetric(u, v);
    forall x, y | x in adj && y in adj[x]
      ensures LinkKey(x, y) in links
    {
      if !(x == u && y == v) && !(x == v && y == u) {
        assert y in net.adj[x];
      }
    }
    assert Network(net.kinds, adj, links).Weighted();
  }

  /** An edge record after `k` additions of `amount` to its usage. */
  function Raised(e: Edge, amount: real, k: nat): (r: Edge)
    ensures r.capacity == e.capacity
  {
    if k == 0 then e else Edge(e.capacity, Raised(e, amount, k - 1).usage + amount)
  }

  /** `k` additions of `amount` raise the usage by exactly `amount * k`. */
  lemma {:induction false} RaisedUsage(e: Edge, amount: real, k: nat)
    ensures Raised(e, amount, k).usage == e.usage + amount * (k as real)
  {
    if k > 0 {
      RaisedUsage(e, amount, k - 1);
    }
  }

  lemma {:induction false} RaisedNotBelow(e: Edge, amount: real, k: nat)
    requires amount >= 0.0
    ensures Raised(e, amount, k).usage >= e.usage
  {
    if k > 0 {
      RaisedNotBelow(e, amount, k - 1);
    }
  }

  lemma StepsAreLinks(net: Network, path: Path)
    requires net.Valid() && net.IsWalk(path)
    ensures forall j | 0 <= j < |Steps(path)| :: Steps(path)[j] in net.links
  {
    forall j | 0 <= j < |Steps(path)| ensures Steps(path)[j] in net.links {
      assert net.Adjacent(path[j], path[j + 1]);
    }
  }

  /** `ls` is `links` with each link's usage raised by `amount` once per occurrence in `steps`. */
  ghost predicate RaisedBy(links: map<Link, Edge>, ls: map<Link, Edge>, steps: seq<Link>, amount: real)
  {
    ls.Keys == links.Keys && forall l | l in ls :: ls[l] == Raised(links[l], amount, multiset(steps)[l])
  }

  /** The usage-raising loop on the edge map itself. */
  method RaiseAlong(links: map<Link, Edge>, steps: seq<Link>, amount: real) returns (ls: map<Link, Edge>)
    requires forall j | 0 <= j < |steps| :: steps[j] in links
    ensures ls.Keys == links.Keys
    ensures forall l | l in ls :: ls[l] == Raised(links[l], amount, multiset(steps)[l])
  {
    ls := links;
    var i := 0;
    assert steps[..0] == [];
    while i < |steps|
      invariant 0 <= i <= |steps|
      invariant RaisedBy(links, ls, steps[..i], amount)
    {
      var l := steps[i];
      var ls' := ls[l := Edge(ls[l].capacity, ls[l].usage + amount)];
      RaiseOne(links, ls, ls', steps, i, amount);
      ls := ls';
      i := i + 1;
    }
    assert steps[..i] == steps;
  }

  /** One pass of the loop in `RaiseAlong` keeps its invariant. */
  lemma RaiseOne(links: map<Link, Edge>, ls: map<Link, Edge>, ls': map<Link, Edge>, steps: seq<Link>, i: nat, amount: real)
    requires i < |steps| && steps[i] in ls && RaisedBy(links, ls, steps[..i], amount)
    requires ls' == ls[steps[i] := Edge(ls[steps[i]].capacity, ls[steps[i]].usage + amount)]
    ensures RaisedBy(links, ls', steps[..i + 1], amount)
  {
    var l := steps[i];
    var before := multiset(steps[..i]);
    var after := multiset(steps[..i + 1]);
    assert steps[..i + 1] == steps[..i] + [l];
    assert after == before[l := before[l] + 1];
    forall l' | l' in ls' ensures ls'[l'] == Raised(links[l'], amount, after[l']) {
      if l' != l {
        assert after[l'] == before[l'];
      }
    }
  }

  lemma RaisedKeepsValid(net: Network, ls: map<Link, Edge>, amount: real, path: Path)
    requires net.Valid() && amount >= 0.0 && ls.Keys == net.links.Keys
    requires forall l | l in ls :: ls[l] == Raised(net.links[l], amount, Crossings(path, l))
    ensures Network(net.kinds, net.adj, ls).Valid()
  {
    forall l | l in ls ensures ls[l].capacity > 0.0 && ls[l].usage >= 0.0 {
      RaisedNotBelow(net.links[l], amount, Crossings(path, l));
    }
  }

  /** The networkx graph object, updated in place by the builders and the evaluation loop. */
  class Graph {
    var kinds: map<NodeId, NodeKind>
    var adj: map<NodeId, set<NodeId>>
    var links: map<Link, Edge>

    function View(): Network
      reads this
    {
      Network(kinds, adj, links)
    }

    ghost predicate Valid()
      reads this
    {
      View().Valid()
    }

    /** `nx.Graph()`. */
    constructor ()
      ensures Valid() && kinds == map[] && adj == map[] && links == map[]
    {
      kinds, adj, links := map[], map[], map[];
    }

    /** `G.add_node(n, type=..., pod=...)`: a new node starts without neighbours; an existing one only has its attributes replaced. */
    method AddNode(n: NodeId, kind: NodeKind)
      requires Valid()
      modifies this
      ensures Valid()
      ensures kinds == old(kinds)[n := kind]
      ensures adj == if n in old(adj) then old(adj) else old(adj)[n := {}]
      ensures links == old(links)
    {
      kinds := kinds[n := kind];
      if n !in adj {
        adj := adj[n := {}];
      }
    }

    /** `G.add_edge(u, v, capacity=c, usage=x)` between two distinct nodes already in the graph. */
    method AddEdge(u: NodeId, v: NodeId, capacity: real, usage: real)
      requires Valid() && u in kinds && v in kinds && u != v
      requires capacity > 0.0 && usage >= 0.0
      modifies this
      ensures Valid()
      ensures kinds == old(kinds)
      ensures adj == old(adj)[u := old(adj)[u] + {v}][v := old(adj)[v] + {u}]
      ensures links == old(links)[LinkKey(u, v) := Edge(capacity, usage)]
    {
      ValidAfterEdge(View(), u, v, Edge(capacity, usage));
      adj := adj[u := adj[u] + {v}][v := adj[v] + {u}];
      links := links[LinkKey(u, v) := Edge(capacity, usage)];
    }

    /** `for u, v in zip(path[:-1], path[1:]): G[u][v]["usage"] += amount`. */
    method AddUsage(path: Path, amount: real)
      requires Valid() && View().IsWalk(path) && amount >= 0.0
      modifies this
      ensures Valid()
      ensures kinds == old(kinds) && adj == old(adj) && links.Keys == old(links).Keys
      ensures forall l | l in links :: links[l] == Raised(old(links)[l], amount, Crossings(path, l))
    {
      StepsAreLinks(View(), path);
      var ls := RaiseAlong(links, Steps(path), amount);
      RaisedKeepsValid(View(), ls, amount, path);
      links := ls;
    }
  }
}

=== FILE: node_names.dfy ===
/**
 * Node identifiers of the fabric: `Pod<p>_<Role><i>` for ToRs and Aggrs and
 * `OCS_<n>` for circuit-switch nodes, together with the decimal rendering of
 * Python's `str(int)`, the parse of `int(...)` and `split('_')[0]` that the
 * driver scripts use to recover a node's pod.
 */
module NodeNames {
  import opened Wrappers

  type NodeId = string

  predicate IsDigit(c: char) { '0' <= c <= '9' }

  predicate AllDigits(s: string) { forall i | 0 <= i < |s| :: IsDigit(s[i]) }

  function DigitChar(d: nat): (c: char)
    requires d < 10
    ensures IsDigit(c) && (c as int) - ('0' as int) == d
  {
    (('0' as int) + d) as char
  }

  /** Python's `str(n)` for a non-negative integer: no sign, no leading zeros. */
  function Decimal(n: nat): (s: string)
    ensures |s| >= 1 && AllDigits(s)
    ensures s[0] == '0' ==> n == 0
    decreases n
  {
    if n < 10 then [DigitChar(n)] else Decimal(n / 10) + [DigitChar(n % 10)]
  }

  /** The value of a string of decimal digits, most significant first. */
  function DigitsValue(s: string): nat
    requires AllDigits(s)
  {
    if |s| == 0 then 0
    else 10 * DigitsValue(s[..|s| - 1]) + ((s[|s| - 1] as int) - ('0' as int))
  }

  /**
   * Python's `int(s)` restricted to ASCII digits: `None` stands for the
   * `ValueError` raised on an empty or non-numeric string.
   */
  function ParseNat(s: string): (r: Option<nat>)
    ensures r.Some? <==> |s| >= 1 && AllDigits(s)
  {
    if |s| >= 1 && AllDigits(s) then Some(DigitsValue(s)) else None
  }

  lemma {:induction false} DecimalValue(n: nat)
    ensures DigitsValue(Decimal(n)) == n
    decreases n
  {
    if n >= 10 {
      var s := Decimal(n);
      assert s[..|s| - 1] == Decimal(n / 10);
      DecimalValue(n / 10);
    }
  }

  /** Parsing the rendering of a number gives the number back. */
  lemma DecimalRoundTrip(n: nat)
    ensures ParseNat(Decimal(n)) == Some(n)
  {
    DecimalValue(n);
  }

  lemma DecimalInjective(m: nat, n: nat)
    requires Decimal(m) == Decimal(n)
    ensures m == n
  {
    DecimalRoundTrip(m);
    DecimalRoundTrip(n);
  }

  /** Python's `s.split('_')[0]`: everything before the first underscore. */
  function SplitHead(s: string): (h: string)
    ensures h <= s && '_' !in h
    ensures |h| < |s| ==> s[|h|] == '_'
  {
    if |s| == 0 || s[0] == '_' then "" else [s[0]] + SplitHead(s[1..])
  }

  lemma {:induction false} SplitHeadOfJoin(a: string, b: string)
    requires '_' !in a
    ensures SplitHead(a + "_" + b) == a
  {
    if |a| > 0 {
      assert (a + "_" + b)[1..] == a[1..] + "_" + b;
      SplitHeadOfJoin(a[1..], b);
    }
  }

  /** Python's `s[3:]`: empty when the string is shorter than three characters. */
  function DropThree(s: string): (r: string)
    ensures |s| >= 3 ==> s == s[..3] + r
    ensures |s| < 3 ==> r == ""
  {
    if |s| >= 3 then s[3..] else ""
  }

  /** `node_name(pod, role, idx)`: the f-string `Pod{pod}_{role}{idx}`. */
  function NodeName(pod: nat, role: string, idx: nat): NodeId
  {
    "Pod" + Decimal(pod) + "_" + role + Decimal(idx)
  }

  /** The name `OCS_{n}` given to the n-th circuit-switch node of a build. */
  function OcsName(n: nat): NodeId
  {
    "OCS_" + Decimal(n)
  }

  /** `pod_id(node) = int(node.split('_')[0][3:])`; `None` where `int` raises. */
  function PodId(node: NodeId): Option<nat>
  {
    ParseNat(DropThree(SplitHead(node)))
  }

  /** The pod field of a generated name is what `pod_id` reads back. */
  lemma PodIdOfNodeName(pod: nat, role: string, idx: nat)
    ensures PodId(NodeName(pod, role, idx)) == Some(pod)
  {
    var head := "Pod" + Decimal(pod);
    assert '_' !in head by {
      assert forall i | 0 <= i < |head| :: head[i] != '_' by {
        forall i | 0 <= i < |head| ensures head[i] != '_' {
          if i >= 3 { assert head[i] == Decimal(pod)[i - 3]; }
        }
      }
    }
    assert NodeName(pod, role, idx) == head + "_" + (role + Decimal(idx));
    SplitHeadOfJoin(head, role + Decimal(idx));
    assert DropThree(head) == Decimal(pod);
    DecimalRoundTrip(pod);
  }

  /** `split('_')[0]` of a generated name is `Pod<p>`: the prefix the all-to-all generator compares. */
  lemma SplitHeadOfNodeName(pod: nat, role: string, idx: nat)
    ensures SplitHead(NodeName(pod, role, idx)) == "Pod" + Decimal(pod)
  {
    var head := "Pod" + Decimal(pod);
    assert forall i | 0 <= i < |head| :: head[i] != '_' by {
      forall i | 0 <= i < |head| ensures head[i] != '_' {
        if i >= 3 { assert head[i] == Decimal(pod)[i - 3]; }
      }
    }
    assert NodeName(pod, role, idx) == head + "_" + (role + Decimal(idx));
    SplitHeadOfJoin(head, role + Decimal(idx));
  }

  predicate IsRole(role: string) { role == "Tor" || role == "Aggr" }

  lemma SuffixAfterCommonPrefix(a: string, x: string, y: string)
    requires a + x == a + y
    ensures x == y
  {
    assert x == (a + x)[|a|..];
    assert y == (a + y)[|a|..];
  }

  lemma RoleDigitsInjective(r: string, i: nat, s: string, j: nat)
    requires IsRole(r) && IsRole(s)
    requires r + Decimal(i) == s + Decimal(j)
    ensures r == s && i == j
  {
    var x := r + Decimal(i);
    assert x[0] == r[0];
    assert (s + Decimal(j))[0] == s[0];
    assert r == s;
    SuffixAfterCommonPrefix(r, Decimal(i), Decimal(j));
    DecimalInjective(i, j);
  }

  lemma SamePodOfEqualNames(p: nat, r: string, i: nat, q: nat, s: string, j: nat)
    requires NodeName(p, r, i) == NodeName(q, s, j)
    ensures p == q
  {
    PodIdOfNodeName(p, r, i);
    PodIdOfNodeName(q, s, j);
  }

  /** Two ToR/Aggr names are equal only when pod, role and index all agree. */
  lemma NodeNameInjective(p: nat, r: string, i: nat, q: nat, s: string, j: nat)
    requires IsRole(r) && IsRole(s)
    requires NodeName(p, r, i) == NodeName(q, s, j)
    ensures p == q && r == s && i == j
  {
    SamePodOfEqualNames(p, r, i, q, s, j);
    var prefix := "Pod" + Decimal(p) + "_";
    assert NodeName(p, r, i) == prefix + (r + Decimal(i));
    assert NodeName(q, s, j) == prefix + (s + Decimal(j));
    SuffixAfterCommonPrefix(prefix, r + Decimal(i), s + Decimal(j));
    RoleDigitsInjective(r, i, s, j);
  }

  lemma OcsNameInjective(m: nat, n: nat)
    requires OcsName(m) == OcsName(n)
    ensures m == n
  {
    assert Decimal(m) == OcsName(m)[4..];
    assert Decimal(n) == OcsName(n)[4..];
    DecimalInjective(m, n);
  }

  /** Every generated name starts with `P`, every OCS name with `O`. */
  lemma NameInitials(pod: nat, role: string, idx: nat, n: nat)
    ensures NodeName(pod, role, idx)[0] == 'P' && OcsName(n)[0] == 'O'
  {
  }
}

=== FILE: non_uniform_traffic.dfy ===
/**
 * The hot-spot experiment: every ordered pair of ToRs in different pods
 * asks for one flow, except pairs between pods 0 and 1, which ask for five;
 * the request list is shuffled and then run through each routing strategy
 * on a uniformly wired fabric.
 */
module NonUniformTraffic {
  import opened Wrappers
  import opened NodeNames
  import opened Fabric
  import opened Topology
  import opened RoutingStrategies
  import opened Evaluation

  /** The pairs the generator passes over: a ToR with itself, or two ToRs of one pod. */
  predicate Skipped(src: NodeId, dst: NodeId)
  {
    src == dst || PodId(src) == PodId(dst)
  }

  /** The demand of a pair: 5 between pods 0 and 1, 1 elsewhere. */
  function Weight(src: NodeId, dst: NodeId): nat
  {
    if {PodId(src), PodId(dst)} == {Some(0), Some(1)} then 5 else 1
  }

  /** `[(src, dst)] * n`. */
  function Repeat(f: Flow, n: nat): (r: seq<Flow>)
    ensures |r| == n
  {
    seq(n, _ => f)
  }

  /** What the inner loop appends for `dst`. */
  function PairFlows(src: NodeId, dst: NodeId): seq<Flow>
  {
    if Skipped(src, dst) then [] else Repeat((src, dst), Weight(src, dst))
  }

  /** The requests of source `src` towards `dsts`, in list order. */
  function Row(src: NodeId, dsts: seq<NodeId>): seq<Flow>
  {
    if |dsts| == 0 then [] else Row(src, dsts[..|dsts| - 1]) + PairFlows(src, dsts[|dsts| - 1])
  }

  /** The request list before the shuffle: source-major over `srcs`. */
  function Requests(srcs: seq<NodeId>, dsts: seq<NodeId>): seq<Flow>
  {
    if |srcs| == 0 then [] else Requests(srcs[..|srcs| - 1], dsts) + Row(srcs[|srcs| - 1], dsts)
  }

  lemma {:induction false} RepeatCount(f: Flow, n: nat, x: Flow)
    ensures multiset(Repeat(f, n))[x] == if x == f then n else 0
  {
    if n > 0 {
      RepeatCount(f, n - 1, x);
      assert Repeat(f, n) == Repeat(f, n - 1) + [f];
    }
  }

  /** Over distinct destinations, a row holds each kept pair `Weight` times and nothing else. */
  lemma {:induction false} RowCount(src: NodeId, dsts: seq<NodeId>, x: Flow)
    requires Distinct(dsts)
    ensures multiset(Row(src, dsts))[x] == if x.0 == src && x.1 in dsts && !Skipped(x.0, x.1) then Weight(x.0, x.1) else 0
  {
    if |dsts| > 0 {
      var front, d := dsts[..|dsts| - 1], dsts[|dsts| - 1];
      DistinctFront(dsts);
      RowCount(src, front, x);
      PairFlowsCount(src, d, x);
      assert multiset(Row(src, dsts)) == multiset(Row(src, front)) + multiset(PairFlows(src, d));
      InFrontOrLast(dsts, x.1);
    }
  }

  lemma PairFlowsCount(src: NodeId, dst: NodeId, x: Flow)
    ensures multiset(PairFlows(src, dst))[x] == if x == (src, dst) && !Skipped(src, dst) then Weight(src, dst) else 0
  {
    if !Skipped(src, dst) {
      RepeatCount((src, dst), Weight(src, dst), x);
    }
  }

  /**
   * Over distinct sources and destinations, the request list holds each
   * pair that is not skipped exactly `Weight` times, and no other pair.
   */
  lemma {:induction false} RequestsCount(srcs: seq<NodeId>, dsts: seq<NodeId>, x: Flow)
    requires Distinct(srcs) && Distinct(dsts)
    ensures multiset(Requests(srcs, dsts))[x] == if x.0 in srcs && x.1 in dsts && !Skipped(x.0, x.1) then Weight(x.0, x.1) else 0
  {
    if |srcs| > 0 {
      var front, s := srcs[..|srcs| - 1], srcs[|srcs| - 1];
      DistinctFront(srcs);
      RequestsCount(front, dsts, x);
      RowCount(s, dsts, x);
      assert multiset(Requests(srcs, dsts)) == multiset(Requests(front, dsts)) + multiset(Row(s, dsts));
      InFrontOrLast(srcs, x.0);
    }
  }

  /**
   * Over the ToRs of the configuration: a pair of ToRs in pods `p` and `q`
   * is requested 5 times when `{p, q} == {0, 1}`, once for any other two
   * different pods, and never within one pod.
   */
  lemma TrafficDemand(cfg: TopoConfig, p: nat, t: nat, q: nat, u: nat)
    requires p < cfg.numPods && q < cfg.numPods && t < cfg.torsPerPod && u < cfg.torsPerPod
    ensures multiset(Requests(TorList(cfg), TorList(cfg)))[(TorName(p, t), TorName(q, u))]
            == if p == q then 0 else if (p == 0 && q == 1) || (p == 1 && q == 0) then 5 else 1
  {
    var tors := TorList(cfg);
    TorListSpec(cfg);
    TorsUpToDistinct(cfg.numPods, cfg.torsPerPod);
    assert TorName(p, t) in tors by { assert tors[TorIndex(p, t, cfg.torsPerPod)] == TorName(p, t); }
    assert TorName(q, u) in tors by { assert tors[TorIndex(q, u, cfg.torsPerPod)] == TorName(q, u); }
    RequestsCount(tors, tors, (TorName(p, t), TorName(q, u)));
    PairDemand(p, t, q, u);
  }

  /** How the generator treats ToR `t` of pod `p` and ToR `u` of pod `q`. */
  lemma PairDemand(p: nat, t: nat, q: nat, u: nat)
    ensures Skipped(TorName(p, t), TorName(q, u)) <==> p == q
    ensures p != q ==> Weight(TorName(p, t), TorName(q, u)) == if (p == 0 && q == 1) || (p == 1 && q == 0) then 5 else 1
  {
    PodIdOfNodeName(p, "Tor", t);
    PodIdOfNodeName(q, "Tor", u);
    if p != q {
      WeightOfPods(p, q);
    }
  }

  lemma WeightOfPods(p: nat, q: nat)
    requires p != q
    ensures {Some(p), Some(q)} == {Some(0), Some(1)} <==> (p == 0 && q == 1) || (p == 1 && q == 0)
  {
    if {Some(p), Some(q)} == {Some(0), Some(1)} {
      assert Some(p) in {Some(0), Some(1)} && Some(q) in {Some(0), Some(1)};
    }
  }

  /** Every request joins a source to a destination of the lists, never a ToR to itself nor two ToRs of one pod. */
  lemma {:induction false} RequestsCrossPods(srcs: seq<NodeId>, dsts: seq<NodeId>, x: Flow)
    requires x in Requests(srcs, dsts)
    ensures x.0 in srcs && x.1 in dsts && !Skipped(x.0, x.1)
  {
    var front, s := srcs[..|srcs| - 1], srcs[|srcs| - 1];
    assert srcs == front + [s];
    if x in Requests(front, dsts) {
      RequestsCrossPods(front, dsts, x);
    } else {
      RowMember(s, dsts, x);
    }
  }

  lemma {:induction false} RowMember(src: NodeId, dsts: seq<NodeId>, x: Flow)
    requires x in Row(src, dsts)
    ensures x.0 == src && x.1 in dsts && !Skipped(x.0, x.1)
  {
    var front, d := dsts[..|dsts| - 1], dsts[|dsts| - 1];
    assert dsts == front + [d];
    if x in Row(src, front) {
      RowMember(src, front, x);
    } else {
      assert x in PairFlows(src, d);
    }
  }

  lemma RequestsSnoc(srcs: seq<NodeId>, dsts: seq<NodeId>, i: nat)
    requires i < |srcs|
    ensures Requests(srcs[..i + 1], dsts) == Requests(srcs[..i], dsts) + Row(srcs[i], dsts)
  {
    assert srcs[..i + 1][..i] == srcs[..i];
  }

  lemma RowSnoc(src: NodeId, dsts: seq<NodeId>, j: nat)
    requires j < |dsts|
    ensures Row(src, dsts[..j + 1]) == Row(src, dsts[..j]) + PairFlows(src, dsts[j])
    ensures forall front :: front + Row(src, dsts[..j + 1]) == front + Row(src, dsts[..j]) + PairFlows(src, dsts[j])
  {
    assert dsts[..j + 1][..j] == dsts[..j];
  }

  /** `x[i], x[j] = x[j], x[i]`. */
  function Swap(xs: seq<Flow>, i: nat, j: nat): (r: seq<Flow>)
    requires i < |xs| && j < |xs|
    ensures |r| == |xs| && multiset(r) == multiset(xs)
  {
    xs[i := xs[j]][j := xs[i]]
  }

  /**
   * `random.shuffle` with its draws supplied: for `i` from `n - 1` down to
   * 1, position `i` is swapped with position `draws(i) % (i + 1)`; `n` is
   * the number of leading positions still to visit.
   */
  function ShuffleFrom(xs: seq<Flow>, draws: nat -> nat, n: nat): (r: seq<Flow>)
    requires n <= |xs|
    decreases n
  {
    if n <= 1 then xs else ShuffleFrom(Swap(xs, n - 1, draws(n - 1) % n), draws, n - 1)
  }

  /** The shuffle only permutes: same length, same multiset. */
  lemma {:induction false} ShufflePermutes(xs: seq<Flow>, draws: nat -> nat, n: nat)
    requires n <= |xs|
    ensures |ShuffleFrom(xs, draws, n)| == |xs| && multiset(ShuffleFrom(xs, draws, n)) == multiset(xs)
    decreases n
  {
    if n > 1 {
      ShufflePermutes(Swap(xs, n - 1, draws(n - 1) % n), draws, n - 1);
    }
  }

  /** `random.shuffle(traffic_requests)`, swapping in place from the last position down. */
  method Shuffle(xs: seq<Flow>, draws: nat -> nat) returns (ys: seq<Flow>)
    ensures ys == ShuffleFrom(xs, draws, |xs|)
    ensures |ys| == |xs| && multiset(ys) == multiset(xs)
  {
    ys := xs;
    var i: nat := |xs|;
    while i > 1
      invariant i <= |ys| == |xs|
      invariant ShuffleFrom(ys, draws, i) == ShuffleFrom(xs, draws, |xs|)
    {
      var j := draws(i - 1) % i;
      ys := ys[i - 1 := ys[j]][j := ys[i - 1]];
      i := i - 1;
    }
    ShufflePermutes(xs, draws, |xs|);
  }

  /** The traffic `generate_traffic` returns for the given shuffle draws. */
  function Traffic(cfg: TopoConfig, draws: nat -> nat): seq<Flow>
  {
    var requests := Requests(TorList(cfg), TorList(cfg));
    ShuffleFrom(requests, draws, |requests|)
  }

  /** The inner loop of `generate_traffic` for one `src`: `extend` by every kept pair's copies. */
  method ExtendRow(requests: seq<Flow>, src: NodeId, tors: seq<NodeId>) returns (r: seq<Flow>)
    ensures r == requests + Row(src, tors)
  {
    r := requests;
    var j := 0;
    while j < |tors|
      invariant j <= |tors| && r == requests + Row(src, tors[..j])
    {
      var dst := tors[j];
      RowSnoc(src, tors, j);
      ghost var before := r;
      if !Skipped(src, dst) {
        var weight := Weight(src, dst);
        r := r + Repeat((src, dst), weight);
      }
      assert r == before + PairFlows(src, dst);
      j := j + 1;
    }
    assert tors[..j] == tors;
  }

  /** `generate_traffic()`: the weighted cross-pod requests over `tors_list`, then shuffled. */
  method GenerateTraffic(cfg: TopoConfig, draws: nat -> nat) returns (traffic: seq<Flow>)
    ensures traffic == Traffic(cfg, draws)
    ensures multiset(traffic) == multiset(Requests(TorList(cfg), TorList(cfg)))
  {
    var tors := TorList(cfg);
    var requests: seq<Flow> := [];
    var i := 0;
    while i < |tors|
      invariant i <= |tors| && requests == Requests(tors[..i], tors)
    {
      RequestsSnoc(tors, tors, i);
      requests := ExtendRow(requests, tors[i], tors);
      i := i + 1;
    }
    assert tors[..i] == tors;
    traffic := Shuffle(requests, draws);
  }

  /** The shuffled traffic holds each ToR pair as often as the request list: 5, 1 or 0 times. */
  lemma TrafficDemandShuffled(cfg: TopoConfig, draws: nat -> nat, p: nat, t: nat, q: nat, u: nat)
    requires p < cfg.numPods && q < cfg.numPods && t < cfg.torsPerPod && u < cfg.torsPerPod
    ensures multiset(Traffic(cfg, draws))[(TorName(p, t), TorName(q, u))]
            == if p == q then 0 else if (p == 0 && q == 1) || (p == 1 && q == 0) then 5 else 1
  {
    var requests := Requests(TorList(cfg), TorList(cfg));
    ShufflePermutes(requests, draws, |requests|);
    TrafficDemand(cfg, p, t, q, u);
  }

  /** The shuffled traffic has no self pair and no same-pod pair, and all its ends are ToRs of `tors_list`. */
  lemma TrafficCrossPods(cfg: TopoConfig, draws: nat -> nat, k: nat)
    requires k < |Traffic(cfg, draws)|
    ensures var x := Traffic(cfg, draws)[k];
            x.0 in TorList(cfg) && x.1 in TorList(cfg) && x.0 != x.1 && PodId(x.0) != PodId(x.1)
  {
    var requests := Requests(TorList(cfg), TorList(cfg));
    ShufflePermutes(requests, draws, |requests|);
    var x := Traffic(cfg, draws)[k];
    assert x in multiset(Traffic(cfg, draws));
    assert x in multiset(requests);
    RequestsCrossPods(TorList(cfg), TorList(cfg), x);
  }

  /**
   * `run_strategy(name)`: build a uniform fabric, generate the traffic and
   * run every flow through the strategy; on success the graph, the hop and
   * completion-time lists and the "OCS Links Used" count. `buildDraws`,
   * `shuffleDraws` and `routeDraws` stand for the random choices of the
   * builder, of the shuffle and of the per-flow routing.
   */
  method RunStrategy(strategy: Strategy, cfg: TopoConfig, search: PathSearch,
                     buildDraws: seq<nat>, shuffleDraws: nat -> nat, routeDraws: nat -> nat)
    returns (ok: bool, g: Graph, hops: seq<int>, fcts: seq<real>, ocsUsed: nat, ghost net0: Network, ghost wires: seq<Wire>)
    requires cfg.linkCapacity > 0.0 && Sound(search)
    ensures Built(net0, cfg, wires)
    ensures FlowsIn(net0, Traffic(cfg, shuffleDraws))
    ensures var r := Replay(strategy, cfg, TorList(cfg), search, Sim(net0, map[], [], []), Traffic(cfg, shuffleDraws), routeDraws, 0);
            && (ok <==> r.Success?)
            && (ok ==> r.value.net == g.View() && r.value.hops == hops && r.value.fcts == fcts)
    ensures ok ==> |hops| == |fcts| <= |Traffic(cfg, shuffleDraws)|
    ensures ok ==> ocsUsed == |UsedSet(g.View())| && ocsUsed <= |OcsSet(g.View())|
  {
    var tors;
    ghost var starts, meshed;
    g, tors, wires, starts, meshed := BuildUniform(cfg, buildDraws);
    net0 := g.View();
    var traffic := GenerateTraffic(cfg, shuffleDraws);
    TrafficIn(cfg, shuffleDraws, net0);
    ok, hops, fcts, ocsUsed := RunAndCount(strategy, g, cfg, tors, search, traffic, routeDraws);
  }

  /** Every flow of the traffic runs between nodes of a built fabric. */
  lemma TrafficIn(cfg: TopoConfig, draws: nat -> nat, net: Network)
    requires NodesPlaced(net, cfg)
    ensures FlowsIn(net, Traffic(cfg, draws))
  {
    TorListPlaced(net, cfg);
    forall k | 0 <= k < |Traffic(cfg, draws)|
      ensures Traffic(cfg, draws)[k].0 in net.kinds && Traffic(cfg, draws)[k].1 in net.kinds
    {
      TrafficCrossPods(cfg, draws, k);
    }
  }
}

=== FILE: ocs_topo_compar.dfy ===
/**
 * The all-to-all experiment: every ordered pair of ToRs whose names carry
 * different `Pod<p>` prefixes asks for one flow, in source-major order, and
 * the list is run through each routing strategy on a uniformly wired fabric.
 */
module OcsTopoCompar {
  import opened Wrappers
  import opened NodeNames
  import opened Fabric
  import opened Topology
  import opened RoutingStrategies
  import opened Evaluation

  /** The pairs the generator keeps: two different ToRs whose `split('_')[0]` prefixes differ. */
  predicate CrossPod(src: NodeId, dst: NodeId)
  {
    src != dst && SplitHead(src) != SplitHead(dst)
  }

  /** The requests of source `src` towards `dsts`, in list order. */
  function Row(src: NodeId, dsts: seq<NodeId>): seq<Flow>
  {
    if |dsts| == 0 then []
    else Row(src, dsts[..|dsts| - 1]) + (if CrossPod(src, dsts[|dsts| - 1]) then [(src, dsts[|dsts| - 1])] else [])
  }

  /** The request list, source-major over `srcs`. */
  function Requests(srcs: seq<NodeId>, dsts: seq<NodeId>): seq<Flow>
  {
    if |srcs| == 0 then [] else Requests(srcs[..|srcs| - 1], dsts) + Row(srcs[|srcs| - 1], dsts)
  }

  /** The traffic `generate_traffic` returns. */
  function Traffic(cfg: TopoConfig): seq<Flow>
  {
    Requests(TorList(cfg), TorList(cfg))
  }



  /** The inner loop of `generate_traffic` for one `src`: `append` every kept pair. */
  method AppendRow(requests: seq<Flow>, src: NodeId, tors: seq<NodeId>) returns (r: seq<Flow>)
    ensures r == requests + Row(src, tors)
  {
    r := requests;
    var j := 0;
    while j < |tors|
      invariant j <= |tors| && r == requests + Row(src, tors[..j])
    {
      var dst := tors[j];
      assert tors[..j + 1][..j] == tors[..j];
      if src != dst && SplitHead(src) != SplitHead(dst) {
        r := r + [(src, dst)];
      }
      j := j + 1;
    }
    assert tors[..j] == tors;
  }

  /** `generate_traffic()`: the all-to-all cross-pod requests over `tors_list`. */
  method GenerateTraffic(cfg: TopoConfig) returns (traffic: seq<Flow>)
    ensures traffic == Traffic(cfg)
    ensures |traffic| == (cfg.numPods * cfg.torsPerPod) * ((cfg.numPods - 1) * cfg.torsPerPod)
  {
    var tors := TorList(cfg);
    traffic := [];
    var i := 0;
    while i < |tors|
      invariant i <= |tors| && traffic == Requests(tors[..i], tors)
    {
      assert tors[..i + 1][..i] == tors[..i];
      traffic := AppendRow(traffic, tors[i], tors);
      i := i + 1;
    }
    assert tors[..i] == tors;
    TrafficLength(cfg);
  }

  /** Over distinct destinations, a row holds each kept pair once and nothing else. */
  lemma {:induction false} RowCount(src: NodeId, dsts: seq<NodeId>, x: Flow)
    requires Distinct(dsts)
    ensures multiset(Row(src, dsts))[x] == if x.0 == src && x.1 in dsts && CrossPod(x.0, x.1) then 1 else 0
  {
    if |dsts| > 0 {
      var front, d := dsts[..|dsts| - 1], dsts[|dsts| - 1];
      DistinctFront(dsts);
      RowCount(src, front, x);
      InFrontOrLast(dsts, x.1);
    }
  }

  /** Over distinct sources and destinations, every kept pair appears exactly once, and no other pair appears. */
  lemma {:induction false} RequestsCount(srcs: seq<NodeId>, dsts: seq<NodeId>, x: Flow)
    requires Distinct(srcs) && Distinct(dsts)
    ensures multiset(Requests(srcs, dsts))[x] == if x.0 in srcs && x.1 in dsts && CrossPod(x.0, x.1) then 1 else 0
  {
    if |srcs| > 0 {
      var front, s := srcs[..|srcs| - 1], srcs[|srcs| - 1];
      DistinctFront(srcs);
      RequestsCount(front, dsts, x);
      RowCount(s, dsts, x);
      assert multiset(Requests(srcs, dsts)) == multiset(Requests(front, dsts)) + multiset(Row(s, dsts));
      InFrontOrLast(srcs, x.0);
    }
  }

  /** Two ToR names have different `Pod<p>` prefixes exactly when their pods differ. */
  lemma CrossPodOfTors(p: nat, t: nat, q: nat, u: nat)
    ensures CrossPod(TorName(p, t), TorName(q, u)) <==> p != q
  {
    SplitHeadOfNodeName(p, "Tor", t);
    SplitHeadOfNodeName(q, "Tor", u);
    if p != q && "Pod" + Decimal(p) == "Pod" + Decimal(q) {
      SuffixAfterCommonPrefix("Pod", Decimal(p), Decimal(q));
      DecimalInjective(p, q);
    }
  }

  /** Each ordered pair of ToRs in different pods is requested exactly once; pairs within one pod never. */
  lemma TrafficPairsOnce(cfg: TopoConfig, p: nat, t: nat, q: nat, u: nat)
    requires p < cfg.numPods && q < cfg.numPods && t < cfg.torsPerPod && u < cfg.torsPerPod
    ensures multiset(Traffic(cfg))[(TorName(p, t), TorName(q, u))] == if p != q then 1 else 0
  {
    var tors := TorList(cfg);
    TorListSpec(cfg);
    TorsUpToDistinct(cfg.numPods, cfg.torsPerPod);
    assert TorName(p, t) in tors by { assert tors[TorIndex(p, t, cfg.torsPerPod)] == TorName(p, t); }
    assert TorName(q, u) in tors by { assert tors[TorIndex(q, u, cfg.torsPerPod)] == TorName(q, u); }
    RequestsCount(tors, tors, (TorName(p, t), TorName(q, u)));
    CrossPodOfTors(p, t, q, u);
  }

  lemma {:induction false} RowMember(src: NodeId, dsts: seq<NodeId>, x: Flow)
    requires x in Row(src, dsts)
    ensures x.0 == src && x.1 in dsts && CrossPod(x.0, x.1)
  {
    var front, d := dsts[..|dsts| - 1], dsts[|dsts| - 1];
    assert dsts == front + [d];
    if x in Row(src, front) {
      RowMember(src, front, x);
    }
  }

  /** Every request joins a source to a destination of the lists, across pods. */
  lemma {:induction false} RequestsMember(srcs: seq<NodeId>, dsts: seq<NodeId>, x: Flow)
    requires x in Requests(srcs, dsts)
    ensures x.0 in srcs && x.1 in dsts && CrossPod(x.0, x.1)
  {
    var front, s := srcs[..|srcs| - 1], srcs[|srcs| - 1];
    assert srcs == front + [s];
    if x in Requests(front, dsts) {
      RequestsMember(front, dsts, x);
    } else {
      RowMember(s, dsts, x);
    }
  }

  /** The traffic has no self pair and no pair within one pod, and all its ends are ToRs of `tors_list`. */
  lemma TrafficCrossPods(cfg: TopoConfig, k: nat)
    requires k < |Traffic(cfg)|
    ensures var x := Traffic(cfg)[k];
            x.0 in TorList(cfg) && x.1 in TorList(cfg) && x.0 != x.1 && PodId(x.0) != PodId(x.1)
  {
    var x := Traffic(cfg)[k];
    RequestsMember(TorList(cfg), TorList(cfg), x);
    var p, t := TorListEntry(cfg, x.0);
    var q, u := TorListEntry(cfg, x.1);
    CrossPodOfTors(p, t, q, u);
    PodIdOfNodeName(p, "Tor", t);
    PodIdOfNodeName(q, "Tor", u);
  }

  lemma MulPred(a: int, b: int)
    ensures a * b == (a - 1) * b + b
  {
  }

  lemma {:induction false} RowAppend(src: NodeId, xs: seq<NodeId>, ys: seq<NodeId>)
    ensures Row(src, xs + ys) == Row(src, xs) + Row(src, ys)
    decreases |ys|
  {
    if |ys| > 0 {
      var front, d := ys[..|ys| - 1], ys[|ys| - 1];
      RowAppend(src, xs, front);
      assert (xs + ys)[..|xs + ys| - 1] == xs + front;
    } else {
      assert xs + ys == xs;
    }
  }

  lemma {:induction false} RequestsAppend(xs: seq<NodeId>, ys: seq<NodeId>, dsts: seq<NodeId>)
    ensures Requests(xs + ys, dsts) == Requests(xs, dsts) + Requests(ys, dsts)
    decreases |ys|
  {
    if |ys| > 0 {
      var front, s := ys[..|ys| - 1], ys[|ys| - 1];
      RequestsAppend(xs, front, dsts);
      assert (xs + ys)[..|xs + ys| - 1] == xs + front;
    } else {
      assert xs + ys == xs;
    }
  }

  lemma TorRowSnoc(pod: nat, n: nat)
    requires n > 0
    ensures TorRow(pod, n) == TorRow(pod, n - 1) + [TorName(pod, n - 1)]
  {
  }

  /** ToR `t` of pod `p` requests one flow towards each ToR of another pod's row, none towards its own. */
  lemma {:induction false} RowOverPod(p: nat, t: nat, pod: nat, n: nat)
    ensures |Row(TorName(p, t), TorRow(pod, n))| == if pod == p then 0 else n
  {
    if n > 0 {
      RowOverPod(p, t, pod, n - 1);
      TorRowSnoc(pod, n);
      RowAppend(TorName(p, t), TorRow(pod, n - 1), [TorName(pod, n - 1)]);
      CrossPodOfTors(p, t, pod, n - 1);
      assert Row(TorName(p, t), [TorName(pod, n - 1)])
             == if CrossPod(TorName(p, t), TorName(pod, n - 1)) then [(TorName(p, t), TorName(pod, n - 1))] else [];
    }
  }

  /** ToR `t` of pod `p` requests one flow towards each ToR of the other pods below `pods`. */
  lemma {:induction false} RowOverPods(p: nat, t: nat, pods: nat, n: nat)
    ensures |Row(TorName(p, t), TorsUpTo(pods, n))| == if p < pods then (pods - 1) * n else pods * n
  {
    if pods > 0 {
      RowOverPods(p, t, pods - 1, n);
      RowAppend(TorName(p, t), TorsUpTo(pods - 1, n), TorRow(pods - 1, n));
      RowOverPod(p, t, pods - 1, n);
      MulPred(pods, n);
      if pods > 1 {
        MulPred(pods - 1, n);
      }
    }
  }

  /** The sources of one pod's row, each toward `tors_list`. */
  lemma {:induction false} RequestsOverPod(cfg: TopoConfig, pod: nat, n: nat)
    requires pod < cfg.numPods
    ensures |Requests(TorRow(pod, n), TorList(cfg))| == n * ((cfg.numPods - 1) * cfg.torsPerPod)
  {
    if n > 0 {
      var row := TorRow(pod, n);
      RequestsOverPod(cfg, pod, n - 1);
      TorRowSnoc(pod, n);
      assert row[..n - 1] == TorRow(pod, n - 1);
      assert Requests(row, TorList(cfg)) == Requests(TorRow(pod, n - 1), TorList(cfg)) + Row(TorName(pod, n - 1), TorList(cfg));
      RowOverPods(pod, n - 1, cfg.numPods, cfg.torsPerPod);
      MulPred(n, (cfg.numPods - 1) * cfg.torsPerPod);
    }
  }

  lemma {:induction false} RequestsOverPods(cfg: TopoConfig, pods: nat)
    requires pods <= cfg.numPods
    ensures |Requests(TorsUpTo(pods, cfg.torsPerPod), TorList(cfg))| == (pods * cfg.torsPerPod) * ((cfg.numPods - 1) * cfg.torsPerPod)
  {
    if pods > 0 {
      var n, x := cfg.torsPerPod, (cfg.numPods - 1) * cfg.torsPerPod;
      var front, row := TorsUpTo(pods - 1, n), TorRow(pods - 1, n);
      RequestsOverPods(cfg, pods - 1);
      RequestsAppend(front, row, TorList(cfg));
      RequestsOverPod(cfg, pods - 1, n);
      var a, b := |Requests(front, TorList(cfg))|, |Requests(row, TorList(cfg))|;
      assert |Requests(TorsUpTo(pods, n), TorList(cfg))| == a + b;
      PodsProduct(pods, n, x, a, b);
    }
  }

  lemma PodsProduct(pods: int, n: int, x: int, a: int, b: int)
    requires a == ((pods - 1) * n) * x && b == n * x
    ensures a + b == (pods * n) * x
  {
    MulPred(pods, n);
    assert ((pods - 1) * n + n) * x == ((pods - 1) * n) * x + n * x;
  }

  /** The traffic holds `(NUM_PODS*TORS_PER_POD) * ((NUM_PODS-1)*TORS_PER_POD)` flows. */
  lemma TrafficLength(cfg: TopoConfig)
    ensures |Traffic(cfg)| == (cfg.numPods * cfg.torsPerPod) * ((cfg.numPods - 1) * cfg.torsPerPod)
  {
    RequestsOverPods(cfg, cfg.numPods);
  }

  /** Every flow of the traffic runs between nodes of a built fabric. */
  lemma TrafficIn(cfg: TopoConfig, net: Network)
    requires NodesPlaced(net, cfg)
    ensures FlowsIn(net, Traffic(cfg))
  {
    TorListPlaced(net, cfg);
    forall k | 0 <= k < |Traffic(cfg)| ensures Traffic(cfg)[k].0 in net.kinds && Traffic(cfg)[k].1 in net.kinds {
      RequestsMember(TorList(cfg), TorList(cfg), Traffic(cfg)[k]);
    }
  }

  /**
   * `run_strategy(name)`: build a uniform fabric, generate the all-to-all
   * traffic and run every flow through the strategy; on success the graph,
   * the hop and completion-time lists and the "OCS Links Used" count.
   * `buildDraws` and `routeDraws` stand for the random choices of the
   * builder and of the per-flow routing.
   */
  method RunStrategy(strategy: Strategy, cfg: TopoConfig, search: PathSearch, buildDraws: seq<nat>, routeDraws: nat -> nat)
    returns (ok: bool, g: Graph, hops: seq<int>, fcts: seq<real>, ocsUsed: nat, ghost net0: Network, ghost wires: seq<Wire>)
    requires cfg.linkCapacity > 0.0 && Sound(search)
    ensures Built(net0, cfg, wires)
    ensures FlowsIn(net0, Traffic(cfg))
    ensures var r := Replay(strategy, cfg, TorList(cfg), search, Sim(net0, map[], [], []), Traffic(cfg), routeDraws, 0);
            && (ok <==> r.Success?)
            && (ok ==> r.value.net == g.View() && r.value.hops == hops && r.value.fcts == fcts)
    ensures ok ==> |hops| == |fcts| <= (cfg.numPods * cfg.torsPerPod) * ((cfg.numPods - 1) * cfg.torsPerPod)
    ensures ok ==> ocsUsed == |UsedSet(g.View())| && ocsUsed <= |OcsSet(g.View())|
  {
    var tors;
    ghost var starts, meshed;
    g, tors, wires, starts, meshed := BuildUniform(cfg, buildDraws);
    net0 := g.View();
    var traffic := GenerateTraffic(cfg);
    TrafficIn(cfg, net0);
    ok, hops, fcts, ocsUsed := RunAndCount(strategy, g, cfg, tors, search, traffic, routeDraws);
  }
}

=== FILE: routing.dfy ===
/**
 * The three path-selection strategies (ECMP, VLB, TE) and the serial
 * per-link FIFO that yields a flow's completion time. networkx's path
 * searches are inputs: each strategy receives the list or the function
 * networkx would have supplied, and the properties that depend on those
 * being right say what they need of them.
 */
module RoutingStrategies {
  import opened Wrappers
  import opened NodeNames
  import opened Fabric
  import opened Topology

  /** `src == dst or G.nodes[src]["pod"] == G.nodes[dst]["pod"]`: every strategy returns `None` then. */
  predicate SamePod(net: Network, src: NodeId, dst: NodeId)
    requires src in net.kinds && dst in net.kinds
  {
    src == dst || net.PodAttr(src) == net.PodAttr(dst)
  }

  /** The hop count `len(path) - 1`. */
  function Hops(path: Path): int
  {
    |path| - 1
  }

  /** What `nx.all_shortest_paths(G, src, dst)` lists: simple paths between the two, none longer than any other walk between them. */
  ghost predicate ShortestPaths(net: Network, src: NodeId, dst: NodeId, paths: seq<Path>)
  {
    && (forall p | p in paths :: net.PathBetween(p, src, dst) && net.IsSimple(p))
    && (forall p, w | p in paths && net.PathBetween(w, src, dst) :: |p| <= |w|)
  }

  /**
   * `run_ecmp`: `random.choice(spaths)` over the shortest paths, the choice
   * being entry `draw % len(spaths)`; `None` for a same-pod flow or an empty
   * list. `spaths` is `None` when `nx.all_shortest_paths` raises
   * `NetworkXNoPath`, which `run_ecmp` lets through.
   */
  function RunEcmp(net: Network, src: NodeId, dst: NodeId, spaths: Option<seq<Path>>, draw: nat): (r: Result<Option<Path>>)
    requires src in net.kinds && dst in net.kinds
    ensures r.Failure? <==> !SamePod(net, src, dst) && spaths.None?
    ensures r == Success(None) <==> SamePod(net, src, dst) || spaths == Some([])
    ensures r.Success? && r.value.Some? ==> spaths.Some? && r.value.value in spaths.value
    ensures r.Success? && r.value.Some? && ShortestPaths(net, src, dst, spaths.value) ==>
              net.PathBetween(r.value.value, src, dst) && net.IsSimple(r.value.value) &&
              forall w | net.PathBetween(w, src, dst) :: Hops(r.value.value) <= Hops(w)
  {
    if SamePod(net, src, dst) then Success(None)
    else match spaths
      case None => Failure("NetworkXNoPath")
      case Some(ps) => if |ps| == 0 then Success(None) else Success(Some(ps[draw % |ps|]))
  }

  /** Every shortest path is the ECMP choice for some draw. */
  lemma EcmpReachesAll(net: Network, src: NodeId, dst: NodeId, spaths: seq<Path>, k: nat)
    requires src in net.kinds && dst in net.kinds && !SamePod(net, src, dst) && k < |spaths|
    ensures RunEcmp(net, src, dst, Some(spaths), k) == Success(Some(spaths[k]))
  {
    assert k % |spaths| == k;
  }

  /** `[t for t in tors if t not in (src, dst)]`: the VLB intermediates, in `tors` order. */
  function Intermediates(tors: seq<NodeId>, src: NodeId, dst: NodeId): (r: seq<NodeId>)
    ensures forall t :: t in r <==> t in tors && t != src && t != dst
    ensures |r| <= |tors|
  {
    if |tors| == 0 then []
    else (if tors[0] != src && tors[0] != dst then [tors[0]] else []) + Intermediates(tors[1..], src, dst)
  }

  /** Python's `p[1:]`. */
  function Tail(p: Path): (r: Path)
    ensures |r| == if |p| == 0 then 0 else |p| - 1
  {
    if |p| == 0 then [] else p[1..]
  }

  /**
   * `run_vlb`: a random intermediate ToR `m` (entry `draw % len` of the
   * candidates) and the route `shortest(src, m) + shortest(m, dst)[1:]`.
   * `random.choice` on an empty candidate list raises `IndexError`; a leg
   * that `nx.shortest_path` cannot find (`None` here) raises `NetworkXNoPath`.
   */
  function RunVlb(net: Network, tors: seq<NodeId>, src: NodeId, dst: NodeId, draw: nat, shortest: (NodeId, NodeId) -> Option<Path>)
    : (r: Result<Option<Path>>)
    requires src in net.kinds && dst in net.kinds
    ensures r == Success(None) <==> SamePod(net, src, dst)
    ensures r.Failure? <==>
              && !SamePod(net, src, dst)
              && (|Intermediates(tors, src, dst)| == 0 ||
                  var m := Intermediates(tors, src, dst)[draw % |Intermediates(tors, src, dst)|];
                  shortest(src, m).None? || shortest(m, dst).None?)
    ensures r.Success? && r.value.Some? ==>
              var m := Intermediates(tors, src, dst)[draw % |Intermediates(tors, src, dst)|];
              && m in tors && m != src && m != dst
              && shortest(src, m).Some? && shortest(m, dst).Some?
              && r.value.value == shortest(src, m).value + Tail(shortest(m, dst).value)
  {
    if SamePod(net, src, dst) then Success(None)
    else
      var cands := Intermediates(tors, src, dst);
      if |cands| == 0 then Failure("IndexError: Cannot choose from an empty sequence")
      else
        var m := cands[draw % |cands|];
        match (shortest(src, m), shortest(m, dst))
        case (Some(p1), Some(p2)) => Success(Some(p1 + Tail(p2)))
        case _ => Failure("NetworkXNoPath")
  }

  /** Two walks sharing the middle node join into a walk from the first's start to the second's end. */
  lemma JoinLegs(net: Network, p1: Path, p2: Path, src: NodeId, m: NodeId, dst: NodeId)
    requires net.PathBetween(p1, src, m) && net.PathBetween(p2, m, dst)
    ensures net.PathBetween(p1 + Tail(p2), src, dst)
    ensures |p1 + Tail(p2)| == |p1| + |p2| - 1 && Hops(p1 + Tail(p2)) == Hops(p1) + Hops(p2)
  {
    var q := p1 + Tail(p2);
    forall i | 0 <= i < |q| ensures q[i] in net.kinds {
      if i >= |p1| {
        assert q[i] == p2[i - |p1| + 1];
      }
    }
    forall i | 0 <= i < |q| - 1 ensures net.Adjacent(q[i], q[i + 1]) {
      if i + 1 < |p1| {
        assert q[i] == p1[i] && q[i + 1] == p1[i + 1];
      } else if i + 1 == |p1| {
        assert q[i] == p2[0] && q[i + 1] == p2[1];
      } else {
        assert q[i] == p2[i - |p1| + 1] && q[i + 1] == p2[i - |p1| + 2];
      }
    }
    if |p2| == 1 {
      assert q == p1;
    } else {
      assert q[|q| - 1] == p2[|p2| - 1];
    }
  }

  /**
   * When networkx finds both legs, each a path through the chosen
   * intermediate, the VLB route runs from `src` to `dst`, has
   * `len(p1) + len(p2) - 1` nodes, and its hop count is the sum of the two legs'.
   */
  lemma VlbRoute(net: Network, tors: seq<NodeId>, src: NodeId, dst: NodeId, draw: nat, shortest: (NodeId, NodeId) -> Option<Path>)
    requires src in net.kinds && dst in net.kinds && !SamePod(net, src, dst) && |Intermediates(tors, src, dst)| > 0
    requires var m := Intermediates(tors, src, dst)[draw % |Intermediates(tors, src, dst)|];
             && shortest(src, m).Some? && net.PathBetween(shortest(src, m).value, src, m)
             && shortest(m, dst).Some? && net.PathBetween(shortest(m, dst).value, m, dst)
    ensures var m := Intermediates(tors, src, dst)[draw % |Intermediates(tors, src, dst)|];
            var p1, p2 := shortest(src, m).value, shortest(m, dst).value;
            var r := RunVlb(net, tors, src, dst, draw, shortest);
            && r.Success? && r.value.Some?
            && net.PathBetween(r.value.value, src, dst)
            && |r.value.value| == |p1| + |p2| - 1
            && Hops(r.value.value) == Hops(p1) + Hops(p2)
  {
    var m := Intermediates(tors, src, dst)[draw % |Intermediates(tors, src, dst)|];
    JoinLegs(net, shortest(src, m).value, shortest(m, dst).value, src, m, dst);
  }

  /** Candidate paths of the graph: what `nx.all_simple_paths` yields. */
  ghost predicate AllPaths(net: Network, cands: seq<Path>)
  {
    forall i | 0 <= i < |cands| :: net.IsPath(cands[i])
  }

  /** `usage / capacity` summed over the hops of `path` from hop `i` on. */
  function UtilFrom(net: Network, path: Path, i: nat): real
    requires net.Valid() && net.IsWalk(path)
    decreases |path| - i
  {
    if i + 1 >= |path| then 0.0
    else net.EdgeOf(path[i], path[i + 1]).usage / net.EdgeOf(path[i], path[i + 1]).capacity + UtilFrom(net, path, i + 1)
  }

  /** The inner `cost(path)` of `run_te`: `alpha * hops + beta * util`. */
  function Cost(net: Network, path: Path, alpha: real, beta: real): real
    requires net.Valid() && net.IsWalk(path)
  {
    alpha * ((|path| as real) - 1.0) + beta * UtilFrom(net, path, 0)
  }

  lemma {:induction false} UtilNonNegative(net: Network, path: Path, i: nat)
    requires net.Valid() && net.IsWalk(path)
    ensures UtilFrom(net, path, i) >= 0.0
    decreases |path| - i
  {
    if i + 1 < |path| {
      UtilNonNegative(net, path, i + 1);
      var e := net.EdgeOf(path[i], path[i + 1]);
      assert e.usage / e.capacity >= 0.0;
    }
  }

  /** With non-negative usage and positive capacity, a path costs at least `alpha * hops`. */
  lemma CostAtLeastHops(net: Network, path: Path, alpha: real, beta: real)
    requires net.Valid() && net.IsWalk(path) && beta >= 0.0
    ensures Cost(net, path, alpha, beta) >= alpha * (Hops(path) as real)
  {
    UtilNonNegative(net, path, 0);
  }

  function Abs(x: real): real
  {
    if x < 0.0 then -x else x
  }

  /** `min(c for p, c in costs)`. */
  function MinCost(net: Network, cands: seq<Path>, alpha: real, beta: real): (m: real)
    requires net.Valid() && AllPaths(net, cands) && |cands| > 0
    ensures exists i | 0 <= i < |cands| :: m == Cost(net, cands[i], alpha, beta)
    ensures forall i | 0 <= i < |cands| :: m <= Cost(net, cands[i], alpha, beta)
  {
    if |cands| == 1 then Cost(net, cands[0], alpha, beta)
    else
      var rest := MinCost(net, cands[1..], alpha, beta);
      var c := Cost(net, cands[0], alpha, beta);
      assert forall i | 1 <= i < |cands| :: cands[i] == cands[1..][i - 1];
      if c <= rest then c else rest
  }

  /** `abs(c - min_cost) < 1e-1`, with `1e-1` read as exactly one tenth. */
  predicate NearMin(net: Network, p: Path, alpha: real, beta: real, m: real)
    requires net.Valid() && net.IsWalk(p)
  {
    Abs(Cost(net, p, alpha, beta) - m) < 0.1
  }

  /** `eq = [p for p, c in costs if abs(c - min_cost) < 1e-1]`, in candidate order. */
  function NearMinPaths(net: Network, cands: seq<Path>, alpha: real, beta: real, m: real): (eq: seq<Path>)
    requires net.Valid() && AllPaths(net, cands)
    ensures AllPaths(net, eq)
    ensures forall p :: p in eq <==> p in cands && NearMin(net, p, alpha, beta, m)
  {
    if |cands| == 0 then []
    else
      (if NearMin(net, cands[0], alpha, beta, m) then [cands[0]] else [])
      + NearMinPaths(net, cands[1..], alpha, beta, m)
  }

  /** `[n for n in path if G.nodes[n]["type"] == "aggr"]`. */
  function AggrsOn(net: Network, path: Path): (ags: seq<NodeId>)
    ensures forall n :: n in ags <==> n in path && net.IsAggr(n)
  {
    if |path| == 0 then []
    else (if net.IsAggr(path[0]) then [path[0]] else []) + AggrsOn(net, path[1..])
  }

  /** `max(G.degree(a) - TORS_PER_POD for a in ags)` over a non-empty list. */
  function MaxPorts(net: Network, cfg: TopoConfig, ags: seq<NodeId>): (r: int)
    requires |ags| > 0 && forall a | a in ags :: a in net.adj
    ensures exists a | a in ags :: r == net.Degree(a) - cfg.torsPerPod
    ensures forall a | a in ags :: net.Degree(a) - cfg.torsPerPod <= r
  {
    var d := net.Degree(ags[0]) - cfg.torsPerPod;
    if |ags| == 1 then d
    else
      var rest := MaxPorts(net, cfg, ags[1..]);
      assert forall a | a in ags[1..] :: a in ags;
      assert forall a | a in ags :: a == ags[0] || a in ags[1..];
      if d >= rest then d else rest
  }

  /** The inner `ocs_ports(path)` of `run_te`: the busiest Aggr's OCS port count, 0 without Aggrs. */
  function OcsPorts(net: Network, cfg: TopoConfig, path: Path): int
    requires net.Valid()
  {
    var ags := AggrsOn(net, path);
    if |ags| == 0 then 0 else MaxPorts(net, cfg, ags)
  }

  /** `ocs_ports` is the largest `degree - TORS_PER_POD` over the Aggrs on the path, and 0 when there is none. */
  lemma OcsPortsIsMax(net: Network, cfg: TopoConfig, path: Path)
    requires net.Valid()
    ensures (forall a | a in path :: !net.IsAggr(a)) ==> OcsPorts(net, cfg, path) == 0
    ensures (exists a | a in path :: net.IsAggr(a)) ==>
              (exists a | a in path && net.IsAggr(a) :: OcsPorts(net, cfg, path) == net.Degree(a) - cfg.torsPerPod) &&
              forall a | a in path && net.IsAggr(a) :: net.Degree(a) - cfg.torsPerPod <= OcsPorts(net, cfg, path)
  {
    var ags := AggrsOn(net, path);
    if exists a | a in path :: net.IsAggr(a) {
      var a :| a in path && net.IsAggr(a);
      assert a in ags;
    } else if |ags| > 0 {
      assert ags[0] in ags;
    }
  }

  /**
   * Python's `max(xs, key=f)` scans left to right and replaces its pick
   * only on a strictly larger key: the result is the first maximal entry.
   */
  function FirstMax(keys: seq<int>): (k: nat)
    requires |keys| > 0
    ensures k < |keys|
    ensures forall i | 0 <= i < |keys| :: keys[i] <= keys[k]
    ensures forall i | 0 <= i < k :: keys[i] < keys[k]
  {
    if |keys| == 1 then 0
    else
      var k := FirstMax(keys[..|keys| - 1]);
      if keys[|keys| - 1] > keys[k] then |keys| - 1 else k
  }

  /** The `ocs_ports` key of every path of `eq`, in order. */
  function PortKeys(net: Network, cfg: TopoConfig, eq: seq<Path>): (keys: seq<int>)
    requires net.Valid()
    ensures |keys| == |eq| && forall i | 0 <= i < |eq| :: keys[i] == OcsPorts(net, cfg, eq[i])
  {
    seq(|eq|, i requires 0 <= i < |eq| => OcsPorts(net, cfg, eq[i]))
  }

  /** `max(eq, key=ocs_ports)`: the index of the first path of `eq` with the most OCS ports. */
  function TieBreak(net: Network, cfg: TopoConfig, eq: seq<Path>): (k: nat)
    requires net.Valid() && |eq| > 0
    ensures k < |eq|
    ensures forall i | 0 <= i < |eq| :: OcsPorts(net, cfg, eq[i]) <= OcsPorts(net, cfg, eq[k])
    ensures forall i | 0 <= i < k :: OcsPorts(net, cfg, eq[i]) < OcsPorts(net, cfg, eq[k])
  {
    FirstMax(PortKeys(net, cfg, eq))
  }

  /** The cheapest candidate is within the tolerance of the least cost, so `eq` is never empty. */
  lemma NearMinNonEmpty(net: Network, cands: seq<Path>, alpha: real, beta: real)
    requires net.Valid() && AllPaths(net, cands) && |cands| > 0
    ensures |NearMinPaths(net, cands, alpha, beta, MinCost(net, cands, alpha, beta))| > 0
  {
    var m := MinCost(net, cands, alpha, beta);
    var i :| 0 <= i < |cands| && m == Cost(net, cands[i], alpha, beta);
    assert NearMin(net, cands[i], alpha, beta, m);
    assert cands[i] in NearMinPaths(net, cands, alpha, beta, m);
  }

  /** `p` is what `max(eq, key=ocs_ports)` returns: an entry with the most OCS ports, and no earlier entry has as many. */
  ghost predicate FirstMostPorts(net: Network, cfg: TopoConfig, eq: seq<Path>, p: Path)
    requires net.Valid()
  {
    && (forall q | q in eq :: OcsPorts(net, cfg, q) <= OcsPorts(net, cfg, p))
    && exists k | 0 <= k < |eq| :: eq[k] == p && forall i | 0 <= i < k :: OcsPorts(net, cfg, eq[i]) < OcsPorts(net, cfg, p)
  }

  /**
   * `run_te`: among the candidates within one tenth of the least cost, the
   * first with the most OCS ports on an Aggr; `None` for a same-pod flow
   * or when there is no candidate.
   */
  function RunTe(net: Network, cfg: TopoConfig, src: NodeId, dst: NodeId, cands: seq<Path>, alpha: real, beta: real): (r: Option<Path>)
    requires net.Valid() && src in net.kinds && dst in net.kinds && AllPaths(net, cands)
    ensures r.None? <==> SamePod(net, src, dst) || |cands| == 0
    ensures r.Some? ==> r.value in cands && NearMin(net, r.value, alpha, beta, MinCost(net, cands, alpha, beta))
    ensures r.Some? ==> FirstMostPorts(net, cfg, NearMinPaths(net, cands, alpha, beta, MinCost(net, cands, alpha, beta)), r.value)
  {
    if SamePod(net, src, dst) || |cands| == 0 then None
    else
      NearMinNonEmpty(net, cands, alpha, beta);
      var eq := NearMinPaths(net, cands, alpha, beta, MinCost(net, cands, alpha, beta));
      var k := TieBreak(net, cfg, eq);
      Some(eq[k])
  }

  /** What `nx.all_simple_paths(G, src, dst, cutoff=6)` lists: simple paths between the two of at most six hops. */
  ghost predicate SimplePathsWithin(net: Network, src: NodeId, dst: NodeId, cands: seq<Path>)
  {
    forall i | 0 <= i < |cands| :: net.PathBetween(cands[i], src, dst) && net.IsSimple(cands[i]) && Hops(cands[i]) <= 6
  }

  /** When the candidates are networkx's, the TE route is a simple path of at most six hops between the two ToRs. */
  lemma TeRoute(net: Network, cfg: TopoConfig, src: NodeId, dst: NodeId, cands: seq<Path>, alpha: real, beta: real)
    requires net.Valid() && src in net.kinds && dst in net.kinds && SimplePathsWithin(net, src, dst, cands)
    ensures AllPaths(net, cands)
    ensures var r := RunTe(net, cfg, src, dst, cands, alpha, beta);
            r.Some? ==> net.PathBetween(r.value, src, dst) && net.IsSimple(r.value) && Hops(r.value) <= 6
  {
    var r := RunTe(net, cfg, src, dst, cands, alpha, beta);
    if r.Some? {
      var i :| 0 <= i < |cands| && cands[i] == r.value;
    }
  }

  /** `last_finish.get(link, 0.0)`: when a link is next free. */
  function FreeAt(last: map<Link, real>, l: Link): real
  {
    if l in last then last[l] else 0.0
  }

  function Max(a: real, b: real): real
  {
    if a >= b then a else b
  }

  /** `flow_unit / G[u][v]["capacity"]` for every hop of a walk: the time the flow holds each link. */
  function HopTimes(net: Network, path: Path, flowUnit: real): (d: seq<real>)
    requires net.Valid() && net.IsWalk(path)
    ensures |d| == |Steps(path)|
  {
    if |path| < 2 then []
    else seq(|path| - 1, j requires 0 <= j < |path| - 1 => flowUnit / net.EdgeOf(path[j], path[j + 1]).capacity)
  }

  /** A non-negative flow unit spends a non-negative time on every hop. */
  lemma HopTimesNonNegative(net: Network, path: Path, flowUnit: real)
    requires net.Valid() && net.IsWalk(path) && flowUnit >= 0.0
    ensures NonNegative(HopTimes(net, path, flowUnit))
  {
    var d := HopTimes(net, path, flowUnit);
    forall j | 0 <= j < |d| ensures d[j] >= 0.0 {
      var c := net.EdgeOf(path[j], path[j + 1]).capacity;
      assert d[j] == flowUnit / c;
      DivNonNegative(flowUnit, c);
    }
  }

  lemma DivNonNegative(a: real, b: real)
    requires a >= 0.0 && b > 0.0
    ensures a / b >= 0.0
  {
  }

  predicate NonNegative(d: seq<real>)
  {
    forall k | 0 <= k < |d| :: d[k] >= 0.0
  }

  /**
   * The FIFO walk of `simulate_fct` over the link keys `hops` (one per hop)
   * holding each for `dur`, from hop `i` on, starting with clock `t` and
   * finish-time map `last`: each hop waits until its link is free, holds it,
   * and records the new time as the link's finish time. The pair is the
   * final clock and the final map.
   */
  function Fifo(hops: seq<Link>, dur: seq<real>, i: nat, t: real, last: map<Link, real>): (real, map<Link, real>)
    requires |dur| == |hops|
    decreases |hops| - i
  {
    if i >= |hops| then (t, last)
    else
      var t' := Max(t, FreeAt(last, hops[i])) + dur[i];
      Fifo(hops, dur, i + 1, t', last[hops[i] := t'])
  }

  /** The pure transfer time: the durations from hop `i` on, summed. */
  function SumFrom(dur: seq<real>, i: nat): real
    decreases |dur| - i
  {
    if i >= |dur| then 0.0 else dur[i] + SumFrom(dur, i + 1)
  }

  /** The links crossed from hop `i` on. */
  function KeysFrom(hops: seq<Link>, i: nat): set<Link>
  {
    set j | i <= j < |hops| :: hops[j]
  }

  lemma KeysFromStep(hops: seq<Link>, i: nat)
    requires i < |hops|
    ensures KeysFrom(hops, i) == {hops[i]} + KeysFrom(hops, i + 1)
  {
    forall l | l in KeysFrom(hops, i) ensures l == hops[i] || l in KeysFrom(hops, i + 1) {
      var j :| i <= j < |hops| && l == hops[j];
      if j > i {
        assert l in KeysFrom(hops, i + 1);
      }
    }
  }

  /** `last_finish` gains exactly the keys of the links crossed; every other entry keeps its value. */
  lemma {:induction false} FifoFrame(hops: seq<Link>, dur: seq<real>, i: nat, t: real, last: map<Link, real>)
    requires |dur| == |hops|
    ensures var last' := Fifo(hops, dur, i, t, last).1;
            && last'.Keys == last.Keys + KeysFrom(hops, i)
            && forall l | l in last && l !in KeysFrom(hops, i) :: last'[l] == last[l]
    decreases |hops| - i
  {
    if i < |hops| {
      var t' := Max(t, FreeAt(last, hops[i])) + dur[i];
      KeysFromStep(hops, i);
      FifoFrame(hops, dur, i + 1, t', last[hops[i] := t']);
    } else {
      assert KeysFrom(hops, i) == {};
    }
  }

  lemma {:induction false} SumNonNegative(dur: seq<real>, i: nat)
    requires NonNegative(dur)
    ensures SumFrom(dur, i) >= 0.0
    decreases |dur| - i
  {
    if i < |dur| {
      SumNonNegative(dur, i + 1);
    }
  }

  /**
   * The clock never goes back: the flow finishes no earlier than its start
   * plus the pure transfer time of the hops it still has to make.
   */
  lemma {:induction false} FifoClock(hops: seq<Link>, dur: seq<real>, i: nat, t: real, last: map<Link, real>)
    requires |dur| == |hops| && NonNegative(dur)
    ensures Fifo(hops, dur, i, t, last).0 >= t + SumFrom(dur, i)
    ensures Fifo(hops, dur, i, t, last).0 >= t
    decreases |hops| - i
  {
    SumNonNegative(dur, i);
    if i < |hops| {
      var t' := Max(t, FreeAt(last, hops[i])) + dur[i];
      FifoClock(hops, dur, i + 1, t', last[hops[i] := t']);
    }
  }

  /** No finish time in `last_finish` goes back. */
  lemma {:induction false} FifoKeepsOrder(hops: seq<Link>, dur: seq<real>, i: nat, t: real, last: map<Link, real>)
    requires |dur| == |hops| && NonNegative(dur)
    ensures forall l: Link :: FreeAt(last, l) <= FreeAt(Fifo(hops, dur, i, t, last).1, l)
    decreases |hops| - i
  {
    if i < |hops| {
      var t' := Max(t, FreeAt(last, hops[i])) + dur[i];
      var mid := last[hops[i] := t'];
      assert forall k: Link :: FreeAt(last, k) <= FreeAt(mid, k);
      FifoKeepsOrder(hops, dur, i + 1, t', mid);
    }
  }

  /**
   * Hop `j` leaves its link busy until at least its old finish time plus the
   * flow's time on it, and the flow itself completes no earlier.
   */
  lemma {:induction false} FifoHopFloor(hops: seq<Link>, dur: seq<real>, i: nat, t: real, last: map<Link, real>, j: nat)
    requires |dur| == |hops| && NonNegative(dur) && i <= j < |hops|
    ensures var r := Fifo(hops, dur, i, t, last);
            && FreeAt(r.1, hops[j]) >= FreeAt(last, hops[j]) + dur[j]
            && r.0 >= FreeAt(last, hops[j]) + dur[j]
    decreases |hops| - i
  {
    var t' := Max(t, FreeAt(last, hops[i])) + dur[i];
    var mid := last[hops[i] := t'];
    if j == i {
      FifoKeepsOrder(hops, dur, i + 1, t', mid);
      FifoClock(hops, dur, i + 1, t', mid);
      assert FreeAt(mid, hops[i]) == t';
    } else {
      FifoHopFloor(hops, dur, i + 1, t', mid, j);
      assert FreeAt(mid, hops[j]) >= FreeAt(last, hops[j]);
    }
  }

  /** The dict `last_finish` that `run_strategy` threads through every `simulate_fct` call. */
  class FinishTimes {
    var last: map<Link, real>

    /** `last_finish = {}`. */
    constructor ()
      ensures last == map[]
    {
      last := map[];
    }
  }

  /**
   * `simulate_fct(G, path, last_finish, flow_unit)`: walks the hops in
   * order, updating `last_finish` in place, and returns the completion time.
   */
  method SimulateFct(net: Network, path: Path, ft: FinishTimes, flowUnit: real) returns (t: real)
    requires net.Valid() && net.IsWalk(path)
    modifies ft
    ensures (t, ft.last) == Fifo(Steps(path), HopTimes(net, path, flowUnit), 0, 0.0, old(ft.last))
    ensures |path| < 2 ==> t == 0.0
    ensures flowUnit >= 0.0 ==> t >= SumFrom(HopTimes(net, path, flowUnit), 0)
  {
    ghost var hops, dur, last0 := Steps(path), HopTimes(net, path, flowUnit), ft.last;
    if flowUnit >= 0.0 {
      HopTimesNonNegative(net, path, flowUnit);
      FifoClock(hops, dur, 0, 0.0, last0);
    }
    t := 0.0;
    var i := 0;
    while i + 1 < |path|
      invariant i <= |hops|
      invariant Fifo(hops, dur, i, t, ft.last) == Fifo(hops, dur, 0, 0.0, last0)
    {
      HopAt(net, path, flowUnit, i);
      var link := LinkKey(path[i], path[i + 1]);
      var freeTime := if link in ft.last then ft.last[link] else 0.0;
      t := Max(t, freeTime);
      t := t + flowUnit / net.EdgeOf(path[i], path[i + 1]).capacity;
      ft.last := ft.last[link := t];
      i := i + 1;
    }
  }

  /** Hop `i` of a walk: its link key and the time the flow holds it. */
  lemma HopAt(net: Network, path: Path, flowUnit: real, i: nat)
    requires net.Valid() && net.IsWalk(path) && i + 1 < |path|
    ensures Steps(path)[i] == LinkKey(path[i], path[i + 1])
    ensures HopTimes(net, path, flowUnit)[i] == flowUnit / net.EdgeOf(path[i], path[i + 1]).capacity
  {
  }

  /**
   * Two flows in a row over a common link: the second completes no earlier
   * than the first's finish time on that link plus its own time there, and
   * that finish time is itself past the link's earlier finish time plus the
   * first flow's time on it.
   */
  lemma SecondFlowWaits(hops1: seq<Link>, dur1: seq<real>, hops2: seq<Link>, dur2: seq<real>, last: map<Link, real>, j1: nat, j2: nat)
    requires |dur1| == |hops1| && NonNegative(dur1) && |dur2| == |hops2| && NonNegative(dur2)
    requires j1 < |hops1| && j2 < |hops2| && hops1[j1] == hops2[j2]
    ensures var first := Fifo(hops1, dur1, 0, 0.0, last);
            var second := Fifo(hops2, dur2, 0, 0.0, first.1);
            && FreeAt(first.1, hops1[j1]) >= FreeAt(last, hops1[j1]) + dur1[j1]
            && second.0 >= FreeAt(first.1, hops1[j1]) + dur2[j2]
  {
    var first := Fifo(hops1, dur1, 0, 0.0, last);
    FifoHopFloor(hops1, dur1, 0, 0.0, last, j1);
    FifoHopFloor(hops2, dur2, 0, 0.0, first.1, j2);
  }
}

=== FILE: topology.dfy ===
/**
 * The three topology builders: ToR and Aggr nodes per pod, a full ToR-Aggr
 * mesh inside each pod, and inter-pod Aggr-Aggr connections that always pass
 * through a fresh degree-2 `OCS_<n>` node, under a per-Aggr port ceiling and
 * a per-pod-pair link budget.
 */
module Topology {
  import opened Wrappers
  import opened NodeNames
  import opened Fabric

  /** The fabric sizing parameters (`TopoConfig`). */
  datatype TopoConfig = TopoConfig(
    numPods: nat,
    torsPerPod: nat,
    aggrsPerPod: nat,
    linkCapacity: real,
    ocsPortLimit: nat,
    ocsLinksPerPodPair: nat,
    flowUnit: nat)

  /** The module-level `config = TopoConfig()`. */
  const DefaultConfig: TopoConfig := TopoConfig(4, 2, 2, 10.0, 4, 2, 1)

  /** The degree an Aggr may not reach before taking another OCS link. */
  function PortCeiling(cfg: TopoConfig): nat
  {
    cfg.torsPerPod + cfg.ocsPortLimit
  }

  function TorName(pod: nat, t: nat): NodeId
  {
    NodeName(pod, "Tor", t)
  }

  function AggrName(pod: nat, a: nat): NodeId
  {
    NodeName(pod, "Aggr", a)
  }

  lemma TorNameInjective(p: nat, t: nat, q: nat, s: nat)
    requires TorName(p, t) == TorName(q, s)
    ensures p == q && t == s
  {
    NodeNameInjective(p, "Tor", t, q, "Tor", s);
  }

  lemma AggrNameInjective(p: nat, a: nat, q: nat, b: nat)
    requires AggrName(p, a) == AggrName(q, b)
    ensures p == q && a == b
  {
    NodeNameInjective(p, "Aggr", a, q, "Aggr", b);
  }

  lemma TorNotAggr(p: nat, t: nat, q: nat, a: nat)
    ensures TorName(p, t) != AggrName(q, a)
  {
    if TorName(p, t) == AggrName(q, a) {
      NodeNameInjective(p, "Tor", t, q, "Aggr", a);
    }
  }

  /** The ToRs of pods `0 .. pods-1`, in the order the builders append them. */
  function TorsUpTo(pods: nat, torsPerPod: nat): seq<NodeId>
  {
    if pods == 0 then []
    else TorsUpTo(pods - 1, torsPerPod) + TorRow(pods - 1, torsPerPod)
  }

  /** `[node_name(pod, "Tor", t) for t in range(n)]`. */
  function TorRow(pod: nat, n: nat): seq<NodeId>
  {
    seq(n, t requires 0 <= t < n => TorName(pod, t))
  }

  /** The `tors` list every builder returns. */
  function TorList(cfg: TopoConfig): seq<NodeId>
  {
    TorsUpTo(cfg.numPods, cfg.torsPerPod)
  }

  /** Where ToR `t` of pod `p` sits in `tors`: pod-major, index-minor. */
  function TorIndex(p: nat, t: nat, torsPerPod: nat): nat
  {
    p * torsPerPod + t
  }

  lemma {:induction false} MulMono(a: nat, b: nat, n: nat)
    requires a <= b
    ensures a * n <= b * n
    decreases b - a
  {
    if a < b {
      MulMono(a + 1, b, n);
      assert (a + 1) * n == a * n + n;
    }
  }

  /**
   * The `tors` list holds `pods * torsPerPod` names, ToR `t` of pod `p` at
   * `TorIndex(p, t, torsPerPod)`, and nothing else.
   */
  lemma {:induction false} TorsUpToIndex(pods: nat, torsPerPod: nat)
    ensures |TorsUpTo(pods, torsPerPod)| == pods * torsPerPod
    ensures forall p, t | 0 <= p < pods && 0 <= t < torsPerPod ::
              TorIndex(p, t, torsPerPod) < |TorsUpTo(pods, torsPerPod)| && TorsUpTo(pods, torsPerPod)[TorIndex(p, t, torsPerPod)] == TorName(p, t)
  {
    if pods > 0 {
      var n := torsPerPod;
      TorsUpToIndex(pods - 1, n);
      var prev, row := TorsUpTo(pods - 1, n), TorRow(pods - 1, n);
      var r := prev + row;
      assert r == TorsUpTo(pods, n);
      assert pods * n == (pods - 1) * n + n;
      forall p, t | 0 <= p < pods && 0 <= t < n ensures TorIndex(p, t, n) < |r| && r[TorIndex(p, t, n)] == TorName(p, t) {
        if p < pods - 1 {
          MulMono(p + 1, pods - 1, n);
          assert (p + 1) * n == p * n + n;
          assert r[TorIndex(p, t, n)] == prev[TorIndex(p, t, n)];
        } else {
          assert TorIndex(p, t, n) == |prev| + t;
          assert r[TorIndex(p, t, n)] == row[t];
        }
      }
    }
  }

  /** No name occurs twice. */
  predicate Distinct(nodes: seq<NodeId>)
  {
    forall i, j | 0 <= i < j < |nodes| :: nodes[i] != nodes[j]
  }

  lemma DistinctFront(nodes: seq<NodeId>)
    requires Distinct(nodes) && |nodes| > 0
    ensures Distinct(nodes[..|nodes| - 1]) && nodes[|nodes| - 1] !in nodes[..|nodes| - 1]
  {
    var front := nodes[..|nodes| - 1];
    forall i, j | 0 <= i < j < |front| ensures front[i] != front[j] {
      assert front[i] == nodes[i] && front[j] == nodes[j];
    }
  }

  /** A name is in a non-empty list exactly when it is in its front or is its last entry. */
  lemma InFrontOrLast(nodes: seq<NodeId>, y: NodeId)
    requires |nodes| > 0
    ensures y in nodes <==> y in nodes[..|nodes| - 1] || y == nodes[|nodes| - 1]
  {
    assert nodes == nodes[..|nodes| - 1] + [nodes[|nodes| - 1]];
  }

  /** A name of ToR `t < torsPerPod` of pod `p < pods`. */
  ghost predicate TorNameBelow(x: NodeId, pods: nat, torsPerPod: nat)
  {
    exists p, t :: 0 <= p < pods && 0 <= t < torsPerPod && x == TorName(p, t)
  }

  lemma {:induction false} TorsUpToNamed(pods: nat, torsPerPod: nat)
    ensures forall i | 0 <= i < |TorsUpTo(pods, torsPerPod)| :: TorNameBelow(TorsUpTo(pods, torsPerPod)[i], pods, torsPerPod)
  {
    if pods > 0 {
      var n := torsPerPod;
      TorsUpToNamed(pods - 1, n);
      var prev, row := TorsUpTo(pods - 1, n), TorRow(pods - 1, n);
      var r := prev + row;
      assert r == TorsUpTo(pods, n);
      forall i | 0 <= i < |r| ensures TorNameBelow(r[i], pods, n) {
        if i < |prev| {
          assert r[i] == prev[i] && TorNameBelow(prev[i], pods - 1, n);
          var p, t :| 0 <= p < pods - 1 && 0 <= t < n && prev[i] == TorName(p, t);
          assert 0 <= p < pods && r[i] == TorName(p, t);
        } else {
          var t := i - |prev|;
          assert 0 <= t < n && r[i] == row[t] == TorName(pods - 1, t);
        }
      }
    }
  }

  /** Every builder's `tors`: `NUM_PODS * TORS_PER_POD` ToR names in pod-major, index-minor order. */
  lemma TorListSpec(cfg: TopoConfig)
    ensures |TorList(cfg)| == cfg.numPods * cfg.torsPerPod
    ensures forall p, t | 0 <= p < cfg.numPods && 0 <= t < cfg.torsPerPod ::
              TorIndex(p, t, cfg.torsPerPod) < |TorList(cfg)| && TorList(cfg)[TorIndex(p, t, cfg.torsPerPod)] == TorName(p, t)
    ensures forall i | 0 <= i < |TorList(cfg)| :: TorNameBelow(TorList(cfg)[i], cfg.numPods, cfg.torsPerPod)
  {
    TorsUpToIndex(cfg.numPods, cfg.torsPerPod);
    TorsUpToNamed(cfg.numPods, cfg.torsPerPod);
    assert TorList(cfg) == TorsUpTo(cfg.numPods, cfg.torsPerPod);
  }

  /** No ToR name is listed twice in `tors`. */
  lemma {:induction false} TorsUpToDistinct(pods: nat, torsPerPod: nat)
    ensures Distinct(TorsUpTo(pods, torsPerPod))
  {
    if pods > 0 {
      var n := torsPerPod;
      TorsUpToDistinct(pods - 1, n);
      TorsUpToNamed(pods - 1, n);
      var prev, row := TorsUpTo(pods - 1, n), TorRow(pods - 1, n);
      var r := prev + row;
      forall i, j | 0 <= i < j < |r| ensures r[i] != r[j] {
        if j < |prev| {
          assert r[i] == prev[i] && r[j] == prev[j];
        } else if i >= |prev| {
          assert r[i] == TorName(pods - 1, i - |prev|) && r[j] == TorName(pods - 1, j - |prev|);
          if r[i] == r[j] {
            TorNameInjective(pods - 1, i - |prev|, pods - 1, j - |prev|);
          }
        } else {
          assert TorNameBelow(prev[i], pods - 1, n);
          var p, t :| 0 <= p < pods - 1 && 0 <= t < n && prev[i] == TorName(p, t);
          assert r[i] == TorName(p, t) && r[j] == TorName(pods - 1, j - |prev|);
          if r[i] == r[j] {
            TorNameInjective(p, t, pods - 1, j - |prev|);
          }
        }
      }
    }
  }

  /** Each entry of `tors` is ToR `t` of pod `p` for some `p < NUM_PODS` and `t < TORS_PER_POD`. */
  lemma TorListEntry(cfg: TopoConfig, x: NodeId) returns (p: nat, t: nat)
    requires x in TorList(cfg)
    ensures p < cfg.numPods && t < cfg.torsPerPod && x == TorName(p, t)
  {
    TorListSpec(cfg);
    var i :| 0 <= i < |TorList(cfg)| && TorList(cfg)[i] == x;
    assert TorNameBelow(TorList(cfg)[i], cfg.numPods, cfg.torsPerPod);
    p, t :| 0 <= p < cfg.numPods && 0 <= t < cfg.torsPerPod && x == TorName(p, t);
  }

  /** Every name in `tors` is a node of a graph whose ToRs are all placed. */
  lemma TorListPlaced(net: Network, cfg: TopoConfig)
    requires NodesPlaced(net, cfg)
    ensures forall i | 0 <= i < |TorList(cfg)| :: TorList(cfg)[i] in net.kinds
  {
    TorListSpec(cfg);
    forall i | 0 <= i < |TorList(cfg)| ensures TorList(cfg)[i] in net.kinds {
      var p, t :| 0 <= p < cfg.numPods && 0 <= t < cfg.torsPerPod && TorList(cfg)[i] == TorName(p, t);
      assert TorPlaced(net, p, t);
    }
  }

  function TorsOf(pod: nat, n: nat): set<NodeId>
  {
    set t | 0 <= t < n :: TorName(pod, t)
  }

  function AggrsOf(pod: nat, n: nat): set<NodeId>
  {
    set a | 0 <= a < n :: AggrName(pod, a)
  }

  /** The names `OCS_0 .. OCS_{n-1}`. */
  function OcsNames(n: nat): set<NodeId>
  {
    set i | 0 <= i < n :: OcsName(i)
  }

  /** Which node kinds an edge may join: ToR-Aggr of one pod, or Aggr-OCS. */
  predicate EdgeTyped(k1: NodeKind, k2: NodeKind)
  {
    || (k1.Tor? && k2.Aggr? && k1.pod == k2.pod)
    || (k1.Aggr? && k2.Tor? && k1.pod == k2.pod)
    || (k1.Aggr? && k2.Ocs?)
    || (k1.Ocs? && k2.Aggr?)
  }

  /** Every node carries the type and pod its name announces. */
  ghost predicate KindsNamed(net: Network, cfg: TopoConfig)
  {
    forall n | n in net.kinds ::
      && (net.kinds[n].Tor? ==> net.kinds[n].pod < cfg.numPods && n in TorsOf(net.kinds[n].pod, cfg.torsPerPod))
      && (net.kinds[n].Aggr? ==> net.kinds[n].pod < cfg.numPods && n in AggrsOf(net.kinds[n].pod, cfg.aggrsPerPod))
  }

  ghost predicate TorPlaced(net: Network, p: nat, t: nat)
  {
    TorName(p, t) in net.kinds && net.kinds[TorName(p, t)] == Tor(p)
  }

  ghost predicate AggrPlaced(net: Network, p: nat, a: nat)
  {
    AggrName(p, a) in net.kinds && net.kinds[AggrName(p, a)] == Aggr(p)
  }

  /** All ToR and Aggr nodes of the configuration exist with their attributes. */
  ghost predicate NodesPlaced(net: Network, cfg: TopoConfig)
  {
    && (forall p, t | 0 <= p < cfg.numPods && 0 <= t < cfg.torsPerPod :: TorPlaced(net, p, t))
    && (forall p, a | 0 <= p < cfg.numPods && 0 <= a < cfg.aggrsPerPod :: AggrPlaced(net, p, a))
    && KindsNamed(net, cfg)
  }

  /** No node is an OCS yet. */
  ghost predicate NoOcs(net: Network)
  {
    forall n | n in net.kinds :: !net.kinds[n].Ocs?
  }

  /** `net` after `G.add_node(n, ...)`, as `Graph.AddNode` leaves it. */
  function WithNode(net: Network, n: NodeId, kind: NodeKind): (r: Network)
    ensures r.kinds.Keys == net.kinds.Keys + {n} && r.adj.Keys == net.adj.Keys + {n}
  {
    Network(net.kinds[n := kind], if n in net.adj then net.adj else net.adj[n := {}], net.links)
  }

  /** A graph with nodes but no edges. */
  ghost predicate Bare(net: Network)
  {
    net.Valid() && net.links == map[] && (forall n | n in net.adj :: net.adj[n] == {})
  }

  lemma WithNodeBare(net: Network, n: NodeId, kind: NodeKind)
    requires Bare(net)
    ensures Bare(WithNode(net, n, kind))
  {
  }

  ghost predicate TorsPlacedUpTo(net: Network, cfg: TopoConfig, pod: nat, t: nat)
  {
    forall p, t' | 0 <= p <= pod && 0 <= t' < cfg.torsPerPod && (p < pod || t' < t) :: TorPlaced(net, p, t')
  }

  ghost predicate AggrsPlacedUpTo(net: Network, cfg: TopoConfig, pod: nat, a: nat)
  {
    forall p, a' | 0 <= p <= pod && 0 <= a' < cfg.aggrsPerPod && (p < pod || a' < a) :: AggrPlaced(net, p, a')
  }

  /**
   * Progress of phase 1: every pod before `pod` is complete, and pod `pod`
   * has its first `t` ToRs and first `a` Aggrs; no edge exists yet.
   */
  ghost predicate PlacedUpTo(net: Network, cfg: TopoConfig, pod: nat, t: nat, a: nat)
  {
    Bare(net) && KindsNamed(net, cfg) && NoOcs(net) && TorsPlacedUpTo(net, cfg, pod, t) && AggrsPlacedUpTo(net, cfg, pod, a)
  }

  lemma NamedWithTor(net: Network, cfg: TopoConfig, pod: nat, t: nat)
    requires KindsNamed(net, cfg) && NoOcs(net) && pod < cfg.numPods && t < cfg.torsPerPod
    ensures KindsNamed(WithNode(net, TorName(pod, t), Tor(pod)), cfg) && NoOcs(WithNode(net, TorName(pod, t), Tor(pod)))
  {
    assert TorName(pod, t) in TorsOf(pod, cfg.torsPerPod);
  }

  lemma NamedWithAggr(net: Network, cfg: TopoConfig, pod: nat, a: nat)
    requires KindsNamed(net, cfg) && NoOcs(net) && pod < cfg.numPods && a < cfg.aggrsPerPod
    ensures KindsNamed(WithNode(net, AggrName(pod, a), Aggr(pod)), cfg) && NoOcs(WithNode(net, AggrName(pod, a), Aggr(pod)))
  {
    assert AggrName(pod, a) in AggrsOf(pod, cfg.aggrsPerPod);
  }

  lemma PlaceTor(net: Network, cfg: TopoConfig, pod: nat, t: nat)
    requires PlacedUpTo(net, cfg, pod, t, 0) && pod < cfg.numPods && t < cfg.torsPerPod
    ensures PlacedUpTo(WithNode(net, TorName(pod, t), Tor(pod)), cfg, pod, t + 1, 0)
  {
    var n := TorName(pod, t);
    var net' := WithNode(net, n, Tor(pod));
    WithNodeBare(net, n, Tor(pod));
    NamedWithTor(net, cfg, pod, t);
    forall p, t' | 0 <= p <= pod && 0 <= t' < cfg.torsPerPod && (p < pod || t' < t + 1)
      ensures TorPlaced(net', p, t')
    {
      if p != pod || t' != t {
        assert TorPlaced(net, p, t');
        if TorName(p, t') == n {
          TorNameInjective(p, t', pod, t);
        }
      }
    }
    forall p, a' | 0 <= p < pod && 0 <= a' < cfg.aggrsPerPod
      ensures AggrPlaced(net', p, a')
    {
      assert AggrPlaced(net, p, a');
      TorNotAggr(pod, t, p, a');
    }
  }

  lemma PlaceAggr(net: Network, cfg: TopoConfig, pod: nat, a: nat)
    requires PlacedUpTo(net, cfg, pod, cfg.torsPerPod, a) && pod < cfg.numPods && a < cfg.aggrsPerPod
    ensures PlacedUpTo(WithNode(net, AggrName(pod, a), Aggr(pod)), cfg, pod, cfg.torsPerPod, a + 1)
  {
    var n := AggrName(pod, a);
    var net' := WithNode(net, n, Aggr(pod));
    WithNodeBare(net, n, Aggr(pod));
    NamedWithAggr(net, cfg, pod, a);
    forall p, t' | 0 <= p <= pod && 0 <= t' < cfg.torsPerPod
      ensures TorPlaced(net', p, t')
    {
      assert TorPlaced(net, p, t');
      TorNotAggr(p, t', pod, a);
    }
    forall p, a' | 0 <= p <= pod && 0 <= a' < cfg.aggrsPerPod && (p < pod || a' < a + 1)
      ensures AggrPlaced(net', p, a')
    {
      if p != pod || a' != a {
        assert AggrPlaced(net, p, a');
        if AggrName(p, a') == n {
          AggrNameInjective(p, a', pod, a);
        }
      }
    }
  }

  /**
   * Phase 1 of every builder: for each pod, its ToRs (appended to `tors`)
   * and then its Aggrs, each tagged with its type and pod.
   */
  method AddPodNodes(g: Graph, cfg: TopoConfig) returns (tors: seq<NodeId>)
    requires g.Valid() && g.kinds == map[] && g.links == map[]
    modifies g
    ensures g.Valid() && NodesPlaced(g.View(), cfg) && NoOcs(g.View())
    ensures tors == TorList(cfg)
    ensures g.links == map[] && forall n | n in g.adj :: g.adj[n] == {}
  {
    tors := [];
    var pod := 0;
    while pod < cfg.numPods
      invariant pod <= cfg.numPods
      invariant PlacedUpTo(g.View(), cfg, pod, 0, 0)
      invariant tors == TorsUpTo(pod, cfg.torsPerPod)
    {
      var row := AddPodTors(g, cfg, pod);
      tors := tors + row;
      AddPodAggrs(g, cfg, pod);
      pod := pod + 1;
    }
    PlacedAll(g.View(), cfg);
  }

  /** The ToR loop of phase 1 for one pod; `row` is what it appends to `tors`. */
  method AddPodTors(g: Graph, cfg: TopoConfig, pod: nat) returns (row: seq<NodeId>)
    requires pod < cfg.numPods && PlacedUpTo(g.View(), cfg, pod, 0, 0)
    modifies g
    ensures PlacedUpTo(g.View(), cfg, pod, cfg.torsPerPod, 0)
    ensures row == TorRow(pod, cfg.torsPerPod)
  {
    row := [];
    var t := 0;
    while t < cfg.torsPerPod
      invariant t <= cfg.torsPerPod
      invariant PlacedUpTo(g.View(), cfg, pod, t, 0)
      invariant row == TorRow(pod, t)
    {
      var tor := TorName(pod, t);
      PlaceTor(g.View(), cfg, pod, t);
      g.AddNode(tor, Tor(pod));
      row := row + [tor];
      assert TorRow(pod, t + 1) == TorRow(pod, t) + [tor];
      t := t + 1;
    }
  }

  /** The Aggr loop of phase 1 for one pod, which completes the pod. */
  method AddPodAggrs(g: Graph, cfg: TopoConfig, pod: nat)
    requires pod < cfg.numPods && PlacedUpTo(g.View(), cfg, pod, cfg.torsPerPod, 0)
    modifies g
    ensures PlacedUpTo(g.View(), cfg, pod + 1, 0, 0)
  {
    var a := 0;
    while a < cfg.aggrsPerPod
      invariant a <= cfg.aggrsPerPod
      invariant PlacedUpTo(g.View(), cfg, pod, cfg.torsPerPod, a)
    {
      PlaceAggr(g.View(), cfg, pod, a);
      g.AddNode(AggrName(pod, a), Aggr(pod));
      a := a + 1;
    }
    PodPlaced(g.View(), cfg, pod);
  }

  lemma PodPlaced(net: Network, cfg: TopoConfig, pod: nat)
    requires PlacedUpTo(net, cfg, pod, cfg.torsPerPod, cfg.aggrsPerPod)
    ensures PlacedUpTo(net, cfg, pod + 1, 0, 0)
  {
    forall p, t' | 0 <= p <= pod + 1 && 0 <= t' < cfg.torsPerPod && p < pod + 1
      ensures TorPlaced(net, p, t')
    {
      assert p < pod || t' < cfg.torsPerPod;
    }
    forall p, a' | 0 <= p <= pod + 1 && 0 <= a' < cfg.aggrsPerPod && p < pod + 1
      ensures AggrPlaced(net, p, a')
    {
      assert p < pod || a' < cfg.aggrsPerPod;
    }
  }

  lemma PlacedAll(net: Network, cfg: TopoConfig)
    requires PlacedUpTo(net, cfg, cfg.numPods, 0, 0)
    ensures net.Valid() && NodesPlaced(net, cfg) && NoOcs(net)
    ensures net.links == map[] && forall n | n in net.adj :: net.adj[n] == {}
  {
    forall p, t | 0 <= p < cfg.numPods && 0 <= t < cfg.torsPerPod
      ensures TorPlaced(net, p, t)
    {
      assert p < cfg.numPods;
    }
    forall p, a | 0 <= p < cfg.numPods && 0 <= a < cfg.aggrsPerPod
      ensures AggrPlaced(net, p, a)
    {
      assert p < cfg.numPods;
    }
  }

  lemma SubsetCard<T>(a: set<T>, b: set<T>)
    requires a <= b
    ensures |a| <= |b|
  {
    assert b == a + (b - a);
  }

  /** An injective numbering of `n` values names `n` distinct values. */
  lemma {:induction false} InjectiveImageCard<T>(f: nat -> T, n: nat)
    requires forall i, j | 0 <= i < j < n :: f(i) != f(j)
    ensures |set i | 0 <= i < n :: f(i)| == n
  {
    if n > 0 {
      InjectiveImageCard(f, n - 1);
      var front := set i | 0 <= i < n - 1 :: f(i);
      assert (set i | 0 <= i < n :: f(i)) == front + {f(n - 1)};
      assert f(n - 1) !in front;
    }
  }

  /** A pod's `n` ToR names are distinct. */
  lemma TorsOfCard(pod: nat, n: nat)
    ensures |TorsOf(pod, n)| == n
  {
    forall i, j | 0 <= i < j < n
      ensures TorName(pod, i) != TorName(pod, j)
    {
      if TorName(pod, i) == TorName(pod, j) {
        TorNameInjective(pod, i, pod, j);
      }
    }
    var f: nat -> NodeId := (t: nat) => TorName(pod, t);
    InjectiveImageCard(f, n);
    forall x | x in TorsOf(pod, n)
      ensures x in set i | 0 <= i < n :: f(i)
    {
      var t: nat :| t < n && x == TorName(pod, t);
      assert x == f(t);
    }
    assert TorsOf(pod, n) <= set i | 0 <= i < n :: f(i);
    assert TorsOf(pod, n) == set i | 0 <= i < n :: f(i);
  }

  /** A pod's `n` Aggr names are distinct. */
  lemma AggrsOfCard(pod: nat, n: nat)
    ensures |AggrsOf(pod, n)| == n
  {
    forall i, j | 0 <= i < j < n
      ensures AggrName(pod, i) != AggrName(pod, j)
    {
      if AggrName(pod, i) == AggrName(pod, j) {
        AggrNameInjective(pod, i, pod, j);
      }
    }
    var f: nat -> NodeId := (a: nat) => AggrName(pod, a);
    InjectiveImageCard(f, n);
    forall x | x in AggrsOf(pod, n)
      ensures x in set i | 0 <= i < n :: f(i)
    {
      var a: nat :| a < n && x == AggrName(pod, a);
      assert x == f(a);
    }
    assert AggrsOf(pod, n) <= set i | 0 <= i < n :: f(i);
    assert AggrsOf(pod, n) == set i | 0 <= i < n :: f(i);
  }

  /** `net` after `G.add_edge(u, v, ...)`, as `Graph.AddEdge` leaves it. */
  function WithEdge(net: Network, u: NodeId, v: NodeId, e: Edge): (r: Network)
    requires u in net.adj && v in net.adj
    ensures r.kinds == net.kinds && r.adj.Keys == net.adj.Keys
  {
    Network(net.kinds, net.adj[u := net.adj[u] + {v}][v := net.adj[v] + {u}], net.links[LinkKey(u, v) := e])
  }

  /** Every link still has the configured capacity and zero usage. */
  ghost predicate LinksFresh(net: Network, cfg: TopoConfig)
  {
    forall l | l in net.links :: net.links[l] == Edge(cfg.linkCapacity, 0.0)
  }

  /** Every edge joins a ToR to an Aggr of its own pod, or an Aggr to an OCS. */
  ghost predicate EdgesTyped(net: Network)
  {
    forall u, v | u in net.adj && v in net.adj[u] ::
      u in net.kinds && v in net.kinds && EdgeTyped(net.kinds[u], net.kinds[v])
  }

  /** A ToR's neighbours are Aggrs of its pod; an Aggr's ToR neighbours are ToRs of its pod. */
  ghost predicate NeighboursInPod(net: Network, cfg: TopoConfig)
  {
    && (forall n | n in net.kinds && n in net.adj && net.kinds[n].Tor? ::
          net.adj[n] <= AggrsOf(net.kinds[n].pod, cfg.aggrsPerPod))
    && (forall n, m | n in net.kinds && n in net.adj && net.kinds[n].Aggr? && m in net.adj[n] && m in net.kinds && net.kinds[m].Tor? ::
          m in TorsOf(net.kinds[n].pod, cfg.torsPerPod))
  }

  /** No Aggr has reached more than `TORS_PER_POD + OCS_PORT_LIMIT` neighbours. */
  ghost predicate PortsBounded(net: Network, cfg: TopoConfig)
  {
    forall n | n in net.kinds && n in net.adj && net.kinds[n].Aggr? :: |net.adj[n]| <= PortCeiling(cfg)
  }

  /** `(p, t, a)` comes before `(pod, t0, a0)` in the order of the mesh loops. */
  predicate LexBefore(p: nat, t: nat, a: nat, pod: nat, t0: nat, a0: nat)
  {
    p < pod || (p == pod && (t < t0 || (t == t0 && a < a0)))
  }

  ghost predicate Joined(net: Network, p: nat, t: nat, a: nat)
  {
    TorName(p, t) in net.adj && AggrName(p, a) in net.adj[TorName(p, t)]
  }

  /** Progress of phase 2: every ToR-Aggr pair before `(pod, t, a)` is joined. */
  ghost predicate MeshedUpTo(net: Network, cfg: TopoConfig, pod: nat, t: nat, a: nat)
  {
    && net.Valid() && NodesPlaced(net, cfg) && NoOcs(net)
    && LinksFresh(net, cfg) && EdgesTyped(net) && NeighboursInPod(net, cfg)
    && JoinedUpTo(net, cfg, pod, t, a)
  }

  ghost predicate JoinedUpTo(net: Network, cfg: TopoConfig, pod: nat, t: nat, a: nat)
  {
    forall p, t', a' | 0 <= p < cfg.numPods && 0 <= t' < cfg.torsPerPod && 0 <= a' < cfg.aggrsPerPod && LexBefore(p, t', a', pod, t, a) ::
      Joined(net, p, t', a')
  }

  lemma SameKinds(net: Network, net': Network, cfg: TopoConfig)
    requires net.kinds == net'.kinds && NodesPlaced(net, cfg) && NoOcs(net)
    ensures NodesPlaced(net', cfg) && NoOcs(net')
  {
    assert forall p, t :: TorPlaced(net, p, t) == TorPlaced(net', p, t);
    assert forall p, a :: AggrPlaced(net, p, a) == AggrPlaced(net', p, a);
  }

  lemma WithEdgeGrows(net: Network, u: NodeId, v: NodeId, e: Edge)
    requires u in net.adj && v in net.adj
    ensures forall x | x in net.adj :: net.adj[x] <= WithEdge(net, u, v, e).adj[x]
  {
  }

  lemma MeshEdgeTyped(net: Network, cfg: TopoConfig, pod: nat, t: nat, a: nat)
    requires net.Valid() && TorPlaced(net, pod, t) && AggrPlaced(net, pod, a) && EdgesTyped(net)
    ensures EdgesTyped(WithEdge(net, TorName(pod, t), AggrName(pod, a), Edge(cfg.linkCapacity, 0.0)))
  {
    var u, v := TorName(pod, t), AggrName(pod, a);
    var net' := WithEdge(net, u, v, Edge(cfg.linkCapacity, 0.0));
    TorNotAggr(pod, t, pod, a);
    forall x, y | x in net'.adj && y in net'.adj[x]
      ensures x in net'.kinds && y in net'.kinds && EdgeTyped(net'.kinds[x], net'.kinds[y])
    {
      if !((x == u && y == v) || (x == v && y == u)) {
        assert y in net.adj[x];
      }
    }
  }

  lemma MeshNeighbours(net: Network, cfg: TopoConfig, pod: nat, t: nat, a: nat)
    requires TorPlaced(net, pod, t) && AggrPlaced(net, pod, a) && NeighboursInPod(net, cfg)
    requires TorName(pod, t) in net.adj && AggrName(pod, a) in net.adj
    requires t < cfg.torsPerPod && a < cfg.aggrsPerPod
    ensures NeighboursInPod(WithEdge(net, TorName(pod, t), AggrName(pod, a), Edge(cfg.linkCapacity, 0.0)), cfg)
  {
    var u, v := TorName(pod, t), AggrName(pod, a);
    var net' := WithEdge(net, u, v, Edge(cfg.linkCapacity, 0.0));
    forall n | n in net'.kinds && n in net'.adj && net'.kinds[n].Tor?
      ensures net'.adj[n] <= AggrsOf(net'.kinds[n].pod, cfg.aggrsPerPod)
    {
      if n == u {
        assert v in AggrsOf(pod, cfg.aggrsPerPod);
      }
    }
    forall n, m | n in net'.kinds && n in net'.adj && net'.kinds[n].Aggr? && m in net'.adj[n] && m in net'.kinds && net'.kinds[m].Tor?
      ensures m in TorsOf(net'.kinds[n].pod, cfg.torsPerPod)
    {
      if n == v && m == u {
        assert u in TorsOf(pod, cfg.torsPerPod);
      }
    }
  }

  lemma MeshValid(net: Network, cfg: TopoConfig, pod: nat, t: nat, a: nat)
    requires net.Valid() && NodesPlaced(net, cfg) && LinksFresh(net, cfg) && cfg.linkCapacity > 0.0
    requires pod < cfg.numPods && t < cfg.torsPerPod && a < cfg.aggrsPerPod
    ensures TorName(pod, t) in net.adj && AggrName(pod, a) in net.adj
    ensures var net' := WithEdge(net, TorName(pod, t), AggrName(pod, a), Edge(cfg.linkCapacity, 0.0));
      net'.Valid() && LinksFresh(net', cfg)
  {
    assert TorPlaced(net, pod, t) && AggrPlaced(net, pod, a);
    TorNotAggr(pod, t, pod, a);
    ValidAfterEdge(net, TorName(pod, t), AggrName(pod, a), Edge(cfg.linkCapacity, 0.0));
  }

  lemma MeshStep(net: Network, cfg: TopoConfig, pod: nat, t: nat, a: nat)
    requires MeshedUpTo(net, cfg, pod, t, a) && cfg.linkCapacity > 0.0
    requires pod < cfg.numPods && t < cfg.torsPerPod && a < cfg.aggrsPerPod
    ensures TorName(pod, t) in net.adj && AggrName(pod, a) in net.adj
    ensures MeshedUpTo(WithEdge(net, TorName(pod, t), AggrName(pod, a), Edge(cfg.linkCapacity, 0.0)), cfg, pod, t, a + 1)
  {
    MeshValid(net, cfg, pod, t, a);
    assert TorPlaced(net, pod, t) && AggrPlaced(net, pod, a);
    MeshEdgeTyped(net, cfg, pod, t, a);
    MeshNeighbours(net, cfg, pod, t, a);
    var net' := WithEdge(net, TorName(pod, t), AggrName(pod, a), Edge(cfg.linkCapacity, 0.0));
    SameKinds(net, net', cfg);
    MeshJoined(net, cfg, pod, t, a);
  }

  lemma MeshJoined(net: Network, cfg: TopoConfig, pod: nat, t: nat, a: nat)
    requires JoinedUpTo(net, cfg, pod, t, a) && TorName(pod, t) in net.adj && AggrName(pod, a) in net.adj
    ensures JoinedUpTo(WithEdge(net, TorName(pod, t), AggrName(pod, a), Edge(cfg.linkCapacity, 0.0)), cfg, pod, t, a + 1)
  {
    var net' := WithEdge(net, TorName(pod, t), AggrName(pod, a), Edge(cfg.linkCapacity, 0.0));
    WithEdgeGrows(net, TorName(pod, t), AggrName(pod, a), Edge(cfg.linkCapacity, 0.0));
    forall p, t', a' | 0 <= p < cfg.numPods && 0 <= t' < cfg.torsPerPod && 0 <= a' < cfg.aggrsPerPod && LexBefore(p, t', a', pod, t, a + 1)
      ensures Joined(net', p, t', a')
    {
      if LexBefore(p, t', a', pod, t, a) {
        assert Joined(net, p, t', a');
      }
    }
  }

  lemma MeshNextTor(net: Network, cfg: TopoConfig, pod: nat, t: nat)
    requires MeshedUpTo(net, cfg, pod, t, cfg.aggrsPerPod)
    ensures MeshedUpTo(net, cfg, pod, t + 1, 0)
  {
    forall p, t', a' | 0 <= p < cfg.numPods && 0 <= t' < cfg.torsPerPod && 0 <= a' < cfg.aggrsPerPod && LexBefore(p, t', a', pod, t + 1, 0)
      ensures Joined(net, p, t', a')
    {
      assert LexBefore(p, t', a', pod, t, cfg.aggrsPerPod);
    }
  }

  lemma MeshNextPod(net: Network, cfg: TopoConfig, pod: nat)
    requires MeshedUpTo(net, cfg, pod, cfg.torsPerPod, 0)
    ensures MeshedUpTo(net, cfg, pod + 1, 0, 0)
  {
    forall p, t', a' | 0 <= p < cfg.numPods && 0 <= t' < cfg.torsPerPod && 0 <= a' < cfg.aggrsPerPod && LexBefore(p, t', a', pod + 1, 0, 0)
      ensures Joined(net, p, t', a')
    {
      assert LexBefore(p, t', a', pod, cfg.torsPerPod, 0);
    }
  }

  /** The ToR-Aggr mesh: each ToR's neighbours are exactly its pod's Aggrs, and the reverse. */
  ghost predicate PodsMeshed(net: Network, cfg: TopoConfig)
  {
    && (forall p, t | 0 <= p < cfg.numPods && 0 <= t < cfg.torsPerPod ::
          TorName(p, t) in net.adj && net.adj[TorName(p, t)] == AggrsOf(p, cfg.aggrsPerPod))
    && (forall p, a | 0 <= p < cfg.numPods && 0 <= a < cfg.aggrsPerPod ::
          AggrName(p, a) in net.adj && TorsOf(p, cfg.torsPerPod) <= net.adj[AggrName(p, a)])
  }

  lemma MeshDone(net: Network, cfg: TopoConfig)
    requires MeshedUpTo(net, cfg, cfg.numPods, 0, 0)
    ensures PodsMeshed(net, cfg) && PortsBounded(net, cfg)
    ensures forall p, a | 0 <= p < cfg.numPods && 0 <= a < cfg.aggrsPerPod :: net.adj[AggrName(p, a)] == TorsOf(p, cfg.torsPerPod)
  {
    MeshDoneTors(net, cfg);
    MeshDoneAggrs(net, cfg);
    forall n | n in net.kinds && n in net.adj && net.kinds[n].Aggr?
      ensures |net.adj[n]| <= PortCeiling(cfg)
    {
      var p := net.kinds[n].pod;
      var a :| 0 <= a < cfg.aggrsPerPod && n == AggrName(p, a);
      TorsOfCard(p, cfg.torsPerPod);
    }
  }

  lemma MeshDoneTors(net: Network, cfg: TopoConfig)
    requires MeshedUpTo(net, cfg, cfg.numPods, 0, 0)
    ensures forall p, t | 0 <= p < cfg.numPods && 0 <= t < cfg.torsPerPod ::
              TorName(p, t) in net.adj && net.adj[TorName(p, t)] == AggrsOf(p, cfg.aggrsPerPod)
  {
    forall p, t | 0 <= p < cfg.numPods && 0 <= t < cfg.torsPerPod
      ensures TorName(p, t) in net.adj && net.adj[TorName(p, t)] == AggrsOf(p, cfg.aggrsPerPod)
    {
      assert TorPlaced(net, p, t);
      forall x | x in AggrsOf(p, cfg.aggrsPerPod) ensures x in net.adj[TorName(p, t)] {
        var a :| 0 <= a < cfg.aggrsPerPod && x == AggrName(p, a);
        assert Joined(net, p, t, a);
      }
    }
  }

  lemma MeshDoneAggrs(net: Network, cfg: TopoConfig)
    requires MeshedUpTo(net, cfg, cfg.numPods, 0, 0)
    ensures forall p, a | 0 <= p < cfg.numPods && 0 <= a < cfg.aggrsPerPod ::
              AggrName(p, a) in net.adj && net.adj[AggrName(p, a)] == TorsOf(p, cfg.torsPerPod)
  {
    forall p, a | 0 <= p < cfg.numPods && 0 <= a < cfg.aggrsPerPod
      ensures AggrName(p, a) in net.adj && net.adj[AggrName(p, a)] == TorsOf(p, cfg.torsPerPod)
    {
      var v := AggrName(p, a);
      assert AggrPlaced(net, p, a);
      forall x | x in TorsOf(p, cfg.torsPerPod) ensures x in net.adj[v] {
        var t :| 0 <= t < cfg.torsPerPod && x == TorName(p, t);
        assert Joined(net, p, t, a);
      }
      forall x | x in net.adj[v] ensures x in TorsOf(p, cfg.torsPerPod) {
        assert EdgeTyped(net.kinds[v], net.kinds[x]);
      }
    }
  }

  lemma MeshStart(net: Network, cfg: TopoConfig)
    requires Bare(net) && NodesPlaced(net, cfg) && NoOcs(net)
    ensures MeshedUpTo(net, cfg, 0, 0, 0)
  {
  }

  /**
   * The shape phases 1 and 2 establish and the OCS phase keeps: all ToRs
   * and Aggrs exist, the pod meshes are complete, links are fresh, edges
   * are well typed and no Aggr exceeds the port ceiling.
   */
  ghost predicate Shaped(net: Network, cfg: TopoConfig)
  {
    && net.Valid() && NodesPlaced(net, cfg) && LinksFresh(net, cfg)
    && EdgesTyped(net) && NeighboursInPod(net, cfg) && PortsBounded(net, cfg) && PodsMeshed(net, cfg)
  }

  /** Phase 2 of every builder: each ToR of a pod joined to each Aggr of that pod. */
  method AddPodMeshes(g: Graph, cfg: TopoConfig)
    requires g.Valid() && NodesPlaced(g.View(), cfg) && NoOcs(g.View()) && cfg.linkCapacity > 0.0
    requires g.links == map[] && forall n | n in g.adj :: g.adj[n] == {}
    modifies g
    ensures g.kinds == old(g.kinds) && Shaped(g.View(), cfg)
    ensures forall p, a | 0 <= p < cfg.numPods && 0 <= a < cfg.aggrsPerPod :: g.adj[AggrName(p, a)] == TorsOf(p, cfg.torsPerPod)
  {
    MeshStart(g.View(), cfg);
    var pod := 0;
    while pod < cfg.numPods
      invariant pod <= cfg.numPods && g.kinds == old(g.kinds)
      invariant MeshedUpTo(g.View(), cfg, pod, 0, 0)
    {
      var t := 0;
      while t < cfg.torsPerPod
        invariant t <= cfg.torsPerPod && g.kinds == old(g.kinds)
        invariant MeshedUpTo(g.View(), cfg, pod, t, 0)
      {
        var tor := TorName(pod, t);
        var a := 0;
        while a < cfg.aggrsPerPod
          invariant a <= cfg.aggrsPerPod && g.kinds == old(g.kinds)
          invariant MeshedUpTo(g.View(), cfg, pod, t, a)
        {
          var aggr := AggrName(pod, a);
          MeshStep(g.View(), cfg, pod, t, a);
          TorNotAggr(pod, t, pod, a);
          g.AddEdge(tor, aggr, cfg.linkCapacity, 0.0);
          a := a + 1;
        }
        MeshNextTor(g.View(), cfg, pod, t);
        t := t + 1;
      }
      MeshNextPod(g.View(), cfg, pod);
      pod := pod + 1;
    }
    MeshDone(g.View(), cfg);
  }

  /**
   * One OCS node created by the wiring phase: the budget slot (pod pair)
   * that created it, and the Aggr index it used on each side.
   */
  datatype Wire = Wire(slot: nat, p1: nat, i1: nat, p2: nat, i2: nat)

  /** The two Aggrs an OCS node joins. */
  function Ends(w: Wire): set<NodeId>
  {
    {AggrName(w.p1, w.i1), AggrName(w.p2, w.i2)}
  }

  /** A wire joins Aggrs of two distinct existing pods. */
  predicate WireFits(cfg: TopoConfig, w: Wire)
  {
    w.p1 != w.p2 && w.p1 < cfg.numPods && w.p2 < cfg.numPods && w.i1 < cfg.aggrsPerPod && w.i2 < cfg.aggrsPerPod
  }

  /**
   * `OCS_i` exists for each recorded wire `i`, is typed `ocs` and is joined
   * to exactly the two Aggrs of that wire; there are no other OCS nodes.
   */
  ghost predicate WiredBy(net: Network, cfg: TopoConfig, wires: seq<Wire>)
  {
    && (forall i | 0 <= i < |wires| ::
          && OcsName(i) in net.kinds && net.kinds[OcsName(i)] == Ocs
          && OcsName(i) in net.adj && net.adj[OcsName(i)] == Ends(wires[i])
          && WireFits(cfg, wires[i]))
    && (forall n | n in net.kinds && net.kinds[n].Ocs? :: n in OcsNames(|wires|))
  }

  /** The state every builder keeps while wiring OCS links. */
  ghost predicate Built(net: Network, cfg: TopoConfig, wires: seq<Wire>)
  {
    Shaped(net, cfg) && WiredBy(net, cfg, wires)
  }

  /** `net` after the three calls that add `ocs_node` and join it to `a1` and `a2`. */
  function WithOcs(net: Network, o: NodeId, a1: NodeId, a2: NodeId, e: Edge): Network
    requires a1 in net.adj && a2 in net.adj
  {
    WithEdge(WithEdge(WithNode(net, o, Ocs), a1, o, e), o, a2, e)
  }

  /** No ToR, Aggr or earlier OCS node is named `OCS_<n>` once `n` OCS nodes exist. */
  lemma OcsNameNew(net: Network, cfg: TopoConfig, n: nat)
    requires KindsNamed(net, cfg)
    requires forall m | m in net.kinds && net.kinds[m].Ocs? :: m in OcsNames(n)
    ensures OcsName(n) !in net.kinds
  {
    var o := OcsName(n);
    if o in net.kinds {
      var k := net.kinds[o];
      if k.Tor? {
        var t :| 0 <= t < cfg.torsPerPod && o == TorName(k.pod, t);
        NameInitials(k.pod, "Tor", t, n);
      } else if k.Aggr? {
        var a :| 0 <= a < cfg.aggrsPerPod && o == AggrName(k.pod, a);
        NameInitials(k.pod, "Aggr", a, n);
      } else {
        var i :| 0 <= i < n && o == OcsName(i);
        OcsNameInjective(i, n);
      }
    }
  }

  /** The name `OCS_<counter>` is new, and the two Aggrs of a fitting wire exist and differ. */
  lemma OcsFresh(net: Network, cfg: TopoConfig, wires: seq<Wire>, w: Wire)
    requires Built(net, cfg, wires) && WireFits(cfg, w)
    ensures OcsName(|wires|) !in net.kinds
    ensures AggrPlaced(net, w.p1, w.i1) && AggrPlaced(net, w.p2, w.i2)
    ensures AggrName(w.p1, w.i1) != AggrName(w.p2, w.i2)
  {
    OcsNameNew(net, cfg, |wires|);
    if AggrName(w.p1, w.i1) == AggrName(w.p2, w.i2) {
      AggrNameInjective(w.p1, w.i1, w.p2, w.i2);
    }
  }

  lemma WithOcsShape(net: Network, o: NodeId, a1: NodeId, a2: NodeId, e: Edge)
    requires o !in net.adj && a1 in net.adj && a2 in net.adj && a1 != a2
    ensures OcsAdded(net, WithOcs(net, o, a1, a2, e), o, a1, a2, e)
  {
    var n1 := WithNode(net, o, Ocs);
    var n2 := WithEdge(n1, a1, o, e);
    var r := WithEdge(n2, o, a2, e);
    assert n1.adj[o] == {};
    assert n2.adj[o] == {a1};
    assert r.adj[o] == {a1, a2};
    assert n2.adj[a1] == net.adj[a1] + {o};
    assert r.adj[a1] == net.adj[a1] + {o};
    assert r.adj[a2] == net.adj[a2] + {o};
    forall x | x in net.adj && x != a1 && x != a2
      ensures r.adj[x] == net.adj[x]
    {
      assert n2.adj[x] == n1.adj[x];
    }
    assert r.kinds == net.kinds[o := Ocs];
    assert r.links == net.links[LinkKey(a1, o) := e][LinkKey(o, a2) := e];
  }

  lemma ValidWithNode(net: Network, n: NodeId, kind: NodeKind)
    requires net.Valid() && n !in net.kinds
    ensures WithNode(net, n, kind).Valid()
  {
  }

  lemma OcsValid(net: Network, o: NodeId, a1: NodeId, a2: NodeId, e: Edge)
    requires net.Valid() && o !in net.kinds && a1 in net.kinds && a2 in net.kinds && a1 != a2
    requires e.capacity > 0.0 && e.usage >= 0.0
    ensures a1 in net.adj && a2 in net.adj && WithOcs(net, o, a1, a2, e).Valid()
  {
    var n1 := WithNode(net, o, Ocs);
    ValidWithNode(net, o, Ocs);
    ValidAfterEdge(n1, a1, o, e);
    var n2 := WithEdge(n1, a1, o, e);
    ValidAfterEdge(n2, o, a2, e);
  }

  /** `net'` is `net` with OCS node `o` added between `a1` and `a2`, as `WithOcs` builds it. */
  ghost predicate OcsAdded(net: Network, net': Network, o: NodeId, a1: NodeId, a2: NodeId, e: Edge)
  {
    && o !in net.adj && a1 in net.adj && a2 in net.adj && a1 != a2
    && net'.kinds == net.kinds[o := Ocs]
    && net'.adj.Keys == net.adj.Keys + {o}
    && net'.adj[o] == {a1, a2}
    && net'.adj[a1] == net.adj[a1] + {o} && net'.adj[a2] == net.adj[a2] + {o}
    && (forall x | x in net.adj && x != a1 && x != a2 :: net'.adj[x] == net.adj[x])
    && net'.links == net.links[LinkKey(a1, o) := e][LinkKey(o, a2) := e]
  }

  lemma OcsKeepsPlaced(net: Network, net': Network, cfg: TopoConfig, o: NodeId, a1: NodeId, a2: NodeId, e: Edge)
    requires NodesPlaced(net, cfg) && OcsAdded(net, net', o, a1, a2, e) && o !in net.kinds
    ensures NodesPlaced(net', cfg)
  {
    assert forall p, t | TorPlaced(net, p, t) :: TorPlaced(net', p, t);
    assert forall p, a | AggrPlaced(net, p, a) :: AggrPlaced(net', p, a);
  }

  lemma OcsKeepsLinksFresh(net: Network, net': Network, cfg: TopoConfig, o: NodeId, a1: NodeId, a2: NodeId)
    requires LinksFresh(net, cfg) && OcsAdded(net, net', o, a1, a2, Edge(cfg.linkCapacity, 0.0))
    ensures LinksFresh(net', cfg)
  {
  }

  lemma OcsKeepsTyped(net: Network, net': Network, o: NodeId, a1: NodeId, a2: NodeId, e: Edge)
    requires net.Valid() && EdgesTyped(net) && OcsAdded(net, net', o, a1, a2, e) && o !in net.kinds
    requires a1 in net.kinds && net.kinds[a1].Aggr? && a2 in net.kinds && net.kinds[a2].Aggr?
    ensures EdgesTyped(net')
  {
  }

  lemma OcsKeepsNeighbours(net: Network, net': Network, cfg: TopoConfig, o: NodeId, a1: NodeId, a2: NodeId, e: Edge)
    requires net.Valid() && NeighboursInPod(net, cfg) && OcsAdded(net, net', o, a1, a2, e) && o !in net.kinds
    requires a1 in net.kinds && net.kinds[a1].Aggr? && a2 in net.kinds && net.kinds[a2].Aggr?
    ensures NeighboursInPod(net', cfg)
  {
  }

  lemma OcsKeepsPorts(net: Network, net': Network, cfg: TopoConfig, o: NodeId, a1: NodeId, a2: NodeId, e: Edge)
    requires net.Valid() && PortsBounded(net, cfg) && OcsAdded(net, net', o, a1, a2, e) && o !in net.kinds
    requires |net.adj[a1]| < PortCeiling(cfg) && |net.adj[a2]| < PortCeiling(cfg)
    ensures PortsBounded(net', cfg)
  {
  }

  lemma OcsKeepsMeshed(net: Network, net': Network, cfg: TopoConfig, o: NodeId, a1: NodeId, a2: NodeId, e: Edge)
    requires net.Valid() && NodesPlaced(net, cfg) && PodsMeshed(net, cfg) && OcsAdded(net, net', o, a1, a2, e) && o !in net.kinds
    requires a1 in net.kinds && net.kinds[a1].Aggr? && a2 in net.kinds && net.kinds[a2].Aggr?
    ensures PodsMeshed(net', cfg)
  {
    forall p, t | 0 <= p < cfg.numPods && 0 <= t < cfg.torsPerPod
      ensures TorName(p, t) in net'.adj && net'.adj[TorName(p, t)] == AggrsOf(p, cfg.aggrsPerPod)
    {
      assert TorPlaced(net, p, t);
    }
    forall p, a | 0 <= p < cfg.numPods && 0 <= a < cfg.aggrsPerPod
      ensures AggrName(p, a) in net'.adj && TorsOf(p, cfg.torsPerPod) <= net'.adj[AggrName(p, a)]
    {
      assert AggrPlaced(net, p, a);
    }
  }

  lemma OcsKeepsWired(net: Network, net': Network, cfg: TopoConfig, wires: seq<Wire>, w: Wire, e: Edge)
    requires WiredBy(net, cfg, wires) && WireFits(cfg, w)
    requires OcsAdded(net, net', OcsName(|wires|), AggrName(w.p1, w.i1), AggrName(w.p2, w.i2), e)
    requires OcsName(|wires|) !in net.kinds
    requires AggrPlaced(net, w.p1, w.i1) && AggrPlaced(net, w.p2, w.i2)
    ensures WiredBy(net', cfg, wires + [w])
  {
    var o, a1, a2 := OcsName(|wires|), AggrName(w.p1, w.i1), AggrName(w.p2, w.i2);
    var ws := wires + [w];
    forall i | 0 <= i < |ws|
      ensures && OcsName(i) in net'.kinds && net'.kinds[OcsName(i)] == Ocs
              && OcsName(i) in net'.adj && net'.adj[OcsName(i)] == Ends(ws[i])
              && WireFits(cfg, ws[i])
    {
      if i < |wires| {
        assert ws[i] == wires[i];
        assert net.kinds[OcsName(i)] == Ocs;
        assert OcsName(i) != a1 && OcsName(i) != a2;
        assert net'.adj[OcsName(i)] == net.adj[OcsName(i)] == Ends(wires[i]);
      } else {
        assert ws[i] == w && OcsName(i) == o;
        assert net'.adj[o] == {a1, a2} == Ends(w);
      }
    }
    forall n | n in net'.kinds && net'.kinds[n].Ocs?
      ensures n in OcsNames(|ws|)
    {
      if n != o {
        assert n in OcsNames(|wires|);
        var i :| 0 <= i < |wires| && n == OcsName(i);
      }
    }
  }

  lemma OcsStep(net: Network, cfg: TopoConfig, wires: seq<Wire>, w: Wire)
    requires Built(net, cfg, wires) && WireFits(cfg, w) && cfg.linkCapacity > 0.0
    requires AggrName(w.p1, w.i1) in net.adj && AggrName(w.p2, w.i2) in net.adj
    requires |net.adj[AggrName(w.p1, w.i1)]| < PortCeiling(cfg) && |net.adj[AggrName(w.p2, w.i2)]| < PortCeiling(cfg)
    ensures Built(WithOcs(net, OcsName(|wires|), AggrName(w.p1, w.i1), AggrName(w.p2, w.i2), Edge(cfg.linkCapacity, 0.0)), cfg, wires + [w])
  {
    var o, a1, a2, e := OcsName(|wires|), AggrName(w.p1, w.i1), AggrName(w.p2, w.i2), Edge(cfg.linkCapacity, 0.0);
    OcsFresh(net, cfg, wires, w);
    WithOcsShape(net, o, a1, a2, e);
    OcsValid(net, o, a1, a2, e);
    var net' := WithOcs(net, o, a1, a2, e);
    OcsKeepsPlaced(net, net', cfg, o, a1, a2, e);
    OcsKeepsLinksFresh(net, net', cfg, o, a1, a2);
    OcsKeepsTyped(net, net', o, a1, a2, e);
    OcsKeepsNeighbours(net, net', cfg, o, a1, a2, e);
    OcsKeepsPorts(net, net', cfg, o, a1, a2, e);
    OcsKeepsMeshed(net, net', cfg, o, a1, a2, e);
    OcsKeepsWired(net, net', cfg, wires, w, e);
  }

  /**
   * `ocs_node = f"OCS_{ocs_counter}"`, `G.add_node(ocs_node, type="ocs")`
   * and the two edges `a1 - ocs_node - a2`, each fresh.
   */
  method AddOcsLink(g: Graph, cfg: TopoConfig, w: Wire, counter: nat, ghost wires: seq<Wire>)
    requires Built(g.View(), cfg, wires) && counter == |wires| && WireFits(cfg, w) && cfg.linkCapacity > 0.0
    requires AggrName(w.p1, w.i1) in g.adj && AggrName(w.p2, w.i2) in g.adj
    requires |g.adj[AggrName(w.p1, w.i1)]| < PortCeiling(cfg) && |g.adj[AggrName(w.p2, w.i2)]| < PortCeiling(cfg)
    modifies g
    ensures Built(g.View(), cfg, wires + [w])
    ensures g.View() == WithOcs(old(g.View()), OcsName(counter), AggrName(w.p1, w.i1), AggrName(w.p2, w.i2), Edge(cfg.linkCapacity, 0.0))
  {
    OcsFresh(g.View(), cfg, wires, w);
    OcsStep(g.View(), cfg, wires, w);
    var a1, a2 := AggrName(w.p1, w.i1), AggrName(w.p2, w.i2);
    var ocs := OcsName(counter);
    g.AddNode(ocs, Ocs);
    g.AddEdge(a1, ocs, cfg.linkCapacity, 0.0);
    g.AddEdge(ocs, a2, cfg.linkCapacity, 0.0);
  }

  /** Every node already in `net` keeps all its neighbours in `net'`. */
  ghost predicate AdjGrows(net: Network, net': Network)
  {
    forall n | n in net.adj :: n in net'.adj && net.adj[n] <= net'.adj[n]
  }

  lemma AdjGrowsTrans(n1: Network, n2: Network, n3: Network)
    requires AdjGrows(n1, n2) && AdjGrows(n2, n3)
    ensures AdjGrows(n1, n3)
  {
  }

  lemma OcsGrows(net: Network, o: NodeId, a1: NodeId, a2: NodeId, e: Edge)
    requires o !in net.adj && a1 in net.adj && a2 in net.adj && a1 != a2
    ensures AdjGrows(net, WithOcs(net, o, a1, a2, e))
  {
    WithOcsShape(net, o, a1, a2, e);
  }

  /** `G.degree(a) >= TORS_PER_POD + OCS_PORT_LIMIT`: the Aggr takes no further OCS link. */
  ghost predicate Full(net: Network, cfg: TopoConfig, a: NodeId)
  {
    a in net.adj && |net.adj[a]| >= PortCeiling(cfg)
  }

  lemma FullStays(net: Network, net': Network, cfg: TopoConfig, a: NodeId)
    requires Full(net, cfg, a) && AdjGrows(net, net')
    ensures Full(net', cfg, a)
  {
    SubsetCard(net.adj[a], net'.adj[a]);
  }

  /** The Aggr pair an OCS node joins, as the `(a1, a2)` tuple the wiring loops use. */
  function PairOf(w: Wire): (NodeId, NodeId)
  {
    (AggrName(w.p1, w.i1), AggrName(w.p2, w.i2))
  }

  /** The Aggr pairs joined by the OCS nodes of budget slot `slot`. */
  function SlotPairs(wires: seq<Wire>, slot: nat): set<(NodeId, NodeId)>
  {
    set k | 0 <= k < |wires| && wires[k].slot == slot :: PairOf(wires[k])
  }

  /** How many OCS nodes budget slot `slot` created. */
  function CountSlot(wires: seq<Wire>, slot: nat): nat
  {
    if |wires| == 0 then 0
    else CountSlot(wires[..|wires| - 1], slot) + (if wires[|wires| - 1].slot == slot then 1 else 0)
  }

  lemma {:induction false} CountSlotAbsent(wires: seq<Wire>, slot: nat)
    requires forall k | 0 <= k < |wires| :: wires[k].slot < slot
    ensures CountSlot(wires, slot) == 0
  {
    if |wires| > 0 {
      CountSlotAbsent(wires[..|wires| - 1], slot);
    }
  }

  /** All `(cands1[i], cands2[j])` combinations of a pod pair. */
  function NamePairs(p1: nat, p2: nat, n: nat, m: nat): set<(NodeId, NodeId)>
  {
    set i, j | 0 <= i < n && 0 <= j < m :: (AggrName(p1, i), AggrName(p2, j))
  }

  function NameRow(p1: nat, i: nat, p2: nat, m: nat): set<(NodeId, NodeId)>
  {
    set j | 0 <= j < m :: (AggrName(p1, i), AggrName(p2, j))
  }

  lemma {:induction false} NameRowCard(p1: nat, i: nat, p2: nat, m: nat)
    ensures |NameRow(p1, i, p2, m)| <= m
  {
    if m > 0 {
      NameRowCard(p1, i, p2, m - 1);
      assert NameRow(p1, i, p2, m) == NameRow(p1, i, p2, m - 1) + {(AggrName(p1, i), AggrName(p2, m - 1))};
    }
  }

  /** There are at most `n * m` candidate combinations (`len(cands1) * len(cands2)`). */
  lemma {:induction false} NamePairsCard(p1: nat, p2: nat, n: nat, m: nat)
    ensures |NamePairs(p1, p2, n, m)| <= n * m
  {
    if n > 0 {
      NamePairsCard(p1, p2, n - 1, m);
      NameRowCard(p1, n - 1, p2, m);
      assert NamePairs(p1, p2, n, m) == NamePairs(p1, p2, n - 1, m) + NameRow(p1, n - 1, p2, m);
      assert n * m == (n - 1) * m + m;
    }
  }

  /** Once `len(tried)` reaches `len(cands1) * len(cands2)`, every combination has been tried. */
  lemma TriedAll(p1: nat, p2: nat, n: nat, tried: set<(NodeId, NodeId)>)
    requires tried <= NamePairs(p1, p2, n, n) && |tried| >= n * n
    ensures NamePairs(p1, p2, n, n) <= tried
  {
    var all := NamePairs(p1, p2, n, n);
    NamePairsCard(p1, p2, n, n);
    if x :| x in all && x !in tried {
      SubsetCard(tried, all - {x});
    }
  }

  /** No node is named after an Aggr of a pod beyond the configured ones. */
  lemma AggrBeyondAbsent(net: Network, cfg: TopoConfig, n: nat, p: nat, i: nat)
    requires KindsNamed(net, cfg)
    requires forall m | m in net.kinds && net.kinds[m].Ocs? :: m in OcsNames(n)
    requires cfg.numPods <= p
    ensures AggrName(p, i) !in net.kinds
  {
    var a := AggrName(p, i);
    if a in net.kinds {
      var k := net.kinds[a];
      if k.Tor? {
        var t :| 0 <= t < cfg.torsPerPod && a == TorName(k.pod, t);
        TorNotAggr(k.pod, t, p, i);
      } else if k.Aggr? {
        var b :| 0 <= b < cfg.aggrsPerPod && a == AggrName(k.pod, b);
        AggrNameInjective(k.pod, b, p, i);
      } else {
        var j :| 0 <= j < n && a == OcsName(j);
        NameInitials(p, "Aggr", i, j);
      }
    }
  }

  /** An Aggr name is in the graph exactly when its pod is one of the configured pods. */
  lemma AggrPresent(net: Network, cfg: TopoConfig, wires: seq<Wire>, p: nat, i: nat)
    requires Built(net, cfg, wires) && i < cfg.aggrsPerPod
    ensures AggrName(p, i) in net.adj <==> p < cfg.numPods
  {
    if p < cfg.numPods {
      assert AggrPlaced(net, p, i);
    } else {
      AggrBeyondAbsent(net, cfg, |wires|, p, i);
    }
  }

  /** One `(p1, p2): k` entry of an OCS budget: at most `k` OCS nodes between pods `p1` and `p2`. */
  datatype PairBudget = PairBudget(p1: nat, p2: nat, links: nat)

  lemma SlotPairsAppend(ws: seq<Wire>, w: Wire, slot: nat)
    ensures SlotPairs(ws + [w], slot) == SlotPairs(ws, slot) + (if w.slot == slot then {PairOf(w)} else {})
    ensures CountSlot(ws + [w], slot) == CountSlot(ws, slot) + (if w.slot == slot then 1 else 0)
  {
    var ws' := ws + [w];
    assert ws'[..|ws|] == ws;
    forall x | x in SlotPairs(ws', slot) ensures x in SlotPairs(ws, slot) + (if w.slot == slot then {PairOf(w)} else {}) {
      var k :| 0 <= k < |ws'| && ws'[k].slot == slot && x == PairOf(ws'[k]);
      if k < |ws| {
        assert ws'[k] == ws[k];
      }
    }
    forall x | x in SlotPairs(ws, slot) ensures x in SlotPairs(ws', slot) {
      var k :| 0 <= k < |ws| && ws[k].slot == slot && x == PairOf(ws[k]);
      assert ws'[k] == ws[k];
    }
    if w.slot == slot {
      assert ws'[|ws|] == w;
    }
  }

  /** Every tried pair was wired by this slot or has a full Aggr; adding OCS links keeps it so. */
  ghost predicate TriedSettled(net: Network, cfg: TopoConfig, tried: set<(NodeId, NodeId)>, ws: seq<Wire>, slot: nat)
  {
    forall x | x in tried :: x in SlotPairs(ws, slot) || Full(net, cfg, x.0) || Full(net, cfg, x.1)
  }

  lemma TriedSettledGrows(net: Network, net': Network, cfg: TopoConfig, tried: set<(NodeId, NodeId)>, ws: seq<Wire>, w: Wire, slot: nat)
    requires TriedSettled(net, cfg, tried, ws, slot) && AdjGrows(net, net') && w.slot == slot
    ensures TriedSettled(net', cfg, tried + {PairOf(w)}, ws + [w], slot)
  {
    SlotPairsAppend(ws, w, slot);
    forall x | x in tried + {PairOf(w)}
      ensures x in SlotPairs(ws + [w], slot) || Full(net', cfg, x.0) || Full(net', cfg, x.1)
    {
      if x in tried && x !in SlotPairs(ws, slot) {
        if Full(net, cfg, x.0) {
          FullStays(net, net', cfg, x.0);
        } else {
          FullStays(net, net', cfg, x.1);
        }
      }
    }
  }

  /** No two OCS nodes of budget slot `slot` join the same Aggr pair. */
  ghost predicate SlotDistinct(ws: seq<Wire>, slot: nat)
  {
    forall k, k' | 0 <= k < k' < |ws| && ws[k].slot == slot && ws[k'].slot == slot :: PairOf(ws[k]) != PairOf(ws[k'])
  }

  /**
   * The invariant of one pod pair's wiring loop: `ws` extends `wires` with
   * `connected` OCS nodes of this slot, all between this pair's pods, each
   * joining a tried and distinct Aggr pair, and every tried pair either
   * wired or blocked by a full Aggr.
   */
  ghost predicate PairProgress(net: Network, cfg: TopoConfig, pb: PairBudget, slot: nat, wires: seq<Wire>, ws: seq<Wire>,
                               tried: set<(NodeId, NodeId)>, connected: nat)
  {
    && Built(net, cfg, ws)
    && SlotBook(cfg, pb, slot, wires, ws, tried, connected)
    && TriedSettled(net, cfg, tried, ws, slot)
  }

  /** The sequence side of `PairProgress`: which wires this slot appended, and how many. */
  ghost predicate SlotBook(cfg: TopoConfig, pb: PairBudget, slot: nat, wires: seq<Wire>, ws: seq<Wire>,
                           tried: set<(NodeId, NodeId)>, connected: nat)
  {
    && |wires| <= |ws| && ws[..|wires|] == wires
    && (forall k | |wires| <= k < |ws| :: ws[k].slot == slot && ws[k].p1 == pb.p1 && ws[k].p2 == pb.p2)
    && (forall k | 0 <= k < |wires| :: ws[k].slot < slot)
    && |ws| == |wires| + connected && connected <= pb.links
    && tried <= NamePairs(pb.p1, pb.p2, cfg.aggrsPerPod, cfg.aggrsPerPod) && SlotPairs(ws, slot) <= tried
    && SlotDistinct(ws, slot)
  }

  lemma PairProgressStart(net: Network, cfg: TopoConfig, pb: PairBudget, slot: nat, wires: seq<Wire>)
    requires Built(net, cfg, wires) && forall k | 0 <= k < |wires| :: wires[k].slot < slot
    ensures PairProgress(net, cfg, pb, slot, wires, wires, {}, 0)
  {
  }

  /** A block of wires of slot `slot` appended after wires of earlier slots is all that slot counts. */
  lemma {:induction false} CountSlotBlock(wires: seq<Wire>, ws: seq<Wire>, slot: nat)
    requires |wires| <= |ws| && ws[..|wires|] == wires
    requires forall k | 0 <= k < |wires| :: ws[k].slot < slot
    requires forall k | |wires| <= k < |ws| :: ws[k].slot == slot
    ensures CountSlot(ws, slot) == |ws| - |wires|
  {
    if |ws| == |wires| {
      assert ws == wires;
      CountSlotAbsent(wires, slot);
    } else {
      var front := ws[..|ws| - 1];
      assert front[..|wires|] == wires;
      CountSlotBlock(wires, front, slot);
    }
  }

  lemma SlotDistinctAppend(ws: seq<Wire>, w: Wire, slot: nat)
    requires SlotDistinct(ws, slot) && PairOf(w) !in SlotPairs(ws, slot)
    ensures SlotDistinct(ws + [w], slot)
  {
    var ws' := ws + [w];
    forall k, k' | 0 <= k < k' < |ws'| && ws'[k].slot == slot && ws'[k'].slot == slot
      ensures PairOf(ws'[k]) != PairOf(ws'[k'])
    {
      assert ws'[k] == ws[k];
      if k' == |ws| {
        assert PairOf(ws[k]) in SlotPairs(ws, slot);
      } else {
        assert ws'[k'] == ws[k'];
      }
    }
  }

  lemma SlotBookStep(cfg: TopoConfig, pb: PairBudget, slot: nat, wires: seq<Wire>, ws: seq<Wire>,
                     tried: set<(NodeId, NodeId)>, connected: nat, w: Wire)
    requires SlotBook(cfg, pb, slot, wires, ws, tried, connected) && connected < pb.links
    requires w.slot == slot && w.p1 == pb.p1 && w.p2 == pb.p2 && w.i1 < cfg.aggrsPerPod && w.i2 < cfg.aggrsPerPod
    requires PairOf(w) !in tried
    ensures SlotBook(cfg, pb, slot, wires, ws + [w], tried + {PairOf(w)}, connected + 1)
  {
    var ws' := ws + [w];
    SlotPairsAppend(ws, w, slot);
    SlotDistinctAppend(ws, w, slot);
    assert ws'[..|wires|] == wires by {
      assert ws'[..|ws|] == ws;
    }
    assert PairOf(w) in NamePairs(pb.p1, pb.p2, cfg.aggrsPerPod, cfg.aggrsPerPod);
  }

  lemma PairProgressStep(net: Network, net': Network, cfg: TopoConfig, pb: PairBudget, slot: nat, wires: seq<Wire>, ws: seq<Wire>,
                         tried: set<(NodeId, NodeId)>, connected: nat, w: Wire)
    requires PairProgress(net, cfg, pb, slot, wires, ws, tried, connected) && connected < pb.links
    requires w.slot == slot && w.p1 == pb.p1 && w.p2 == pb.p2 && w.i1 < cfg.aggrsPerPod && w.i2 < cfg.aggrsPerPod
    requires PairOf(w) !in tried && Built(net', cfg, ws + [w]) && AdjGrows(net, net')
    ensures PairProgress(net', cfg, pb, slot, wires, ws + [w], tried + {PairOf(w)}, connected + 1)
  {
    SlotBookStep(cfg, pb, slot, wires, ws, tried, connected, w);
    TriedSettledGrows(net, net', cfg, tried, ws, w, slot);
  }

  lemma PairProgressReject(net: Network, cfg: TopoConfig, pb: PairBudget, slot: nat, wires: seq<Wire>, ws: seq<Wire>,
                           tried: set<(NodeId, NodeId)>, connected: nat, i1: nat, i2: nat)
    requires PairProgress(net, cfg, pb, slot, wires, ws, tried, connected)
    requires i1 < cfg.aggrsPerPod && i2 < cfg.aggrsPerPod
    requires Full(net, cfg, AggrName(pb.p1, i1)) || Full(net, cfg, AggrName(pb.p2, i2))
    ensures PairProgress(net, cfg, pb, slot, wires, ws, tried + {(AggrName(pb.p1, i1), AggrName(pb.p2, i2))}, connected)
  {
    assert (AggrName(pb.p1, i1), AggrName(pb.p2, i2)) in NamePairs(pb.p1, pb.p2, cfg.aggrsPerPod, cfg.aggrsPerPod);
  }

  lemma PairDone(net: Network, cfg: TopoConfig, pb: PairBudget, slot: nat, wires: seq<Wire>, ws: seq<Wire>,
                 tried: set<(NodeId, NodeId)>, connected: nat)
    requires PairProgress(net, cfg, pb, slot, wires, ws, tried, connected)
    ensures Built(net, cfg, ws) && |wires| <= |ws| && ws[..|wires|] == wires
    ensures forall k | |wires| <= k < |ws| :: ws[k].slot == slot && ws[k].p1 == pb.p1 && ws[k].p2 == pb.p2
    ensures CountSlot(ws, slot) == connected <= pb.links && SlotDistinct(ws, slot)
    ensures tried <= NamePairs(pb.p1, pb.p2, cfg.aggrsPerPod, cfg.aggrsPerPod)
    ensures forall x | x in tried :: x in SlotPairs(ws, slot) || Full(net, cfg, x.0) || Full(net, cfg, x.1)
    ensures SlotPairs(ws, slot) <= tried
  {
    CountSlotBlock(wires, ws, slot);
  }

  /**
   * The degree test of the random builders raises: `G.degree` of a node
   * the graph lacks is not a number, so comparing it fails, unless the
   * `and` has already stopped at a full first Aggr.
   */
  predicate DegreeRaises(net: Network, cfg: TopoConfig, a1: NodeId, a2: NodeId)
  {
    a1 !in net.adj || (|net.adj[a1]| < PortCeiling(cfg) && a2 !in net.adj)
  }

  /** The degree test of the random builders: both Aggrs are in the graph with a free port. */
  ghost predicate BothFree(net: Network, cfg: TopoConfig, a1: NodeId, a2: NodeId)
  {
    && a1 in net.adj && |net.adj[a1]| < PortCeiling(cfg)
    && a2 in net.adj && |net.adj[a2]| < PortCeiling(cfg)
  }

  /**
   * One pass of the random loop body once `(a1, a2)` is drawn: nothing if
   * the pair was tried before, otherwise `tried.add` and `WireFresh`.
   * `ok` is false where `G.degree` is asked about an Aggr of a pod the
   * graph lacks, which raises in the source.
   */
  method TryWire(g: Graph, cfg: TopoConfig, pb: PairBudget, slot: nat, counter: nat, ghost wires: seq<Wire>, ghost ws: seq<Wire>,
                 tried: set<(NodeId, NodeId)>, connected: nat, i1: nat, i2: nat)
    returns (counter': nat, ok: bool, ghost ws': seq<Wire>, tried': set<(NodeId, NodeId)>, connected': nat)
    requires PairProgress(g.View(), cfg, pb, slot, wires, ws, tried, connected) && counter == |ws| && connected < pb.links
    requires i1 < cfg.aggrsPerPod && i2 < cfg.aggrsPerPod
    requires cfg.linkCapacity > 0.0 && pb.p1 != pb.p2
    modifies g
    ensures PairProgress(g.View(), cfg, pb, slot, wires, ws', tried', connected') && counter' == |ws'|
    ensures AdjGrows(old(g.View()), g.View())
    ensures !ok ==> pb.p1 >= cfg.numPods || pb.p2 >= cfg.numPods
    ensures ok <==> (AggrName(pb.p1, i1), AggrName(pb.p2, i2)) in tried || !DegreeRaises(old(g.View()), cfg, AggrName(pb.p1, i1), AggrName(pb.p2, i2))
    ensures tried' == if ok then tried + {(AggrName(pb.p1, i1), AggrName(pb.p2, i2))} else tried
    ensures (AggrName(pb.p1, i1), AggrName(pb.p2, i2)) in tried ==> ok
    ensures if ok && (AggrName(pb.p1, i1), AggrName(pb.p2, i2)) !in tried && BothFree(old(g.View()), cfg, AggrName(pb.p1, i1), AggrName(pb.p2, i2))
            then && ws' == ws + [Wire(slot, pb.p1, i1, pb.p2, i2)] && connected' == connected + 1
                 && g.View() == WithOcs(old(g.View()), OcsName(counter), AggrName(pb.p1, i1), AggrName(pb.p2, i2), Edge(cfg.linkCapacity, 0.0))
            else ws' == ws && connected' == connected && g.View() == old(g.View())
  {
    var a1, a2 := AggrName(pb.p1, i1), AggrName(pb.p2, i2);
    if (a1, a2) in tried {
      counter', ok, ws', tried', connected' := counter, true, ws, tried, connected;
      return;
    }
    counter', ok, ws', connected' := WireFresh(g, cfg, pb, slot, counter, wires, ws, tried, connected, i1, i2);
    tried' := if ok then tried + {(a1, a2)} else tried;
  }

  /**
   * The rest of the loop body for a pair not tried before: the degree test
   * and, if both Aggrs have a free port, a new OCS node joining them.
   */
  method WireFresh(g: Graph, cfg: TopoConfig, pb: PairBudget, slot: nat, counter: nat, ghost wires: seq<Wire>, ghost ws: seq<Wire>,
                   tried: set<(NodeId, NodeId)>, connected: nat, i1: nat, i2: nat)
    returns (counter': nat, ok: bool, ghost ws': seq<Wire>, connected': nat)
    requires PairProgress(g.View(), cfg, pb, slot, wires, ws, tried, connected) && counter == |ws| && connected < pb.links
    requires i1 < cfg.aggrsPerPod && i2 < cfg.aggrsPerPod
    requires cfg.linkCapacity > 0.0 && pb.p1 != pb.p2
    requires (AggrName(pb.p1, i1), AggrName(pb.p2, i2)) !in tried
    modifies g
    ensures counter' == |ws'| && AdjGrows(old(g.View()), g.View())
    ensures !ok ==> pb.p1 >= cfg.numPods || pb.p2 >= cfg.numPods
    ensures ok <==> !DegreeRaises(old(g.View()), cfg, AggrName(pb.p1, i1), AggrName(pb.p2, i2))
    ensures ok ==> PairProgress(g.View(), cfg, pb, slot, wires, ws', tried + {(AggrName(pb.p1, i1), AggrName(pb.p2, i2))}, connected')
    ensures if ok && BothFree(old(g.View()), cfg, AggrName(pb.p1, i1), AggrName(pb.p2, i2))
            then && ws' == ws + [Wire(slot, pb.p1, i1, pb.p2, i2)] && connected' == connected + 1
                 && g.View() == WithOcs(old(g.View()), OcsName(counter), AggrName(pb.p1, i1), AggrName(pb.p2, i2), Edge(cfg.linkCapacity, 0.0))
            else ws' == ws && connected' == connected && g.View() == old(g.View())
  {
    ghost var before := g.View();
    var a1, a2 := AggrName(pb.p1, i1), AggrName(pb.p2, i2);
    AggrPresent(before, cfg, ws, pb.p1, i1);
    AggrPresent(before, cfg, ws, pb.p2, i2);
    counter', ok, ws', connected' := counter, true, ws, connected;
    if a1 !in g.adj || (|g.adj[a1]| < PortCeiling(cfg) && a2 !in g.adj) {
      ok := false;
    } else if |g.adj[a1]| < PortCeiling(cfg) && |g.adj[a2]| < PortCeiling(cfg) {
      JoinPair(g, cfg, pb, slot, counter, wires, ws, tried, connected, i1, i2);
      ws', counter', connected' := ws + [Wire(slot, pb.p1, i1, pb.p2, i2)], counter + 1, connected + 1;
    } else {
      PairProgressReject(before, cfg, pb, slot, wires, ws, tried, connected, i1, i2);
    }
  }

  /** The new OCS node `OCS_<counter>` between two Aggrs that both have a free port. */
  method JoinPair(g: Graph, cfg: TopoConfig, pb: PairBudget, slot: nat, counter: nat, ghost wires: seq<Wire>, ghost ws: seq<Wire>,
                  tried: set<(NodeId, NodeId)>, connected: nat, i1: nat, i2: nat)
    requires PairProgress(g.View(), cfg, pb, slot, wires, ws, tried, connected) && counter == |ws| && connected < pb.links
    requires i1 < cfg.aggrsPerPod && i2 < cfg.aggrsPerPod
    requires cfg.linkCapacity > 0.0 && pb.p1 != pb.p2
    requires (AggrName(pb.p1, i1), AggrName(pb.p2, i2)) !in tried
    requires BothFree(g.View(), cfg, AggrName(pb.p1, i1), AggrName(pb.p2, i2))
    modifies g
    ensures AdjGrows(old(g.View()), g.View())
    ensures PairProgress(g.View(), cfg, pb, slot, wires, ws + [Wire(slot, pb.p1, i1, pb.p2, i2)],
                         tried + {(AggrName(pb.p1, i1), AggrName(pb.p2, i2))}, connected + 1)
    ensures g.View() == WithOcs(old(g.View()), OcsName(counter), AggrName(pb.p1, i1), AggrName(pb.p2, i2), Edge(cfg.linkCapacity, 0.0))
  {
    ghost var before := g.View();
    var a1, a2 := AggrName(pb.p1, i1), AggrName(pb.p2, i2);
    var w := Wire(slot, pb.p1, i1, pb.p2, i2);
    AggrPresent(before, cfg, ws, pb.p1, i1);
    AggrPresent(before, cfg, ws, pb.p2, i2);
    OcsFresh(before, cfg, ws, w);
    AddOcsLink(g, cfg, w, counter, ws);
    OcsGrows(before, OcsName(counter), a1, a2, Edge(cfg.linkCapacity, 0.0));
    PairProgressStep(before, g.View(), cfg, pb, slot, wires, ws, tried, connected, w);
  }

  /**
   * The Aggr pair that the `m`-th pass of a pod pair's loop draws when it
   * starts reading `draws` at `from`: `random.choice` on each side.
   */
  function DrawnPair(pb: PairBudget, n: nat, draws: seq<nat>, from: nat, m: nat): (x: (NodeId, NodeId))
    requires 0 < n && from + 2 * m + 1 < |draws|
    ensures x in NamePairs(pb.p1, pb.p2, n, n)
  {
    (AggrName(pb.p1, draws[from + 2 * m] % n), AggrName(pb.p2, draws[from + 2 * m + 1] % n))
  }

  /**
   * The loop for slot `slot` read `draws[from .. to)`, two at a time, and
   * every pair drawn there was joined by an OCS node of this slot or has
   * a full Aggr, and every OCS node of this slot joins a pair drawn
   * there: the random builders' record of what they consumed.
   */
  ghost predicate DrawsTried(net: Network, cfg: TopoConfig, pb: PairBudget, slot: nat, ws: seq<Wire>, draws: seq<nat>, from: nat, to: nat)
  {
    && from <= to <= |draws| && (to - from) % 2 == 0 && (from < to ==> 0 < cfg.aggrsPerPod)
    && (forall m: nat | m < (to - from) / 2 :: PairSettled(net, cfg, ws, slot, DrawnPair(pb, cfg.aggrsPerPod, draws, from, m)))
    && AmongDrawn(pb, cfg.aggrsPerPod, draws, from, (to - from) / 2, SlotPairs(ws, slot))
  }

  /** Every pair of `pairs` is one of the first `count` pairs drawn from `from` on. */
  ghost predicate AmongDrawn(pb: PairBudget, n: nat, draws: seq<nat>, from: nat, count: nat, pairs: set<(NodeId, NodeId)>)
    requires from + 2 * count <= |draws| && (0 < count ==> 0 < n)
  {
    forall x | x in pairs :: exists m: nat | m < count :: x == DrawnPair(pb, n, draws, from, m)
  }

  /** An Aggr pair is joined by an OCS node of slot `slot`, or one of its Aggrs is full. */
  ghost predicate PairSettled(net: Network, cfg: TopoConfig, ws: seq<Wire>, slot: nat, x: (NodeId, NodeId))
  {
    x in SlotPairs(ws, slot) || Full(net, cfg, x.0) || Full(net, cfg, x.1)
  }

  /** `tried` holds exactly the first `k` pairs drawn from `from` on. */
  ghost predicate DrawnInto(pb: PairBudget, n: nat, draws: seq<nat>, from: nat, k: nat, tried: set<(NodeId, NodeId)>)
  {
    && from + 2 * k <= |draws| && (0 < k ==> 0 < n)
    && (forall m: nat | m < k :: DrawnPair(pb, n, draws, from, m) in tried)
    && AmongDrawn(pb, n, draws, from, k, tried)
  }

  lemma DrawnIntoStep(pb: PairBudget, n: nat, draws: seq<nat>, from: nat, k: nat, d: nat, tried: set<(NodeId, NodeId)>,
                      tried': set<(NodeId, NodeId)>)
    requires DrawnInto(pb, n, draws, from, k, tried) && 0 < n && d == from + 2 * k && d + 1 < |draws|
    requires tried' == tried + {(AggrName(pb.p1, draws[d] % n), AggrName(pb.p2, draws[d + 1] % n))}
    ensures DrawnInto(pb, n, draws, from, k + 1, tried')
  {
    assert DrawnPair(pb, n, draws, from, k) in tried';
    forall x | x in tried' ensures exists m: nat | m < k + 1 :: x == DrawnPair(pb, n, draws, from, m) {
      if x in tried {
        var m: nat :| m < k && x == DrawnPair(pb, n, draws, from, m);
        assert m < k + 1;
      } else {
        assert x == DrawnPair(pb, n, draws, from, k);
      }
    }
  }

  /** Once the loop ends, the pairs it drew are tried, so each is joined or blocked. */
  lemma DrawnSettled(net: Network, cfg: TopoConfig, pb: PairBudget, slot: nat, ws: seq<Wire>, draws: seq<nat>, from: nat, k: nat,
                     to: nat, tried: set<(NodeId, NodeId)>)
    requires DrawnInto(pb, cfg.aggrsPerPod, draws, from, k, tried) && to == from + 2 * k
    requires forall x | x in tried :: x in SlotPairs(ws, slot) || Full(net, cfg, x.0) || Full(net, cfg, x.1)
    requires SlotPairs(ws, slot) <= tried
    ensures DrawsTried(net, cfg, pb, slot, ws, draws, from, to)
  {
    assert (to - from) / 2 == k;
    forall m: nat | m < k ensures PairSettled(net, cfg, ws, slot, DrawnPair(pb, cfg.aggrsPerPod, draws, from, m)) {
      assert DrawnPair(pb, cfg.aggrsPerPod, draws, from, m) in tried;
    }
  }

  /**
   * `len(cands1) * len(cands2)`: how many Aggr combinations a pod pair
   * has, counted by repeated addition so that the loop proofs carry no
   * product; `CombosProduct` gives the product.
   */
  function Combos(a: nat, b: nat): nat
  {
    if a == 0 then 0 else b + Combos(a - 1, b)
  }

  lemma {:induction false} CombosProduct(a: nat, b: nat)
    ensures Combos(a, b) == a * b
  {
    if a > 0 {
      CombosProduct(a - 1, b);
    }
  }

  /** What a pod pair's random loop carries from pass to pass: the graph, the OCS list, `tried`, `connected` and the draw position. */
  datatype PairState = PairState(net: Network, wires: seq<Wire>, tried: set<(NodeId, NodeId)>, connected: nat, next: nat)

  /** Where a pod pair's loop leaves the graph, the OCS list and the draw position, and whether it ran without raising. */
  datatype PairRun = PairRun(net: Network, wires: seq<Wire>, next: nat, ok: bool)

  /**
   * One pass of the random loop body on the two draws at `st.next`: a
   * tried pair only moves on, a degree test that raises gives `None`, and
   * otherwise the pair is tried and, when both Aggrs have a free port,
   * joined by `OCS_<n>`.
   */
  ghost function RandomPassOf(cfg: TopoConfig, pb: PairBudget, slot: nat, draws: seq<nat>, st: PairState): (r: Option<PairState>)
    requires 0 < cfg.aggrsPerPod && st.next + 1 < |draws|
    ensures r.Some? ==> r.value.next == st.next + 2 && |st.wires| <= |r.value.wires|
  {
    var i1, i2 := draws[st.next] % cfg.aggrsPerPod, draws[st.next + 1] % cfg.aggrsPerPod;
    var a1, a2 := AggrName(pb.p1, i1), AggrName(pb.p2, i2);
    if (a1, a2) in st.tried then Some(st.(next := st.next + 2))
    else if DegreeRaises(st.net, cfg, a1, a2) then None
    else if BothFree(st.net, cfg, a1, a2) then
      Some(PairState(WithOcs(st.net, OcsName(|st.wires|), a1, a2, Edge(cfg.linkCapacity, 0.0)), st.wires + [Wire(slot, pb.p1, i1, pb.p2, i2)],
                     st.tried + {(a1, a2)}, st.connected + 1, st.next + 2))
    else Some(st.(tried := st.tried + {(a1, a2)}, next := st.next + 2))
  }

  /**
   * The random builders' loop for one pod pair: passes run while the
   * budget is not met, not every combination is tried and two draws are
   * left; a pass that raises ends the run.
   */
  ghost function RandomRef(cfg: TopoConfig, pb: PairBudget, slot: nat, draws: seq<nat>, st: PairState): (r: PairRun)
    ensures st.next <= r.next && |st.wires| <= |r.wires|
    decreases |draws| - st.next
  {
    if st.connected >= pb.links || |st.tried| >= Combos(cfg.aggrsPerPod, cfg.aggrsPerPod) || st.next + 1 >= |draws| then
      PairRun(st.net, st.wires, st.next, true)
    else if cfg.aggrsPerPod == 0 then
      assert false; PairRun(st.net, st.wires, st.next, true)
    else
      match RandomPassOf(cfg, pb, slot, draws, st)
      case None => PairRun(st.net, st.wires, st.next + 2, false)
      case Some(st') => RandomRef(cfg, pb, slot, draws, st')
  }

  /** While the loop guard holds, the run is one pass followed by the rest of the run. */
  lemma RandomRefStep(cfg: TopoConfig, pb: PairBudget, slot: nat, draws: seq<nat>, st: PairState)
    requires 0 < cfg.aggrsPerPod && st.connected < pb.links && |st.tried| < Combos(cfg.aggrsPerPod, cfg.aggrsPerPod) && st.next + 1 < |draws|
    ensures RandomPassOf(cfg, pb, slot, draws, st).None? ==>
      RandomRef(cfg, pb, slot, draws, st) == PairRun(st.net, st.wires, st.next + 2, false)
    ensures RandomPassOf(cfg, pb, slot, draws, st).Some? ==>
      RandomRef(cfg, pb, slot, draws, st) == RandomRef(cfg, pb, slot, draws, RandomPassOf(cfg, pb, slot, draws, st).value)
  {
  }

  /** Once the loop guard fails, the run ends where it stands. */
  lemma RandomRefDone(cfg: TopoConfig, pb: PairBudget, slot: nat, draws: seq<nat>, st: PairState)
    requires !(st.connected < pb.links && |st.tried| < Combos(cfg.aggrsPerPod, cfg.aggrsPerPod) && st.next + 1 < |draws|)
    ensures RandomRef(cfg, pb, slot, draws, st) == PairRun(st.net, st.wires, st.next, true)
  {
  }

  /** One pass of the random loop, as `TryWire` reports it, is `RandomPassOf`. */
  lemma RandomPassStep(net: Network, net': Network, cfg: TopoConfig, pb: PairBudget, slot: nat, ws: seq<Wire>, ws': seq<Wire>,
                       tried: set<(NodeId, NodeId)>, tried': set<(NodeId, NodeId)>, connected: nat, connected': nat,
                       draws: seq<nat>, d: nat, ok: bool)
    requires 0 < cfg.aggrsPerPod && d + 1 < |draws|
    requires var a1, a2 := AggrName(pb.p1, draws[d] % cfg.aggrsPerPod), AggrName(pb.p2, draws[d + 1] % cfg.aggrsPerPod);
             && (ok <==> (a1, a2) in tried || !DegreeRaises(net, cfg, a1, a2))
             && tried' == (if ok then tried + {(a1, a2)} else tried)
             && if ok && (a1, a2) !in tried && BothFree(net, cfg, a1, a2)
                then && ws' == ws + [Wire(slot, pb.p1, draws[d] % cfg.aggrsPerPod, pb.p2, draws[d + 1] % cfg.aggrsPerPod)]
                     && connected' == connected + 1 && net' == WithOcs(net, OcsName(|ws|), a1, a2, Edge(cfg.linkCapacity, 0.0))
                else ws' == ws && connected' == connected && net' == net
    ensures RandomPassOf(cfg, pb, slot, draws, PairState(net, ws, tried, connected, d))
            == if ok then Some(PairState(net', ws', tried', connected', d + 2)) else None
  {
    var a1, a2 := AggrName(pb.p1, draws[d] % cfg.aggrsPerPod), AggrName(pb.p2, draws[d + 1] % cfg.aggrsPerPod);
    if (a1, a2) in tried {
      assert tried + {(a1, a2)} == tried;
    }
  }

  /**
   * The `while connected < k and len(tried) < len(cands1)*len(cands2)` loop
   * of the random builders for one pod pair, drawing `random.choice`
   * indices from `draws` starting at `d0`; `ok` is false where the source
   * raises because a drawn Aggr is not in the graph.
   */
  method WireRandomPair(g: Graph, cfg: TopoConfig, pb: PairBudget, slot: nat, counter: nat, ghost wires: seq<Wire>, draws: seq<nat>, d0: nat)
    returns (counter': nat, d: nat, ok: bool, ghost wires': seq<Wire>)
    requires Built(g.View(), cfg, wires) && counter == |wires| && cfg.linkCapacity > 0.0 && pb.p1 != pb.p2
    requires forall k | 0 <= k < |wires| :: wires[k].slot < slot
    requires d0 <= |draws|
    modifies g
    ensures Built(g.View(), cfg, wires') && counter' == |wires'| && AdjGrows(old(g.View()), g.View())
    ensures |wires| <= |wires'| && wires'[..|wires|] == wires
    ensures forall k | |wires| <= k < |wires'| :: wires'[k].slot == slot && wires'[k].p1 == pb.p1 && wires'[k].p2 == pb.p2
    ensures CountSlot(wires', slot) <= pb.links && SlotDistinct(wires', slot)
    ensures d0 <= d <= |draws|
    ensures !ok ==> pb.p1 >= cfg.numPods || pb.p2 >= cfg.numPods
    ensures ok ==> DrawsTried(g.View(), cfg, pb, slot, wires', draws, d0, d)
    ensures RandomRef(cfg, pb, slot, draws, PairState(old(g.View()), wires, {}, 0, d0)) == PairRun(g.View(), wires', d, ok)
    ensures ok && CountSlot(wires', slot) < pb.links && d + 1 < |draws| ==>
      forall x | x in NamePairs(pb.p1, pb.p2, cfg.aggrsPerPod, cfg.aggrsPerPod) ::
        x in SlotPairs(wires', slot) || Full(g.View(), cfg, x.0) || Full(g.View(), cfg, x.1)
  {
    var tried, connected;
    ghost var k, run, st;
    counter', d, ok, wires', tried, connected, k, run, st := RandomLoop(g, cfg, pb, slot, counter, wires, draws, d0, g.View());
    PairDone(g.View(), cfg, pb, slot, wires, wires', tried, connected);
    if ok {
      DrawnSettled(g.View(), cfg, pb, slot, wires', draws, d0, k, d, tried);
      RandomRefDone(cfg, pb, slot, draws, PairState(g.View(), wires', tried, connected, d));
    }
    if ok && connected < pb.links && d + 1 < |draws| {
      CombosProduct(cfg.aggrsPerPod, cfg.aggrsPerPod);
      TriedAll(pb.p1, pb.p2, cfg.aggrsPerPod, tried);
    }
  }

  /**
   * What the random loop keeps from pass to pass, `st` being where it
   * stands: the pod pair's bookkeeping, a graph grown from `net0`, the
   * `k` pairs drawn so far tried, and the rest of the run leading where
   * the whole run from `net0` leads (or, once a pass has raised, the run
   * having ended there).
   */
  ghost predicate RandomInv(net0: Network, cfg: TopoConfig, pb: PairBudget, slot: nat, wires: seq<Wire>, draws: seq<nat>, d0: nat,
                            run: PairRun, st: PairState, k: nat, ok: bool)
  {
    && PairProgress(st.net, cfg, pb, slot, wires, st.wires, st.tried, st.connected)
    && AdjGrows(net0, st.net) && d0 <= st.next <= |draws|
    && (!ok ==> pb.p1 >= cfg.numPods || pb.p2 >= cfg.numPods)
    && (ok ==> st.next == d0 + 2 * k && DrawnInto(pb, cfg.aggrsPerPod, draws, d0, k, st.tried))
    && (ok ==> RandomRef(cfg, pb, slot, draws, st) == run)
    && (!ok ==> run == PairRun(st.net, st.wires, st.next, false))
  }

  /** The loop of `WireRandomPair` itself: `k` passes, each reading two draws. */
  method RandomLoop(g: Graph, cfg: TopoConfig, pb: PairBudget, slot: nat, counter: nat, ghost wires: seq<Wire>, draws: seq<nat>, d0: nat,
                    ghost net0: Network)
    returns (counter': nat, d: nat, ok: bool, ghost wires': seq<Wire>, tried: set<(NodeId, NodeId)>, connected: nat, ghost k: nat,
             ghost run: PairRun, ghost st: PairState)
    requires net0 == g.View() && Built(net0, cfg, wires) && counter == |wires| && cfg.linkCapacity > 0.0 && pb.p1 != pb.p2
    requires forall k | 0 <= k < |wires| :: wires[k].slot < slot
    requires d0 <= |draws|
    modifies g
    ensures st == PairState(g.View(), wires', tried, connected, d) && counter' == |wires'|
    ensures run == RandomRef(cfg, pb, slot, draws, PairState(net0, wires, {}, 0, d0))
    ensures RandomInv(net0, cfg, pb, slot, wires, draws, d0, run, st, k, ok)
    ensures ok ==> !(connected < pb.links && |tried| < Combos(cfg.aggrsPerPod, cfg.aggrsPerPod) && d + 1 < |draws|)
  {
    var n := cfg.aggrsPerPod;
    var total := Combos(n, n);
    connected, tried, k := 0, {}, 0;
    counter', d, ok, wires' := counter, d0, true, wires;
    st := PairState(net0, wires', tried, connected, d);
    run := RandomRef(cfg, pb, slot, draws, st);
    RandomInvStart(net0, cfg, pb, slot, wires, draws, d0);
    while ok && connected < pb.links && |tried| < total && d + 1 < |draws|
      invariant st == PairState(g.View(), wires', tried, connected, d) && counter' == |wires'|
      invariant RandomInv(net0, cfg, pb, slot, wires, draws, d0, run, st, k, ok)
      decreases |draws| - d
    {
      counter', ok, wires', tried, connected, k, st := RandomPass(g, cfg, pb, slot, counter', wires, tried, connected, draws, d0, d, k, run, st, net0);
      d := d + 2;
    }
  }

  /** Before the first pass the invariant holds, with the whole run still ahead. */
  lemma RandomInvStart(net0: Network, cfg: TopoConfig, pb: PairBudget, slot: nat, wires: seq<Wire>, draws: seq<nat>, d0: nat)
    requires Built(net0, cfg, wires) && forall k | 0 <= k < |wires| :: wires[k].slot < slot
    requires d0 <= |draws|
    ensures RandomInv(net0, cfg, pb, slot, wires, draws, d0, RandomRef(cfg, pb, slot, draws, PairState(net0, wires, {}, 0, d0)),
                      PairState(net0, wires, {}, 0, d0), 0, true)
  {
    PairProgressStart(net0, cfg, pb, slot, wires);
  }

  /** One pass of the random loop: the two draws at `d`, then `TryWire`. */
  method RandomPass(g: Graph, cfg: TopoConfig, pb: PairBudget, slot: nat, counter: nat, ghost wires: seq<Wire>,
                    tried: set<(NodeId, NodeId)>, connected: nat, draws: seq<nat>, d0: nat, d: nat, ghost k: nat,
                    ghost run: PairRun, ghost st: PairState, ghost net0: Network)
    returns (counter': nat, ok: bool, ghost ws': seq<Wire>, tried': set<(NodeId, NodeId)>, connected': nat, ghost k': nat, ghost st': PairState)
    requires st.net == g.View() && counter == |st.wires| && cfg.linkCapacity > 0.0 && pb.p1 != pb.p2
    requires st.tried == tried && st.connected == connected && st.next == d
    requires RandomInv(net0, cfg, pb, slot, wires, draws, d0, run, st, k, true)
    requires connected < pb.links && |tried| < Combos(cfg.aggrsPerPod, cfg.aggrsPerPod) && d + 1 < |draws|
    modifies g
    ensures st' == PairState(g.View(), ws', tried', connected', d + 2) && counter' == |ws'|
    ensures RandomInv(net0, cfg, pb, slot, wires, draws, d0, run, st', k', ok)
  {
    var n := cfg.aggrsPerPod;
    var i1, i2 := draws[d] % n, draws[d + 1] % n;
    counter', ok, ws', tried', connected' := TryWire(g, cfg, pb, slot, counter, wires, st.wires, tried, connected, i1, i2);
    st' := PairState(g.View(), ws', tried', connected', d + 2);
    k' := if ok then k + 1 else k;
    RandomInvStep(net0, st.net, g.View(), cfg, pb, slot, wires, st.wires, ws', tried, tried', connected, connected', draws, d0, d, k, run, ok);
  }

  /** A pass that does what `TryWire` promises keeps `RandomInv`. */
  lemma RandomInvStep(net0: Network, net: Network, net': Network, cfg: TopoConfig, pb: PairBudget, slot: nat, wires: seq<Wire>,
                      ws: seq<Wire>, ws': seq<Wire>, tried: set<(NodeId, NodeId)>, tried': set<(NodeId, NodeId)>, connected: nat,
                      connected': nat, draws: seq<nat>, d0: nat, d: nat, k: nat, run: PairRun, ok: bool)
    requires RandomInv(net0, cfg, pb, slot, wires, draws, d0, run, PairState(net, ws, tried, connected, d), k, true)
    requires connected < pb.links && |tried| < Combos(cfg.aggrsPerPod, cfg.aggrsPerPod) && d + 1 < |draws|
    requires PairProgress(net', cfg, pb, slot, wires, ws', tried', connected') && AdjGrows(net, net')
    requires !ok ==> pb.p1 >= cfg.numPods || pb.p2 >= cfg.numPods
    requires 0 < cfg.aggrsPerPod
    requires var a1, a2 := AggrName(pb.p1, draws[d] % cfg.aggrsPerPod), AggrName(pb.p2, draws[d + 1] % cfg.aggrsPerPod);
             && (ok <==> (a1, a2) in tried || !DegreeRaises(net, cfg, a1, a2))
             && tried' == (if ok then tried + {(a1, a2)} else tried)
             && if ok && (a1, a2) !in tried && BothFree(net, cfg, a1, a2)
                then && ws' == ws + [Wire(slot, pb.p1, draws[d] % cfg.aggrsPerPod, pb.p2, draws[d + 1] % cfg.aggrsPerPod)]
                     && connected' == connected + 1 && net' == WithOcs(net, OcsName(|ws|), a1, a2, Edge(cfg.linkCapacity, 0.0))
                else ws' == ws && connected' == connected && net' == net
    ensures RandomInv(net0, cfg, pb, slot, wires, draws, d0, run, PairState(net', ws', tried', connected', d + 2), if ok then k + 1 else k, ok)
  {
    AdjGrowsTrans(net0, net, net');
    RandomPassStep(net, net', cfg, pb, slot, ws, ws', tried, tried', connected, connected', draws, d, ok);
    if ok {
      DrawnIntoStep(pb, cfg.aggrsPerPod, draws, d0, k, d, tried, tried');
    }
    RandomRefStep(cfg, pb, slot, draws, PairState(net, ws, tried, connected, d));
  }

  /** Appending wires of slot `j` leaves every other slot's count, pairs and distinctness as they were. */
  lemma {:induction false} SlotUnchanged(wires: seq<Wire>, ws: seq<Wire>, j: nat, s: nat)
    requires |wires| <= |ws| && ws[..|wires|] == wires && s != j
    requires forall k | |wires| <= k < |ws| :: ws[k].slot == j
    ensures CountSlot(ws, s) == CountSlot(wires, s) && SlotPairs(ws, s) == SlotPairs(wires, s)
    ensures SlotDistinct(wires, s) ==> SlotDistinct(ws, s)
  {
    if |ws| == |wires| {
      assert ws == wires;
    } else {
      var front := ws[..|ws| - 1];
      assert front[..|wires|] == wires;
      SlotUnchanged(wires, front, j, s);
      assert ws == front + [ws[|ws| - 1]];
      SlotPairsAppend(front, ws[|ws| - 1], s);
      if SlotDistinct(wires, s) {
        forall k, k' | 0 <= k < k' < |ws| && ws[k].slot == s && ws[k'].slot == s
          ensures PairOf(ws[k]) != PairOf(ws[k'])
        {
          assert ws[k] == front[k] && ws[k'] == front[k'];
        }
      }
    }
  }

  /**
   * A slot short of its budget has had every candidate Aggr pair either
   * joined by one of its OCS nodes or blocked by a full Aggr.
   */
  ghost predicate SlotSettled(net: Network, cfg: TopoConfig, pb: PairBudget, wires: seq<Wire>, s: nat)
  {
    CountSlot(wires, s) < pb.links ==>
      forall x | x in NamePairs(pb.p1, pb.p2, cfg.aggrsPerPod, cfg.aggrsPerPod) ::
        x in SlotPairs(wires, s) || Full(net, cfg, x.0) || Full(net, cfg, x.1)
  }

  /** A wire belongs to the pod pair of the budget slot that created it. */
  predicate WireInSlot(plan: seq<PairBudget>, w: Wire)
  {
    w.slot < |plan| && w.p1 == plan[w.slot].p1 && w.p2 == plan[w.slot].p2
  }

  /** The invariant of the loop over a budget: slots `0 .. j-1` are done. */
  ghost predicate PlanProgress(net: Network, cfg: TopoConfig, plan: seq<PairBudget>, j: nat, wires: seq<Wire>)
  {
    Built(net, cfg, wires) && SlotsUpTo(plan, j, wires)
  }

  /** The OCS nodes made so far belong to the first `j` slots, each within its budget and without a repeated pair. */
  ghost predicate SlotsUpTo(plan: seq<PairBudget>, j: nat, wires: seq<Wire>)
  {
    && j <= |plan|
    && (forall k | 0 <= k < |wires| :: wires[k].slot < j && WireInSlot(plan, wires[k]))
    && (forall s | 0 <= s < j :: CountSlot(wires, s) <= plan[s].links && SlotDistinct(wires, s))
  }

  lemma SlotSettledKept(net: Network, net': Network, cfg: TopoConfig, pb: PairBudget, wires: seq<Wire>, ws: seq<Wire>, s: nat)
    requires SlotSettled(net, cfg, pb, wires, s) && AdjGrows(net, net')
    requires CountSlot(ws, s) == CountSlot(wires, s) && SlotPairs(ws, s) == SlotPairs(wires, s)
    ensures SlotSettled(net', cfg, pb, ws, s)
  {
    if CountSlot(ws, s) < pb.links {
      forall x | x in NamePairs(pb.p1, pb.p2, cfg.aggrsPerPod, cfg.aggrsPerPod)
        ensures x in SlotPairs(ws, s) || Full(net', cfg, x.0) || Full(net', cfg, x.1)
      {
        if Full(net, cfg, x.0) {
          FullStays(net, net', cfg, x.0);
        } else if Full(net, cfg, x.1) {
          FullStays(net, net', cfg, x.1);
        }
      }
    }
  }

  /**
   * The random loop for slot `s` read `draws[from .. to)`, each drawn pair
   * joined or blocked, and if it stopped short of its budget while two
   * draws were left, every Aggr pair of the two pods is joined or blocked.
   */
  ghost predicate SlotDrawn(net: Network, cfg: TopoConfig, pb: PairBudget, s: nat, ws: seq<Wire>, draws: seq<nat>, from: nat, to: nat)
  {
    DrawsTried(net, cfg, pb, s, ws, draws, from, to) && (to + 1 >= |draws| || SlotSettled(net, cfg, pb, ws, s))
  }

  /** Slots `0 .. j-1` of the random loop read consecutive stretches of `draws`, from `starts[s]` to `starts[s + 1]`. */
  ghost predicate DrawnUpTo(net: Network, cfg: TopoConfig, plan: seq<PairBudget>, j: nat, wires: seq<Wire>, draws: seq<nat>, starts: seq<nat>)
  {
    && j <= |plan| && |starts| == j + 1 && starts[0] == 0
    && forall s | 0 <= s < j :: SlotDrawn(net, cfg, plan[s], s, wires, draws, starts[s], starts[s + 1])
  }

  lemma DrawsTriedKept(net: Network, net': Network, cfg: TopoConfig, pb: PairBudget, s: nat, wires: seq<Wire>, ws: seq<Wire>,
                       draws: seq<nat>, from: nat, to: nat)
    requires DrawsTried(net, cfg, pb, s, wires, draws, from, to) && AdjGrows(net, net') && SlotPairs(ws, s) == SlotPairs(wires, s)
    ensures DrawsTried(net', cfg, pb, s, ws, draws, from, to)
  {
    forall m: nat | m < (to - from) / 2 ensures PairSettled(net', cfg, ws, s, DrawnPair(pb, cfg.aggrsPerPod, draws, from, m)) {
      var x := DrawnPair(pb, cfg.aggrsPerPod, draws, from, m);
      assert PairSettled(net, cfg, wires, s, x);
      if x !in SlotPairs(wires, s) {
        if Full(net, cfg, x.0) {
          FullStays(net, net', cfg, x.0);
        } else {
          FullStays(net, net', cfg, x.1);
        }
      }
    }
  }

  lemma SlotDrawnKept(net: Network, net': Network, cfg: TopoConfig, pb: PairBudget, s: nat, wires: seq<Wire>, ws: seq<Wire>,
                      draws: seq<nat>, from: nat, to: nat)
    requires SlotDrawn(net, cfg, pb, s, wires, draws, from, to) && AdjGrows(net, net')
    requires CountSlot(ws, s) == CountSlot(wires, s) && SlotPairs(ws, s) == SlotPairs(wires, s)
    ensures SlotDrawn(net', cfg, pb, s, ws, draws, from, to)
  {
    DrawsTriedKept(net, net', cfg, pb, s, wires, ws, draws, from, to);
    if to + 1 < |draws| {
      SlotSettledKept(net, net', cfg, pb, wires, ws, s);
    }
  }

  lemma DrawnStep(net: Network, net': Network, cfg: TopoConfig, plan: seq<PairBudget>, j: nat, wires: seq<Wire>, ws: seq<Wire>,
                  draws: seq<nat>, starts: seq<nat>, to: nat)
    requires DrawnUpTo(net, cfg, plan, j, wires, draws, starts) && j < |plan| && AdjGrows(net, net')
    requires |wires| <= |ws| && ws[..|wires|] == wires && forall k | |wires| <= k < |ws| :: ws[k].slot == j
    requires SlotDrawn(net', cfg, plan[j], j, ws, draws, starts[j], to)
    ensures DrawnUpTo(net', cfg, plan, j + 1, ws, draws, starts + [to])
  {
    var starts' := starts + [to];
    forall s | 0 <= s < j + 1
      ensures SlotDrawn(net', cfg, plan[s], s, ws, draws, starts'[s], starts'[s + 1])
    {
      if s < j {
        assert starts'[s] == starts[s] && starts'[s + 1] == starts[s + 1];
        SlotUnchanged(wires, ws, j, s);
        SlotDrawnKept(net, net', cfg, plan[s], s, wires, ws, draws, starts[s], starts[s + 1]);
      }
    }
  }

  lemma PlanStep(net: Network, net': Network, cfg: TopoConfig, plan: seq<PairBudget>, j: nat, wires: seq<Wire>, ws: seq<Wire>)
    requires PlanProgress(net, cfg, plan, j, wires) && j < |plan|
    requires Built(net', cfg, ws)
    requires |wires| <= |ws| && ws[..|wires|] == wires
    requires forall k | |wires| <= k < |ws| :: ws[k].slot == j && ws[k].p1 == plan[j].p1 && ws[k].p2 == plan[j].p2
    requires CountSlot(ws, j) <= plan[j].links && SlotDistinct(ws, j)
    ensures PlanProgress(net', cfg, plan, j + 1, ws)
  {
    SlotsStep(plan, j, wires, ws);
  }

  lemma SlotsStep(plan: seq<PairBudget>, j: nat, wires: seq<Wire>, ws: seq<Wire>)
    requires SlotsUpTo(plan, j, wires) && j < |plan|
    requires |wires| <= |ws| && ws[..|wires|] == wires
    requires forall k | |wires| <= k < |ws| :: ws[k].slot == j && ws[k].p1 == plan[j].p1 && ws[k].p2 == plan[j].p2
    requires CountSlot(ws, j) <= plan[j].links && SlotDistinct(ws, j)
    ensures SlotsUpTo(plan, j + 1, ws)
  {
    forall k | 0 <= k < |ws| ensures ws[k].slot < j + 1 && WireInSlot(plan, ws[k]) {
      if k < |wires| {
        assert ws[k] == wires[k];
      }
    }
    forall s | 0 <= s < j
      ensures CountSlot(ws, s) <= plan[s].links && SlotDistinct(ws, s)
    {
      SlotUnchanged(wires, ws, j, s);
    }
  }

  lemma PlanDone(net: Network, cfg: TopoConfig, plan: seq<PairBudget>, j: nat, wires: seq<Wire>)
    requires PlanProgress(net, cfg, plan, j, wires)
    ensures Built(net, cfg, wires) && forall k | 0 <= k < |wires| :: WireInSlot(plan, wires[k])
    ensures forall s | 0 <= s < |plan| :: CountSlot(wires, s) <= plan[s].links && SlotDistinct(wires, s)
  {
    SlotsDone(plan, j, wires);
  }

  lemma SlotsDone(plan: seq<PairBudget>, j: nat, wires: seq<Wire>)
    requires SlotsUpTo(plan, j, wires)
    ensures forall k | 0 <= k < |wires| :: WireInSlot(plan, wires[k])
    ensures forall s | 0 <= s < |plan| :: CountSlot(wires, s) <= plan[s].links && SlotDistinct(wires, s)
  {
    forall s | j <= s < |plan| ensures CountSlot(wires, s) == 0 && SlotDistinct(wires, s) {
      CountSlotAbsent(wires, s);
    }
  }

  /** Where a builder leaves the graph and the OCS list, and whether it ran without raising. */
  datatype PlanRun = PlanRun(net: Network, wires: seq<Wire>, ok: bool)

  /**
   * The random builders' loop over the budget from slot `j` on: each
   * slot runs `RandomRef` from where the previous one left the graph, the
   * OCS list and the draws, and a slot that raises ends the build.
   */
  ghost function RandomFrom(cfg: TopoConfig, plan: seq<PairBudget>, draws: seq<nat>, j: nat, net: Network, ws: seq<Wire>, d: nat): (r: PlanRun)
    ensures |ws| <= |r.wires|
    decreases |plan| - j
  {
    if j >= |plan| then PlanRun(net, ws, true)
    else
      var run := RandomRef(cfg, plan[j], j, draws, PairState(net, ws, {}, 0, d));
      if !run.ok then PlanRun(run.net, run.wires, false)
      else RandomFrom(cfg, plan, draws, j + 1, run.net, run.wires, run.next)
  }

  /** A slot of the budget is its pod pair's run followed by the rest of the build. */
  lemma RandomFromStep(cfg: TopoConfig, plan: seq<PairBudget>, draws: seq<nat>, j: nat, net: Network, ws: seq<Wire>, d: nat, run: PairRun)
    requires j < |plan| && RandomRef(cfg, plan[j], j, draws, PairState(net, ws, {}, 0, d)) == run
    ensures RandomFrom(cfg, plan, draws, j, net, ws, d)
            == if run.ok then RandomFrom(cfg, plan, draws, j + 1, run.net, run.wires, run.next) else PlanRun(run.net, run.wires, false)
  {
  }

  /**
   * The loop of the random builders over an OCS budget (every pod pair
   * with the same `k`, or the fixed non-uniform table), drawing from
   * `draws`; `ok` is false where the source raises.
   */
  method WireRandom(g: Graph, cfg: TopoConfig, plan: seq<PairBudget>, draws: seq<nat>)
    returns (ok: bool, ghost wires: seq<Wire>, ghost starts: seq<nat>)
    requires Built(g.View(), cfg, []) && cfg.linkCapacity > 0.0
    requires forall s | 0 <= s < |plan| :: plan[s].p1 != plan[s].p2
    modifies g
    ensures Built(g.View(), cfg, wires)
    ensures forall k | 0 <= k < |wires| :: WireInSlot(plan, wires[k])
    ensures forall s | 0 <= s < |plan| :: CountSlot(wires, s) <= plan[s].links && SlotDistinct(wires, s)
    ensures ok ==> |starts| == |plan| + 1 && starts[0] == 0 &&
                   forall s | 0 <= s < |plan| :: SlotDrawn(g.View(), cfg, plan[s], s, wires, draws, starts[s], starts[s + 1])
    ensures !ok ==> exists s | 0 <= s < |plan| :: plan[s].p1 >= cfg.numPods || plan[s].p2 >= cfg.numPods
    ensures RandomFrom(cfg, plan, draws, 0, old(g.View()), [], 0) == PlanRun(g.View(), wires, ok)
  {
    var counter, j, d := 0, 0, 0;
    ok, wires, starts := true, [], [0];
    while j < |plan|
      invariant PlanProgress(g.View(), cfg, plan, j, wires) && counter == |wires| && ok
      invariant DrawnUpTo(g.View(), cfg, plan, j, wires, draws, starts) && starts[j] == d <= |draws|
      invariant RandomFrom(cfg, plan, draws, j, g.View(), wires, d) == RandomFrom(cfg, plan, draws, 0, old(g.View()), [], 0)
    {
      ghost var before := g.View();
      ghost var ws;
      var d', ok';
      counter, d', ok', ws := WireRandomPair(g, cfg, plan[j], j, counter, wires, draws, d);
      RandomFromStep(cfg, plan, draws, j, before, wires, d, PairRun(g.View(), ws, d', ok'));
      PlanStep(before, g.View(), cfg, plan, j, wires, ws);
      if !ok' {
        PlanDone(g.View(), cfg, plan, j + 1, ws);
        ok, wires := false, ws;
        return;
      }
      DrawnStep(before, g.View(), cfg, plan, j, wires, ws, draws, starts, d');
      wires, d, starts := ws, d', starts + [d'];
      j := j + 1;
    }
    PlanDone(g.View(), cfg, plan, j, wires);
  }

  /** Every node already in `net` keeps its type and pod in `net'`. */
  ghost predicate KindsGrow(net: Network, net': Network)
  {
    forall n | n in net.kinds :: n in net'.kinds && net'.kinds[n] == net.kinds[n]
  }

  lemma KindsGrowTrans(n1: Network, n2: Network, n3: Network)
    requires KindsGrow(n1, n2) && KindsGrow(n2, n3)
    ensures KindsGrow(n1, n3)
  {
  }

  /** `any(G.nodes[n]["type"] == "ocs" and a1 in G[n] and a2 in G[n] for n in G.nodes)`. */
  predicate JoinedViaOcs(net: Network, a1: NodeId, a2: NodeId)
  {
    exists n | n in net.kinds :: net.kinds[n] == Ocs && n in net.adj && a1 in net.adj[n] && a2 in net.adj[n]
  }

  /** No two OCS nodes join the same two Aggrs. */
  ghost predicate EndsDistinct(ws: seq<Wire>)
  {
    forall k, k' | 0 <= k < k' < |ws| :: Ends(ws[k]) != Ends(ws[k'])
  }

  /** Why the round-robin loop may pass over an Aggr pair: a full Aggr, a direct edge, or an OCS already joining them. */
  ghost predicate AttemptSettled(net: Network, cfg: TopoConfig, a1: NodeId, a2: NodeId)
  {
    Full(net, cfg, a1) || Full(net, cfg, a2) || (a1 in net.adj && a2 in net.adj[a1]) || JoinedViaOcs(net, a1, a2)
  }

  lemma AttemptSettledStays(net: Network, net': Network, cfg: TopoConfig, a1: NodeId, a2: NodeId)
    requires AttemptSettled(net, cfg, a1, a2) && AdjGrows(net, net') && KindsGrow(net, net')
    ensures AttemptSettled(net', cfg, a1, a2)
  {
    if Full(net, cfg, a1) {
      FullStays(net, net', cfg, a1);
    } else if Full(net, cfg, a2) {
      FullStays(net, net', cfg, a2);
    } else if !(a1 in net.adj && a2 in net.adj[a1]) {
      var n :| n in net.kinds && net.kinds[n] == Ocs && n in net.adj && a1 in net.adj[n] && a2 in net.adj[n];
      assert n in net'.kinds && net'.kinds[n] == Ocs && n in net'.adj && a1 in net'.adj[n] && a2 in net'.adj[n];
    }
  }

  /** The Aggr of pod `p` that the pod's `cycle` iterator yields after `c` earlier `next` calls. */
  function RotAggr(p: nat, c: nat, n: nat): NodeId
    requires n > 0
  {
    AggrName(p, c % n)
  }

  /** The `m`-th draw of the two cycles, started at `c1` and `c2`, is settled in `net`. */
  ghost predicate DrawSettled(net: Network, cfg: TopoConfig, pb: PairBudget, c1: nat, c2: nat, m: nat)
  {
    cfg.aggrsPerPod > 0
    && AttemptSettled(net, cfg, RotAggr(pb.p1, c1 + m, cfg.aggrsPerPod), RotAggr(pb.p2, c2 + m, cfg.aggrsPerPod))
  }

  /** The first `attempts` draws are all settled in `net`. */
  ghost predicate DrawsSettled(net: Network, cfg: TopoConfig, pb: PairBudget, c1: nat, c2: nat, attempts: nat)
  {
    forall m | 0 <= m < attempts :: DrawSettled(net, cfg, pb, c1, c2, m)
  }

  /** The Aggr pair of the `m`-th draw of the two cycles, started at `c1` and `c2`. */
  function CyclePair(pb: PairBudget, n: nat, c1: nat, c2: nat, m: nat): (x: (NodeId, NodeId))
    requires n > 0
    ensures x in NamePairs(pb.p1, pb.p2, n, n)
  {
    (RotAggr(pb.p1, c1 + m, n), RotAggr(pb.p2, c2 + m, n))
  }

  /** The OCS node `w` joins the Aggr pair of one of the first `attempts` draws of the two cycles. */
  ghost predicate CycleDrawn(cfg: TopoConfig, pb: PairBudget, c1: nat, c2: nat, attempts: nat, w: Wire)
  {
    cfg.aggrsPerPod > 0 && exists m | 0 <= m < attempts :: PairOf(w) == CyclePair(pb, cfg.aggrsPerPod, c1, c2, m)
  }

  /** `ws` extends `wires` with `connected` OCS nodes, all of slot `slot` and of the pod pair of `pb`. */
  ghost predicate RoundBook(pb: PairBudget, slot: nat, wires: seq<Wire>, ws: seq<Wire>, connected: nat)
  {
    && |wires| <= |ws| && ws[..|wires|] == wires
    && (forall k | |wires| <= k < |ws| :: ws[k].slot == slot && ws[k].p1 == pb.p1 && ws[k].p2 == pb.p2)
    && |ws| == |wires| + connected && connected <= pb.links
  }

  /**
   * The invariant of one pod pair's round-robin loop after `attempts`
   * draws from the two cycles starting at `c1` and `c2`: `ws` extends
   * `wires` with `connected` OCS nodes of this slot, no two OCS nodes join
   * the same Aggrs, each new OCS node joins a pair drawn so far, and
   * every Aggr pair drawn so far is settled.
   */
  ghost predicate RoundProgress(net: Network, cfg: TopoConfig, pb: PairBudget, slot: nat, wires: seq<Wire>, ws: seq<Wire>,
                                c1: nat, c2: nat, attempts: nat, connected: nat)
  {
    && cfg.aggrsPerPod > 0
    && Built(net, cfg, ws)
    && RoundBook(pb, slot, wires, ws, connected)
    && (EndsDistinct(wires) ==> EndsDistinct(ws))
    && CycleWired(cfg, pb, c1, c2, attempts, wires, ws)
    && DrawsSettled(net, cfg, pb, c1, c2, attempts)
  }

  /** Every OCS node that `ws` adds to `wires` joins one of the first `attempts` draws of the two cycles. */
  ghost predicate CycleWired(cfg: TopoConfig, pb: PairBudget, c1: nat, c2: nat, attempts: nat, wires: seq<Wire>, ws: seq<Wire>)
  {
    forall k | |wires| <= k < |ws| :: CycleDrawn(cfg, pb, c1, c2, attempts, ws[k])
  }

  lemma RoundReject(net: Network, cfg: TopoConfig, pb: PairBudget, slot: nat, wires: seq<Wire>, ws: seq<Wire>,
                    c1: nat, c2: nat, attempts: nat, connected: nat)
    requires RoundProgress(net, cfg, pb, slot, wires, ws, c1, c2, attempts, connected)
    requires DrawSettled(net, cfg, pb, c1, c2, attempts)
    ensures RoundProgress(net, cfg, pb, slot, wires, ws, c1, c2, attempts + 1, connected)
  {
    forall k | |wires| <= k < |ws| ensures CycleDrawn(cfg, pb, c1, c2, attempts + 1, ws[k]) {
      CycleDrawnMore(cfg, pb, c1, c2, attempts, ws[k]);
    }
  }

  /** The OCS node that joins the `attempts`-th draw keeps every new node of the slot on a drawn pair. */
  lemma CycleDrawnStep(cfg: TopoConfig, pb: PairBudget, wires: seq<Wire>, ws: seq<Wire>, c1: nat, c2: nat, attempts: nat, w: Wire)
    requires CycleWired(cfg, pb, c1, c2, attempts, wires, ws)
    requires cfg.aggrsPerPod > 0 && w.p1 == pb.p1 && w.p2 == pb.p2
    requires w.i1 == (c1 + attempts) % cfg.aggrsPerPod && w.i2 == (c2 + attempts) % cfg.aggrsPerPod
    ensures CycleWired(cfg, pb, c1, c2, attempts + 1, wires, ws + [w])
  {
    var ws' := ws + [w];
    forall k | |wires| <= k < |ws'| ensures CycleDrawn(cfg, pb, c1, c2, attempts + 1, ws'[k]) {
      if k < |ws| {
        assert ws'[k] == ws[k];
        CycleDrawnMore(cfg, pb, c1, c2, attempts, ws[k]);
      } else {
        assert ws'[k] == w && PairOf(w) == CyclePair(pb, cfg.aggrsPerPod, c1, c2, attempts);
      }
    }
  }

  lemma CycleDrawnMore(cfg: TopoConfig, pb: PairBudget, c1: nat, c2: nat, attempts: nat, w: Wire)
    requires CycleDrawn(cfg, pb, c1, c2, attempts, w)
    ensures CycleDrawn(cfg, pb, c1, c2, attempts + 1, w)
  {
    var m :| 0 <= m < attempts && PairOf(w) == CyclePair(pb, cfg.aggrsPerPod, c1, c2, m);
    assert 0 <= m < attempts + 1;
  }

  lemma OcsKindsGrow(net: Network, o: NodeId, a1: NodeId, a2: NodeId, e: Edge)
    requires o !in net.kinds && a1 in net.adj && a2 in net.adj
    ensures KindsGrow(net, WithOcs(net, o, a1, a2, e))
  {
  }

  /** The new OCS node joins its two Aggrs. */
  lemma OcsJoins(net: Network, o: NodeId, a1: NodeId, a2: NodeId, e: Edge)
    requires net.Valid() && o !in net.kinds && a1 in net.kinds && a2 in net.kinds && a1 != a2
    ensures JoinedViaOcs(WithOcs(net, o, a1, a2, e), a1, a2)
  {
    var net' := WithOcs(net, o, a1, a2, e);
    assert o in net'.kinds && net'.kinds[o] == Ocs && o in net'.adj && a1 in net'.adj[o] && a2 in net'.adj[o];
  }

  /** A new OCS node between Aggrs no OCS joined yet keeps all OCS nodes' Aggr pairs distinct. */
  lemma EndsDistinctAppend(net: Network, cfg: TopoConfig, ws: seq<Wire>, w: Wire)
    requires WiredBy(net, cfg, ws) && EndsDistinct(ws) && !JoinedViaOcs(net, AggrName(w.p1, w.i1), AggrName(w.p2, w.i2))
    ensures EndsDistinct(ws + [w])
  {
    var ws' := ws + [w];
    forall k, k' | 0 <= k < k' < |ws'| ensures Ends(ws'[k]) != Ends(ws'[k']) {
      assert ws'[k] == ws[k];
      if k' == |ws| {
        var n := OcsName(k);
        assert n in net.kinds && net.kinds[n] == Ocs && n in net.adj && net.adj[n] == Ends(ws[k]);
        assert !(AggrName(w.p1, w.i1) in net.adj[n] && AggrName(w.p2, w.i2) in net.adj[n]);
        assert AggrName(w.p1, w.i1) in Ends(w) && AggrName(w.p2, w.i2) in Ends(w);
      } else {
        assert ws'[k'] == ws[k'];
      }
    }
  }

  lemma RoundBookStep(pb: PairBudget, slot: nat, wires: seq<Wire>, ws: seq<Wire>, connected: nat, w: Wire)
    requires RoundBook(pb, slot, wires, ws, connected) && connected < pb.links
    requires w.slot == slot && w.p1 == pb.p1 && w.p2 == pb.p2
    ensures RoundBook(pb, slot, wires, ws + [w], connected + 1)
  {
    assert (ws + [w])[..|ws|] == ws;
  }

  lemma DrawsSettledStep(net: Network, net': Network, cfg: TopoConfig, pb: PairBudget, c1: nat, c2: nat, attempts: nat)
    requires DrawsSettled(net, cfg, pb, c1, c2, attempts) && AdjGrows(net, net') && KindsGrow(net, net')
    requires DrawSettled(net', cfg, pb, c1, c2, attempts)
    ensures DrawsSettled(net', cfg, pb, c1, c2, attempts + 1)
  {
    forall m | 0 <= m < attempts ensures DrawSettled(net', cfg, pb, c1, c2, m) {
      assert DrawSettled(net, cfg, pb, c1, c2, m);
      AttemptSettledStays(net, net', cfg, RotAggr(pb.p1, c1 + m, cfg.aggrsPerPod), RotAggr(pb.p2, c2 + m, cfg.aggrsPerPod));
    }
  }

  lemma RoundStep(net: Network, net': Network, cfg: TopoConfig, pb: PairBudget, slot: nat, wires: seq<Wire>, ws: seq<Wire>,
                  c1: nat, c2: nat, attempts: nat, connected: nat, w: Wire)
    requires RoundProgress(net, cfg, pb, slot, wires, ws, c1, c2, attempts, connected) && connected < pb.links
    requires w == Wire(slot, pb.p1, (c1 + attempts) % cfg.aggrsPerPod, pb.p2, (c2 + attempts) % cfg.aggrsPerPod)
    requires !JoinedViaOcs(net, AggrName(w.p1, w.i1), AggrName(w.p2, w.i2))
    requires OcsName(|ws|) !in net.kinds && AggrName(w.p1, w.i1) in net.kinds && AggrName(w.p2, w.i2) in net.kinds
    requires AggrName(w.p1, w.i1) != AggrName(w.p2, w.i2)
    requires net' == WithOcs(net, OcsName(|ws|), AggrName(w.p1, w.i1), AggrName(w.p2, w.i2), Edge(cfg.linkCapacity, 0.0))
    requires Built(net', cfg, ws + [w])
    ensures RoundProgress(net', cfg, pb, slot, wires, ws + [w], c1, c2, attempts + 1, connected + 1)
  {
    var o, a1, a2, e := OcsName(|ws|), AggrName(w.p1, w.i1), AggrName(w.p2, w.i2), Edge(cfg.linkCapacity, 0.0);
    OcsGrows(net, o, a1, a2, e);
    OcsKindsGrow(net, o, a1, a2, e);
    OcsJoins(net, o, a1, a2, e);
    RoundBookStep(pb, slot, wires, ws, connected, w);
    CycleDrawnStep(cfg, pb, wires, ws, c1, c2, attempts, w);
    if EndsDistinct(wires) {
      EndsDistinctAppend(net, cfg, ws, w);
    }
    DrawsSettledStep(net, net', cfg, pb, c1, c2, attempts);
  }

  lemma EndsSlotDistinct(ws: seq<Wire>, slot: nat)
    requires EndsDistinct(ws)
    ensures SlotDistinct(ws, slot)
  {
    forall k, k' | 0 <= k < k' < |ws| && ws[k].slot == slot && ws[k'].slot == slot
      ensures PairOf(ws[k]) != PairOf(ws[k'])
    {
      assert Ends(ws[k]) != Ends(ws[k']);
    }
  }

  /**
   * One pass of the round-robin loop body: the pods' Aggrs `a1`, `a2` are
   * the `attempts`-th draws of their cycles; the pair is passed over when
   * either Aggr is full, when they share an edge, or when an OCS node
   * already joins them, and is otherwise joined by a new OCS node.
   */
  method RoundAttempt(g: Graph, cfg: TopoConfig, pb: PairBudget, slot: nat, counter: nat, ghost wires: seq<Wire>, ghost ws: seq<Wire>,
                      c1: nat, c2: nat, attempts: nat, connected: nat, i1: nat, i2: nat)
    returns (counter': nat, ghost ws': seq<Wire>, connected': nat)
    requires RoundProgress(g.View(), cfg, pb, slot, wires, ws, c1, c2, attempts, connected) && counter == |ws| && connected < pb.links
    requires i1 == (c1 + attempts) % cfg.aggrsPerPod && i2 == (c2 + attempts) % cfg.aggrsPerPod
    requires pb.p1 != pb.p2 && pb.p1 < cfg.numPods && pb.p2 < cfg.numPods && cfg.linkCapacity > 0.0
    modifies g
    ensures if AttemptSettled(old(g.View()), cfg, AggrName(pb.p1, i1), AggrName(pb.p2, i2))
            then ws' == ws && connected' == connected && g.View() == old(g.View())
            else && ws' == ws + [Wire(slot, pb.p1, i1, pb.p2, i2)] && connected' == connected + 1
                 && AggrName(pb.p1, i1) in old(g.View()).adj && AggrName(pb.p2, i2) in old(g.View()).adj
                 && g.View() == WithOcs(old(g.View()), OcsName(counter), AggrName(pb.p1, i1), AggrName(pb.p2, i2), Edge(cfg.linkCapacity, 0.0))
    ensures counter' == |ws'| && RoundProgress(g.View(), cfg, pb, slot, wires, ws', c1, c2, attempts + 1, connected')
    ensures AdjGrows(old(g.View()), g.View()) && KindsGrow(old(g.View()), g.View())
  {
    ghost var before := g.View();
    var a1, a2 := AggrName(pb.p1, i1), AggrName(pb.p2, i2);
    counter', ws', connected' := counter, ws, connected;
    AggrPresent(before, cfg, ws, pb.p1, i1);
    AggrPresent(before, cfg, ws, pb.p2, i2);
    if |g.adj[a1]| >= PortCeiling(cfg) || |g.adj[a2]| >= PortCeiling(cfg) || a2 in g.adj[a1] || JoinedViaOcs(g.View(), a1, a2) {
      assert AttemptSettled(before, cfg, a1, a2);
      RoundReject(before, cfg, pb, slot, wires, ws, c1, c2, attempts, connected);
      return;
    }
    assert !AttemptSettled(before, cfg, a1, a2);
    RoundJoin(g, cfg, pb, slot, counter, wires, ws, c1, c2, attempts, connected, i1, i2);
    counter', ws', connected' := counter + 1, ws + [Wire(slot, pb.p1, i1, pb.p2, i2)], connected + 1;
  }

  /** The round-robin pass that joins its two Aggrs through the new OCS node `OCS_<counter>`. */
  method RoundJoin(g: Graph, cfg: TopoConfig, pb: PairBudget, slot: nat, counter: nat, ghost wires: seq<Wire>, ghost ws: seq<Wire>,
                   c1: nat, c2: nat, attempts: nat, connected: nat, i1: nat, i2: nat)
    requires RoundProgress(g.View(), cfg, pb, slot, wires, ws, c1, c2, attempts, connected) && counter == |ws| && connected < pb.links
    requires i1 == (c1 + attempts) % cfg.aggrsPerPod && i2 == (c2 + attempts) % cfg.aggrsPerPod
    requires pb.p1 != pb.p2 && pb.p1 < cfg.numPods && pb.p2 < cfg.numPods && cfg.linkCapacity > 0.0
    requires BothFree(g.View(), cfg, AggrName(pb.p1, i1), AggrName(pb.p2, i2))
    requires AggrName(pb.p2, i2) !in g.adj[AggrName(pb.p1, i1)] && !JoinedViaOcs(g.View(), AggrName(pb.p1, i1), AggrName(pb.p2, i2))
    modifies g
    ensures RoundProgress(g.View(), cfg, pb, slot, wires, ws + [Wire(slot, pb.p1, i1, pb.p2, i2)], c1, c2, attempts + 1, connected + 1)
    ensures AdjGrows(old(g.View()), g.View()) && KindsGrow(old(g.View()), g.View())
    ensures g.View() == WithOcs(old(g.View()), OcsName(counter), AggrName(pb.p1, i1), AggrName(pb.p2, i2), Edge(cfg.linkCapacity, 0.0))
  {
    ghost var before := g.View();
    var a1, a2 := AggrName(pb.p1, i1), AggrName(pb.p2, i2);
    var w := Wire(slot, pb.p1, i1, pb.p2, i2);
    OcsFresh(before, cfg, ws, w);
    AddOcsLink(g, cfg, w, counter, ws);
    RoundStep(before, g.View(), cfg, pb, slot, wires, ws, c1, c2, attempts, connected, w);
    OcsGrows(before, OcsName(counter), a1, a2, Edge(cfg.linkCapacity, 0.0));
    OcsKindsGrow(before, OcsName(counter), a1, a2, Edge(cfg.linkCapacity, 0.0));
  }

  lemma RoundStart(net: Network, cfg: TopoConfig, pb: PairBudget, slot: nat, wires: seq<Wire>, c1: nat, c2: nat)
    requires Built(net, cfg, wires) && cfg.aggrsPerPod > 0
    ensures RoundProgress(net, cfg, pb, slot, wires, wires, c1, c2, 0, 0)
  {
    assert wires[..|wires|] == wires;
  }

  /** What a pod pair's round-robin loop carries from attempt to attempt: the graph, the OCS list, `attempts` and `connected`. */
  datatype RoundState = RoundState(net: Network, wires: seq<Wire>, attempts: nat, connected: nat)

  /** Where a pod pair's round-robin loop leaves the graph, the OCS list and its counters, and whether it ran without raising. */
  datatype RoundRun = RoundRun(net: Network, wires: seq<Wire>, attempts: nat, connected: nat, ok: bool)

  /**
   * One attempt of the round-robin loop body, the cycles having started at
   * `c1` and `c2`: the next Aggr of each cycle, a degree test that raises
   * on a missing Aggr (`None`), a settled pair passed over, and otherwise
   * a new OCS node `OCS_<n>` joining the pair; each attempt counts.
   */
  ghost function RoundPassOf(cfg: TopoConfig, pb: PairBudget, slot: nat, c1: nat, c2: nat, st: RoundState): (r: Option<RoundState>)
    requires 0 < cfg.aggrsPerPod
    ensures r.Some? ==> r.value.attempts == st.attempts + 1 && |st.wires| <= |r.value.wires|
  {
    var n := cfg.aggrsPerPod;
    var a1, a2 := RotAggr(pb.p1, c1 + st.attempts, n), RotAggr(pb.p2, c2 + st.attempts, n);
    if DegreeRaises(st.net, cfg, a1, a2) then None
    else if AttemptSettled(st.net, cfg, a1, a2) then Some(st.(attempts := st.attempts + 1))
    else
      Some(RoundState(WithOcs(st.net, OcsName(|st.wires|), a1, a2, Edge(cfg.linkCapacity, 0.0)),
                      st.wires + [Wire(slot, pb.p1, (c1 + st.attempts) % n, pb.p2, (c2 + st.attempts) % n)],
                      st.attempts + 1, st.connected + 1))
  }

  /**
   * The round-robin loop for one pod pair: attempts run while the budget
   * is not met and fewer than `10 * k` were made, each decided on the
   * graph as the attempts before it left it; an attempt that raises ends
   * the run.
   */
  ghost function RoundRef(cfg: TopoConfig, pb: PairBudget, slot: nat, c1: nat, c2: nat, st: RoundState): (r: RoundRun)
    requires 0 < cfg.aggrsPerPod
    ensures st.attempts <= r.attempts && |st.wires| <= |r.wires|
    decreases 10 * pb.links - st.attempts
  {
    if st.connected >= pb.links || st.attempts >= 10 * pb.links then RoundRun(st.net, st.wires, st.attempts, st.connected, true)
    else
      match RoundPassOf(cfg, pb, slot, c1, c2, st)
      case None => RoundRun(st.net, st.wires, st.attempts + 1, st.connected, false)
      case Some(st') => RoundRef(cfg, pb, slot, c1, c2, st')
  }

  /** While the loop guard holds, the run is one attempt followed by the rest of the run. */
  lemma RoundRefStep(cfg: TopoConfig, pb: PairBudget, slot: nat, c1: nat, c2: nat, st: RoundState, st': RoundState)
    requires 0 < cfg.aggrsPerPod && st.connected < pb.links && st.attempts < 10 * pb.links
    requires RoundPassOf(cfg, pb, slot, c1, c2, st) == Some(st')
    ensures RoundRef(cfg, pb, slot, c1, c2, st) == RoundRef(cfg, pb, slot, c1, c2, st')
  {
  }

  /** Once the loop guard fails, the run ends where it stands. */
  lemma RoundRefDone(cfg: TopoConfig, pb: PairBudget, slot: nat, c1: nat, c2: nat, st: RoundState)
    requires 0 < cfg.aggrsPerPod && !(st.connected < pb.links && st.attempts < 10 * pb.links)
    ensures RoundRef(cfg, pb, slot, c1, c2, st) == RoundRun(st.net, st.wires, st.attempts, st.connected, true)
  {
  }

  /**
   * What the round-robin loop keeps from attempt to attempt, `st` being
   * where it stands: the pod pair's progress, a graph grown from `net0`,
   * and the rest of the run leading where the whole run from `net0` leads.
   */
  ghost predicate RoundInv(net0: Network, cfg: TopoConfig, pb: PairBudget, slot: nat, wires: seq<Wire>, c1: nat, c2: nat,
                           run: RoundRun, st: RoundState)
  {
    && RoundProgress(st.net, cfg, pb, slot, wires, st.wires, c1, c2, st.attempts, st.connected)
    && AdjGrows(net0, st.net) && KindsGrow(net0, st.net) && st.attempts <= 10 * pb.links
    && RoundRef(cfg, pb, slot, c1, c2, st) == run
  }

  /** An attempt that grows the graph, keeps the pod pair's progress and leaves the rest of the run unchanged keeps `RoundInv`. */
  lemma RoundInvStep(net0: Network, cfg: TopoConfig, pb: PairBudget, slot: nat, wires: seq<Wire>, c1: nat, c2: nat,
                     run: RoundRun, st: RoundState, st': RoundState)
    requires RoundInv(net0, cfg, pb, slot, wires, c1, c2, run, st)
    requires RoundProgress(st'.net, cfg, pb, slot, wires, st'.wires, c1, c2, st'.attempts, st'.connected)
    requires AdjGrows(st.net, st'.net) && KindsGrow(st.net, st'.net) && st'.attempts <= 10 * pb.links
    requires RoundRef(cfg, pb, slot, c1, c2, st') == run
    ensures RoundInv(net0, cfg, pb, slot, wires, c1, c2, run, st')
  {
    AdjGrowsTrans(net0, st.net, st'.net);
    KindsGrowTrans(net0, st.net, st'.net);
  }

  /**
   * One attempt, as `RoundAttempt` reports it, is `RoundPassOf`: both Aggrs
   * exist, so the degree tests do not raise.
   */
  lemma RoundPassStep(net: Network, net': Network, cfg: TopoConfig, pb: PairBudget, slot: nat, ws: seq<Wire>, ws': seq<Wire>,
                      c1: nat, c2: nat, attempts: nat, connected: nat, connected': nat)
    requires 0 < cfg.aggrsPerPod
    requires var n := cfg.aggrsPerPod;
             var a1, a2 := AggrName(pb.p1, (c1 + attempts) % n), AggrName(pb.p2, (c2 + attempts) % n);
             && a1 in net.adj && a2 in net.adj
             && if AttemptSettled(net, cfg, a1, a2)
                then ws' == ws && connected' == connected && net' == net
                else && ws' == ws + [Wire(slot, pb.p1, (c1 + attempts) % n, pb.p2, (c2 + attempts) % n)] && connected' == connected + 1
                     && net' == WithOcs(net, OcsName(|ws|), a1, a2, Edge(cfg.linkCapacity, 0.0))
    ensures RoundPassOf(cfg, pb, slot, c1, c2, RoundState(net, ws, attempts, connected))
            == Some(RoundState(net', ws', attempts + 1, connected'))
  {
  }

  /** An attempt that does what `RoundAttempt` promises is the first step of the rest of the run. */
  lemma RoundRunStep(net: Network, net': Network, cfg: TopoConfig, pb: PairBudget, slot: nat, run: RoundRun, ws: seq<Wire>, ws': seq<Wire>,
                     c1: nat, c2: nat, attempts: nat, connected: nat, connected': nat)
    requires Built(net, cfg, ws) && 0 < cfg.aggrsPerPod && pb.p1 < cfg.numPods && pb.p2 < cfg.numPods
    requires connected < pb.links && attempts < 10 * pb.links
    requires RoundRef(cfg, pb, slot, c1, c2, RoundState(net, ws, attempts, connected)) == run
    requires var n := cfg.aggrsPerPod;
             var a1, a2 := AggrName(pb.p1, (c1 + attempts) % n), AggrName(pb.p2, (c2 + attempts) % n);
             if AttemptSettled(net, cfg, a1, a2)
             then ws' == ws && connected' == connected && net' == net
             else && ws' == ws + [Wire(slot, pb.p1, (c1 + attempts) % n, pb.p2, (c2 + attempts) % n)] && connected' == connected + 1
                  && net' == WithOcs(net, OcsName(|ws|), a1, a2, Edge(cfg.linkCapacity, 0.0))
    ensures RoundRef(cfg, pb, slot, c1, c2, RoundState(net', ws', attempts + 1, connected')) == run
  {
    AggrPresent(net, cfg, ws, pb.p1, (c1 + attempts) % cfg.aggrsPerPod);
    AggrPresent(net, cfg, ws, pb.p2, (c2 + attempts) % cfg.aggrsPerPod);
    RoundPassStep(net, net', cfg, pb, slot, ws, ws', c1, c2, attempts, connected, connected');
    RoundRefStep(cfg, pb, slot, c1, c2, RoundState(net, ws, attempts, connected), RoundState(net', ws', attempts + 1, connected'));
  }

  /** Before the first attempt the invariant holds, with the whole run still ahead. */
  lemma RoundInvStart(net0: Network, cfg: TopoConfig, pb: PairBudget, slot: nat, wires: seq<Wire>, c1: nat, c2: nat)
    requires Built(net0, cfg, wires) && cfg.aggrsPerPod > 0
    ensures RoundInv(net0, cfg, pb, slot, wires, c1, c2, RoundRef(cfg, pb, slot, c1, c2, RoundState(net0, wires, 0, 0)), RoundState(net0, wires, 0, 0))
  {
    RoundStart(net0, cfg, pb, slot, wires, c1, c2);
  }

  /** Once the loop guard fails, the run has ended where the loop stands. */
  lemma RoundInvDone(net0: Network, cfg: TopoConfig, pb: PairBudget, slot: nat, wires: seq<Wire>, c1: nat, c2: nat, run: RoundRun, st: RoundState)
    requires RoundInv(net0, cfg, pb, slot, wires, c1, c2, run, st) && !(st.connected < pb.links && st.attempts < 10 * pb.links)
    ensures RoundProgress(st.net, cfg, pb, slot, wires, st.wires, c1, c2, st.attempts, st.connected)
    ensures AdjGrows(net0, st.net) && KindsGrow(net0, st.net)
    ensures st.attempts <= 10 * pb.links && (st.connected < pb.links ==> st.attempts == 10 * pb.links)
    ensures run == RoundRun(st.net, st.wires, st.attempts, st.connected, true)
  {
    RoundRefDone(cfg, pb, slot, c1, c2, st);
  }

  /** The round-robin loop itself, for pods with at least one Aggr. */
  method RoundLoop(g: Graph, cfg: TopoConfig, pb: PairBudget, slot: nat, counter: nat, ghost wires: seq<Wire>, c1: nat, c2: nat)
    returns (counter': nat, attempts: nat, connected: nat, ghost wires': seq<Wire>)
    requires Built(g.View(), cfg, wires) && counter == |wires| && cfg.linkCapacity > 0.0 && cfg.aggrsPerPod > 0
    requires pb.p1 != pb.p2 && pb.p1 < cfg.numPods && pb.p2 < cfg.numPods
    modifies g
    ensures RoundProgress(g.View(), cfg, pb, slot, wires, wires', c1, c2, attempts, connected) && counter' == |wires'|
    ensures AdjGrows(old(g.View()), g.View()) && KindsGrow(old(g.View()), g.View())
    ensures attempts <= 10 * pb.links && (connected < pb.links ==> attempts == 10 * pb.links)
    ensures RoundRef(cfg, pb, slot, c1, c2, RoundState(old(g.View()), wires, 0, 0)) == RoundRun(g.View(), wires', attempts, connected, true)
  {
    counter', attempts, connected, wires' := counter, 0, 0, wires;
    var maxAttempts := 10 * pb.links;
    ghost var net0 := g.View();
    ghost var st := RoundState(net0, wires, 0, 0);
    ghost var run := RoundRef(cfg, pb, slot, c1, c2, st);
    RoundInvStart(net0, cfg, pb, slot, wires, c1, c2);
    while connected < pb.links && attempts < maxAttempts
      invariant st == RoundState(g.View(), wires', attempts, connected) && counter' == |wires'|
      invariant RoundInv(net0, cfg, pb, slot, wires, c1, c2, run, st)
      decreases maxAttempts - attempts
    {
      counter', wires', connected, st := RoundPass(g, cfg, pb, slot, counter', wires, c1, c2, attempts, connected, run, st, net0);
      attempts := attempts + 1;
    }
    RoundInvDone(net0, cfg, pb, slot, wires, c1, c2, run, st);
  }

  /** One attempt of the round-robin loop: the next Aggr of each cycle, then `RoundAttempt`. */
  method RoundPass(g: Graph, cfg: TopoConfig, pb: PairBudget, slot: nat, counter: nat, ghost wires: seq<Wire>,
                   c1: nat, c2: nat, attempts: nat, connected: nat, ghost run: RoundRun, ghost st: RoundState, ghost net0: Network)
    returns (counter': nat, ghost ws': seq<Wire>, connected': nat, ghost st': RoundState)
    requires st.net == g.View() && counter == |st.wires| && cfg.linkCapacity > 0.0 && st.attempts == attempts && st.connected == connected
    requires pb.p1 != pb.p2 && pb.p1 < cfg.numPods && pb.p2 < cfg.numPods
    requires RoundInv(net0, cfg, pb, slot, wires, c1, c2, run, st)
    requires st.connected < pb.links && attempts < 10 * pb.links
    modifies g
    ensures st' == RoundState(g.View(), ws', attempts + 1, connected') && counter' == |ws'|
    ensures RoundInv(net0, cfg, pb, slot, wires, c1, c2, run, st')
  {
    var i1, i2 := (c1 + attempts) % cfg.aggrsPerPod, (c2 + attempts) % cfg.aggrsPerPod;
    counter', ws', connected' := RoundAttempt(g, cfg, pb, slot, counter, wires, st.wires, c1, c2, attempts, connected, i1, i2);
    st' := RoundState(g.View(), ws', attempts + 1, connected');
    RoundRunStep(st.net, g.View(), cfg, pb, slot, run, st.wires, ws', c1, c2, attempts, connected, connected');
    RoundInvStep(net0, cfg, pb, slot, wires, c1, c2, run, st, st');
  }

  lemma RoundDone(net: Network, cfg: TopoConfig, pb: PairBudget, slot: nat, wires: seq<Wire>, ws: seq<Wire>,
                  c1: nat, c2: nat, attempts: nat, connected: nat)
    requires RoundProgress(net, cfg, pb, slot, wires, ws, c1, c2, attempts, connected)
    requires forall k | 0 <= k < |wires| :: wires[k].slot < slot
    ensures Built(net, cfg, ws) && RoundBook(pb, slot, wires, ws, connected) && CountSlot(ws, slot) == connected
    ensures (EndsDistinct(wires) ==> EndsDistinct(ws)) && DrawsSettled(net, cfg, pb, c1, c2, attempts)
    ensures CycleWired(cfg, pb, c1, c2, attempts, wires, ws)
  {
    forall k | 0 <= k < |wires| ensures ws[k].slot < slot {
      assert ws[k] == ws[..|wires|][k];
    }
    CountSlotBlock(wires, ws, slot);
  }

  lemma RoundNone(pb: PairBudget, slot: nat, wires: seq<Wire>)
    requires forall k | 0 <= k < |wires| :: wires[k].slot < slot
    ensures RoundBook(pb, slot, wires, wires, 0) && CountSlot(wires, slot) == 0
  {
    assert wires[..|wires|] == wires;
    CountSlotAbsent(wires, slot);
  }

  /** The cycle positions after `k` more `next` calls on each of the two pods' iterators. */
  function Advance(cursor: seq<nat>, p1: nat, p2: nat, k: nat): (c: seq<nat>)
    requires p1 < |cursor| && p2 < |cursor| && p1 != p2
    ensures |c| == |cursor| && c[p1] == cursor[p1] + k && c[p2] == cursor[p2] + k
    ensures forall p | 0 <= p < |cursor| && p != p1 && p != p2 :: c[p] == cursor[p]
  {
    cursor[p1 := cursor[p1] + k][p2 := cursor[p2] + k]
  }

  /**
   * The `while connected < k and attempts < 10 * k` loop of the
   * round-robin builder for one pod pair. `cursor[p]` counts the `next`
   * calls made so far on pod `p`'s `cycle` iterator, which yields Aggr
   * `cursor[p] % AGGRS_PER_POD` next; `ok` is false where the first
   * `next` on an empty cycle raises `StopIteration`.
   */
  method WireRoundRobinPair(g: Graph, cfg: TopoConfig, pb: PairBudget, slot: nat, counter: nat, ghost wires: seq<Wire>, cursor: seq<nat>)
    returns (counter': nat, cursor': seq<nat>, attempts: nat, connected: nat, ok: bool, ghost wires': seq<Wire>)
    requires Built(g.View(), cfg, wires) && counter == |wires| && cfg.linkCapacity > 0.0
    requires pb.p1 != pb.p2 && pb.p1 < cfg.numPods && pb.p2 < cfg.numPods && |cursor| == cfg.numPods
    requires forall k | 0 <= k < |wires| :: wires[k].slot < slot
    modifies g
    ensures cursor' == Advance(cursor, pb.p1, pb.p2, attempts)
    ensures Built(g.View(), cfg, wires') && counter' == |wires'|
    ensures AdjGrows(old(g.View()), g.View()) && KindsGrow(old(g.View()), g.View())
    ensures RoundBook(pb, slot, wires, wires', connected) && CountSlot(wires', slot) == connected
    ensures EndsDistinct(wires) ==> EndsDistinct(wires')
    ensures ok <==> cfg.aggrsPerPod > 0 || pb.links == 0
    ensures attempts <= 10 * pb.links && (connected < pb.links ==> !ok || attempts == 10 * pb.links)
    ensures ok ==> DrawsSettled(g.View(), cfg, pb, cursor[pb.p1], cursor[pb.p2], attempts)
    ensures ok ==> CycleWired(cfg, pb, cursor[pb.p1], cursor[pb.p2], attempts, wires, wires')
    ensures cfg.aggrsPerPod > 0 ==> RoundRef(cfg, pb, slot, cursor[pb.p1], cursor[pb.p2], RoundState(old(g.View()), wires, 0, 0))
                                    == RoundRun(g.View(), wires', attempts, connected, true)
    ensures cfg.aggrsPerPod == 0 ==> g.View() == old(g.View()) && wires' == wires && attempts == 0
  {
    if cfg.aggrsPerPod == 0 {
      counter', attempts, connected, ok, wires' := counter, 0, 0, pb.links == 0, wires;
      cursor' := Advance(cursor, pb.p1, pb.p2, 0);
      RoundNone(pb, slot, wires);
      return;
    }
    counter', attempts, connected, wires' := RoundLoop(g, cfg, pb, slot, counter, wires, cursor[pb.p1], cursor[pb.p2]);
    cursor' := Advance(cursor, pb.p1, pb.p2, attempts);
    ok := true;
    RoundDone(g.View(), cfg, pb, slot, wires, wires', cursor[pb.p1], cursor[pb.p2], attempts, connected);
  }

  lemma DrawsSettledStays(net: Network, net': Network, cfg: TopoConfig, pb: PairBudget, c1: nat, c2: nat, k: nat)
    requires DrawsSettled(net, cfg, pb, c1, c2, k) && AdjGrows(net, net') && KindsGrow(net, net')
    ensures DrawsSettled(net', cfg, pb, c1, c2, k)
  {
    forall m | 0 <= m < k ensures DrawSettled(net', cfg, pb, c1, c2, m) {
      assert DrawSettled(net, cfg, pb, c1, c2, m);
      AttemptSettledStays(net, net', cfg, RotAggr(pb.p1, c1 + m, cfg.aggrsPerPod), RotAggr(pb.p2, c2 + m, cfg.aggrsPerPod));
    }
  }

  /** The `next` counts of the pods' freshly made `cycle` iterators: none yet. */
  function Unstarted(n: nat): (c: seq<nat>)
    ensures |c| == n && forall p | 0 <= p < n :: c[p] == 0
  {
    seq(n, p => 0)
  }

  /**
   * The round-robin builder's loop over the pod pairs from slot `j` on,
   * the pods' cycles having made `cursor[p]` draws: each slot runs
   * `RoundRef` from where the previous one left the graph and the OCS
   * list, and advances its two pods' cycles by its attempts; a slot whose
   * pods have no Aggrs raises at its first draw, and a slot with budget 0
   * draws nothing.
   */
  ghost function RoundFrom(cfg: TopoConfig, plan: seq<PairBudget>, j: nat, net: Network, ws: seq<Wire>, cursor: seq<nat>): (r: PlanRun)
    requires forall s | j <= s < |plan| :: plan[s].p1 != plan[s].p2 && plan[s].p1 < |cursor| && plan[s].p2 < |cursor|
    ensures |ws| <= |r.wires|
    decreases |plan| - j
  {
    if j >= |plan| then PlanRun(net, ws, true)
    else if cfg.aggrsPerPod == 0 then
      if plan[j].links == 0 then RoundFrom(cfg, plan, j + 1, net, ws, cursor) else PlanRun(net, ws, false)
    else
      var pb := plan[j];
      var run := RoundRef(cfg, pb, j, cursor[pb.p1], cursor[pb.p2], RoundState(net, ws, 0, 0));
      if !run.ok then PlanRun(run.net, run.wires, false)
      else RoundFrom(cfg, plan, j + 1, run.net, run.wires, Advance(cursor, pb.p1, pb.p2, run.attempts))
  }

  /** A slot of the round-robin budget is its pod pair's run followed by the rest of the build, the two cycles moved on. */
  lemma RoundFromStep(cfg: TopoConfig, plan: seq<PairBudget>, j: nat, net: Network, ws: seq<Wire>, cursor: seq<nat>, run: RoundRun)
    requires j < |plan| && 0 < cfg.aggrsPerPod
    requires forall s | j <= s < |plan| :: plan[s].p1 != plan[s].p2 && plan[s].p1 < |cursor| && plan[s].p2 < |cursor|
    requires RoundRef(cfg, plan[j], j, cursor[plan[j].p1], cursor[plan[j].p2], RoundState(net, ws, 0, 0)) == run
    ensures RoundFrom(cfg, plan, j, net, ws, cursor)
            == if run.ok then RoundFrom(cfg, plan, j + 1, run.net, run.wires, Advance(cursor, plan[j].p1, plan[j].p2, run.attempts))
               else PlanRun(run.net, run.wires, false)
  {
  }

  /**
   * How many `next` calls the round-robin loop made on pod `p`'s cycle
   * before slot `s`, slot `s'` having drawn `tries[s']` times from each of
   * its two pods: the cycles are created once and shared by all pod pairs.
   */
  function DrawsBefore(plan: seq<PairBudget>, tries: seq<nat>, p: nat, s: nat): nat
    requires s <= |plan| && s <= |tries|
  {
    if s == 0 then 0
    else DrawsBefore(plan, tries, p, s - 1) + (if plan[s - 1].p1 == p || plan[s - 1].p2 == p then tries[s - 1] else 0)
  }

  lemma {:induction false} DrawsBeforePrefix(plan: seq<PairBudget>, tries: seq<nat>, more: seq<nat>, p: nat, s: nat)
    requires s <= |plan| && s <= |tries|
    ensures DrawsBefore(plan, tries + more, p, s) == DrawsBefore(plan, tries, p, s)
  {
    if s > 0 {
      DrawsBeforePrefix(plan, tries, more, p, s - 1);
      assert (tries + more)[s - 1] == tries[s - 1];
    }
  }

  /**
   * Slot `s` of the round-robin loop drew `tries[s]` Aggr pairs, at most
   * `10 * k`, all of them from where the pods' cycles stood, and every one
   * is settled; each of its OCS nodes joins one of those draws, and it
   * ended short of its budget only after all `10 * k`.
   */
  ghost predicate RoundSettled(net: Network, cfg: TopoConfig, plan: seq<PairBudget>, wires: seq<Wire>, tries: seq<nat>, s: nat)
    requires s < |plan| && s < |tries|
  {
    && tries[s] <= 10 * plan[s].links
    && (CountSlot(wires, s) < plan[s].links ==> tries[s] == 10 * plan[s].links)
    && DrawsSettled(net, cfg, plan[s], DrawsBefore(plan, tries, plan[s].p1, s), DrawsBefore(plan, tries, plan[s].p2, s), tries[s])
    && SlotWired(cfg, plan, wires, tries, s)
  }

  /** Every OCS node of slot `s` joins one of the `tries[s]` pairs that slot drew from the pods' cycles. */
  ghost predicate SlotWired(cfg: TopoConfig, plan: seq<PairBudget>, wires: seq<Wire>, tries: seq<nat>, s: nat)
    requires s < |plan| && s < |tries|
  {
    forall k | 0 <= k < |wires| && wires[k].slot == s ::
      CycleDrawn(cfg, plan[s], DrawsBefore(plan, tries, plan[s].p1, s), DrawsBefore(plan, tries, plan[s].p2, s), tries[s], wires[k])
  }

  /** Closing slot `j` with `attempts` draws keeps every slot's OCS nodes on pairs it drew. */
  lemma SlotWiredStep(cfg: TopoConfig, plan: seq<PairBudget>, j: nat, wires: seq<Wire>, ws: seq<Wire>, tries: seq<nat>, attempts: nat, s: nat)
    requires j < |plan| && |tries| == j && s <= j
    requires |wires| <= |ws| && ws[..|wires|] == wires
    requires forall k | |wires| <= k < |ws| :: ws[k].slot == j
    requires forall k | 0 <= k < |wires| :: wires[k].slot < j
    requires s < j ==> SlotWired(cfg, plan, wires, tries, s)
    requires CycleWired(cfg, plan[j], DrawsBefore(plan, tries, plan[j].p1, j), DrawsBefore(plan, tries, plan[j].p2, j), attempts, wires, ws)
    ensures SlotWired(cfg, plan, ws, tries + [attempts], s)
  {
    var tries' := tries + [attempts];
    DrawsBeforePrefix(plan, tries, [attempts], plan[s].p1, s);
    DrawsBeforePrefix(plan, tries, [attempts], plan[s].p2, s);
    var c1, c2 := DrawsBefore(plan, tries, plan[s].p1, s), DrawsBefore(plan, tries, plan[s].p2, s);
    if s < j {
      assert tries'[s] == tries[s];
      forall k | 0 <= k < |ws| && ws[k].slot == s ensures CycleDrawn(cfg, plan[s], c1, c2, tries'[s], ws[k]) {
        assert k < |wires| && ws[k] == wires[k];
      }
    } else {
      forall k | 0 <= k < |ws| && ws[k].slot == s ensures CycleDrawn(cfg, plan[s], c1, c2, tries'[s], ws[k]) {
        assert |wires| <= k;
      }
    }
  }

  /** The invariant of the round-robin loop over the pod pairs: slots `0 .. j-1` are done. */
  ghost predicate RoundPlanProgress(net: Network, cfg: TopoConfig, plan: seq<PairBudget>, j: nat, wires: seq<Wire>, tries: seq<nat>)
  {
    && PlanProgress(net, cfg, plan, j, wires)
    && EndsDistinct(wires) && |tries| == j
    && (forall s | 0 <= s < j :: RoundSettled(net, cfg, plan, wires, tries, s))
  }

  lemma RoundPlanStep(net: Network, net': Network, cfg: TopoConfig, plan: seq<PairBudget>, j: nat, wires: seq<Wire>, ws: seq<Wire>,
                      tries: seq<nat>, attempts: nat, connected: nat)
    requires RoundPlanProgress(net, cfg, plan, j, wires, tries) && j < |plan|
    requires Built(net', cfg, ws) && AdjGrows(net, net') && KindsGrow(net, net')
    requires RoundBook(plan[j], j, wires, ws, connected) && CountSlot(ws, j) == connected && EndsDistinct(ws)
    requires attempts <= 10 * plan[j].links && (connected < plan[j].links ==> attempts == 10 * plan[j].links)
    requires DrawsSettled(net', cfg, plan[j], DrawsBefore(plan, tries, plan[j].p1, j), DrawsBefore(plan, tries, plan[j].p2, j), attempts)
    requires CycleWired(cfg, plan[j], DrawsBefore(plan, tries, plan[j].p1, j), DrawsBefore(plan, tries, plan[j].p2, j), attempts, wires, ws)
    ensures RoundPlanProgress(net', cfg, plan, j + 1, ws, tries + [attempts])
  {
    EndsSlotDistinct(ws, j);
    PlanStep(net, net', cfg, plan, j, wires, ws);
    var tries' := tries + [attempts];
    forall s | 0 <= s < j + 1 ensures RoundSettled(net', cfg, plan, ws, tries', s) {
      DrawsBeforePrefix(plan, tries, [attempts], plan[s].p1, s);
      DrawsBeforePrefix(plan, tries, [attempts], plan[s].p2, s);
      if s < j {
        SlotUnchanged(wires, ws, j, s);
        assert tries'[s] == tries[s] && RoundSettled(net, cfg, plan, wires, tries, s);
        DrawsSettledStays(net, net', cfg, plan[s], DrawsBefore(plan, tries, plan[s].p1, s), DrawsBefore(plan, tries, plan[s].p2, s), tries[s]);
      }
      SlotWiredStep(cfg, plan, j, wires, ws, tries, attempts, s);
    }
  }

  /** Advancing the two pods of slot `j` by its draws keeps every cursor at `DrawsBefore`. */
  lemma CursorStep(plan: seq<PairBudget>, tries: seq<nat>, cursor: seq<nat>, j: nat, attempts: nat)
    requires j < |plan| && |tries| == j && plan[j].p1 < |cursor| && plan[j].p2 < |cursor| && plan[j].p1 != plan[j].p2
    requires forall p | 0 <= p < |cursor| :: cursor[p] == DrawsBefore(plan, tries, p, j)
    ensures forall p | 0 <= p < |cursor| ::
              Advance(cursor, plan[j].p1, plan[j].p2, attempts)[p] == DrawsBefore(plan, tries + [attempts], p, j + 1)
  {
    forall p | 0 <= p < |cursor|
      ensures Advance(cursor, plan[j].p1, plan[j].p2, attempts)[p] == DrawsBefore(plan, tries + [attempts], p, j + 1)
    {
      DrawsBeforePrefix(plan, tries, [attempts], p, j);
    }
  }

  /**
   * One pass of the round-robin builder's loop over the pod pairs: slot `j`
   * of `plan`, drawing from the pods' cycles where `cursor` says they stand.
   */
  method WireRoundRobinSlot(g: Graph, cfg: TopoConfig, plan: seq<PairBudget>, j: nat, counter: nat,
                            ghost wires: seq<Wire>, ghost tries: seq<nat>, cursor: seq<nat>)
    returns (counter': nat, cursor': seq<nat>, ok: bool, ghost wires': seq<Wire>, ghost tries': seq<nat>)
    requires RoundPlanProgress(g.View(), cfg, plan, j, wires, tries) && counter == |wires| && |cursor| == cfg.numPods
    requires forall p | 0 <= p < cfg.numPods :: cursor[p] == DrawsBefore(plan, tries, p, j)
    requires j < |plan| && forall s | j <= s < |plan| :: plan[s].p1 != plan[s].p2 && plan[s].p1 < cfg.numPods && plan[s].p2 < cfg.numPods
    requires cfg.linkCapacity > 0.0
    requires cfg.aggrsPerPod > 0 || forall s | 0 <= s < j :: plan[s].links == 0
    modifies g
    ensures PlanProgress(g.View(), cfg, plan, j + 1, wires') && EndsDistinct(wires') && counter' == |wires'|
    ensures ok <==> cfg.aggrsPerPod > 0 || plan[j].links == 0
    ensures ok ==> cfg.aggrsPerPod > 0 || forall s | 0 <= s < j + 1 :: plan[s].links == 0
    ensures ok ==> RoundPlanProgress(g.View(), cfg, plan, j + 1, wires', tries') && |cursor'| == cfg.numPods
    ensures ok ==> forall p | 0 <= p < cfg.numPods :: cursor'[p] == DrawsBefore(plan, tries', p, j + 1)
    ensures RoundFrom(cfg, plan, j, old(g.View()), wires, cursor)
            == if ok then RoundFrom(cfg, plan, j + 1, g.View(), wires', cursor') else PlanRun(g.View(), wires', false)
  {
    ghost var before := g.View();
    var attempts, connected;
    counter', cursor', attempts, connected, ok, wires' := WireRoundRobinPair(g, cfg, plan[j], j, counter, wires, cursor);
    if cfg.aggrsPerPod > 0 {
      RoundFromStep(cfg, plan, j, before, wires, cursor, RoundRun(g.View(), wires', attempts, connected, true));
    } else {
      assert cursor' == cursor;
    }
    tries' := tries + [attempts];
    EndsSlotDistinct(wires', j);
    PlanStep(before, g.View(), cfg, plan, j, wires, wires');
    if ok {
      assert cursor[plan[j].p1] == DrawsBefore(plan, tries, plan[j].p1, j);
      assert cursor[plan[j].p2] == DrawsBefore(plan, tries, plan[j].p2, j);
      CursorStep(plan, tries, cursor, j, attempts);
      RoundPlanStep(before, g.View(), cfg, plan, j, wires, wires', tries, attempts, connected);
    }
  }

  /**
   * The loop of the round-robin builder over `combinations(range(NUM_PODS), 2)`
   * (given as `plan`), with one `cycle` per pod created before it; `ok`
   * is false where the source raises `StopIteration`. `tries[s]` is the
   * number of draws slot `s` made from each of its two pods' cycles.
   */
  method WireRoundRobin(g: Graph, cfg: TopoConfig, plan: seq<PairBudget>) returns (ok: bool, ghost wires: seq<Wire>, ghost tries: seq<nat>)
    requires Built(g.View(), cfg, []) && cfg.linkCapacity > 0.0
    requires forall s | 0 <= s < |plan| :: plan[s].p1 != plan[s].p2 && plan[s].p1 < cfg.numPods && plan[s].p2 < cfg.numPods
    modifies g
    ensures Built(g.View(), cfg, wires) && EndsDistinct(wires)
    ensures forall k | 0 <= k < |wires| :: WireInSlot(plan, wires[k])
    ensures forall s | 0 <= s < |plan| :: CountSlot(wires, s) <= plan[s].links
    ensures ok <==> cfg.aggrsPerPod > 0 || forall s | 0 <= s < |plan| :: plan[s].links == 0
    ensures ok ==> |tries| == |plan| && forall s | 0 <= s < |plan| :: RoundSettled(g.View(), cfg, plan, wires, tries, s)
    ensures RoundFrom(cfg, plan, 0, old(g.View()), [], Unstarted(cfg.numPods)) == PlanRun(g.View(), wires, ok)
  {
    var cursor := Unstarted(cfg.numPods);
    var counter := 0;
    var j := 0;
    ok, wires, tries := true, [], [];
    ghost var run := RoundFrom(cfg, plan, 0, g.View(), wires, cursor);
    while j < |plan|
      invariant RoundPlanProgress(g.View(), cfg, plan, j, wires, tries) && counter == |wires| && |cursor| == cfg.numPods
      invariant forall p | 0 <= p < cfg.numPods :: cursor[p] == DrawsBefore(plan, tries, p, j)
      invariant cfg.aggrsPerPod > 0 || forall s | 0 <= s < j :: plan[s].links == 0
      invariant RoundFrom(cfg, plan, j, g.View(), wires, cursor) == run
    {
      var ok';
      counter, cursor, ok', wires, tries := WireRoundRobinSlot(g, cfg, plan, j, counter, wires, tries, cursor);
      if !ok' {
        PlanDone(g.View(), cfg, plan, j + 1, wires);
        ok := false;
        return;
      }
      j := j + 1;
    }
    PlanDone(g.View(), cfg, plan, j, wires);
  }

  /** `combinations(range(n), 2)` from first element `i` on, each pod pair with OCS budget `k`. */
  function PairsFrom(i: nat, n: nat, k: nat): seq<PairBudget>
    decreases n - i
  {
    if i >= n then [] else PairRow(i, n, k) + PairsFrom(i + 1, n, k)
  }

  /** The budget of the uniform and round-robin builders: every pod pair, `OCS_LINKS_PER_POD_PAIR` each. */
  function UniformPlan(cfg: TopoConfig): seq<PairBudget>
  {
    PairsFrom(0, cfg.numPods, cfg.ocsLinksPerPodPair)
  }

  /** The `ocs_links_config` table of the non-uniform builder, in its insertion order. */
  const NonUniformPlan: seq<PairBudget> :=
    [PairBudget(0, 1, 1), PairBudget(0, 2, 3), PairBudget(0, 3, 2), PairBudget(1, 2, 2), PairBudget(1, 3, 1), PairBudget(2, 3, 3)]

  /** The table names only pods 0 to 3, so a pod it names is missing only when there are fewer than four. */
  lemma NonUniformMissingPod(cfg: TopoConfig)
    requires exists s | 0 <= s < |NonUniformPlan| :: NonUniformPlan[s].p1 >= cfg.numPods || NonUniformPlan[s].p2 >= cfg.numPods
    ensures cfg.numPods < 4
  {
  }

  /** `combinations` order: by first element, then by second. */
  predicate PairBefore(x: PairBudget, y: PairBudget)
  {
    x.p1 < y.p1 || (x.p1 == y.p1 && x.p2 < y.p2)
  }

  /**
   * `combinations(range(n), 2)` from `i` on lists exactly the pairs
   * `i <= p1 < p2 < n`, each once, in increasing order, and there are
   * `(n - i) * (n - i - 1) / 2` of them.
   */
  lemma {:induction false} PairsFromSpec(i: nat, n: nat, k: nat)
    ensures forall s | 0 <= s < |PairsFrom(i, n, k)| ::
              i <= PairsFrom(i, n, k)[s].p1 < PairsFrom(i, n, k)[s].p2 < n && PairsFrom(i, n, k)[s].links == k
    ensures forall p1, p2 | i <= p1 < p2 < n :: PairBudget(p1, p2, k) in PairsFrom(i, n, k)
    ensures forall s, s' | 0 <= s < s' < |PairsFrom(i, n, k)| :: PairBefore(PairsFrom(i, n, k)[s], PairsFrom(i, n, k)[s'])
    ensures i <= n ==> 2 * |PairsFrom(i, n, k)| == (n - i) * (n - i - 1)
    decreases n - i
  {
    if i < n {
      PairsFromSpec(i + 1, n, k);
      var row := PairRow(i, n, k);
      var rest := PairsFrom(i + 1, n, k);
      assert PairsFrom(i, n, k) == row + rest;
      PairsFromRange(i, n, k, row, rest);
      PairsFromComplete(i, n, k, row, rest);
      PairsFromOrdered(i, n, k, row, rest);
    }
    PairsFromCount(i, n, k);
  }

  /** `combinations(range(n), 2)` from `i` on has `(n - i) * (n - i - 1) / 2` pairs. */
  lemma {:induction false} PairsFromCount(i: nat, n: nat, k: nat)
    ensures i <= n ==> 2 * |PairsFrom(i, n, k)| == (n - i) * (n - i - 1)
    decreases n - i
  {
    if i < n {
      PairsFromCount(i + 1, n, k);
      var m := n - i - 1;
      assert |PairsFrom(i, n, k)| == m + |PairsFrom(i + 1, n, k)|;
      TriangleStep(m);
    }
  }

  /** The pairs `(i, j)` for `i < j < n`, in order. */
  function PairRow(i: nat, n: nat, k: nat): (row: seq<PairBudget>)
    requires i < n
    ensures |row| == n - i - 1 && forall j | 0 <= j < |row| :: row[j] == PairBudget(i, i + 1 + j, k)
  {
    seq(n - i - 1, j requires 0 <= j < n - i - 1 => PairBudget(i, i + 1 + j, k))
  }

  lemma PairsFromRange(i: nat, n: nat, k: nat, row: seq<PairBudget>, rest: seq<PairBudget>)
    requires i < n && row == PairRow(i, n, k)
    requires forall s | 0 <= s < |rest| :: i + 1 <= rest[s].p1 < rest[s].p2 < n && rest[s].links == k
    ensures forall s | 0 <= s < |row + rest| :: i <= (row + rest)[s].p1 < (row + rest)[s].p2 < n && (row + rest)[s].links == k
  {
    var r := row + rest;
    forall s | 0 <= s < |r| ensures i <= r[s].p1 < r[s].p2 < n && r[s].links == k {
      if s >= |row| {
        assert r[s] == rest[s - |row|];
      }
    }
  }

  lemma PairsFromComplete(i: nat, n: nat, k: nat, row: seq<PairBudget>, rest: seq<PairBudget>)
    requires i < n && row == PairRow(i, n, k)
    requires forall p1, p2 | i + 1 <= p1 < p2 < n :: PairBudget(p1, p2, k) in rest
    ensures forall p1, p2 | i <= p1 < p2 < n :: PairBudget(p1, p2, k) in row + rest
  {
    var r := row + rest;
    forall p1, p2 | i <= p1 < p2 < n ensures PairBudget(p1, p2, k) in r {
      if p1 == i {
        assert r[p2 - i - 1] == row[p2 - i - 1];
      } else {
        assert PairBudget(p1, p2, k) in rest;
      }
    }
  }

  lemma PairsFromOrdered(i: nat, n: nat, k: nat, row: seq<PairBudget>, rest: seq<PairBudget>)
    requires i < n && row == PairRow(i, n, k)
    requires forall s | 0 <= s < |rest| :: i + 1 <= rest[s].p1
    requires forall s, s' | 0 <= s < s' < |rest| :: PairBefore(rest[s], rest[s'])
    ensures forall s, s' | 0 <= s < s' < |row + rest| :: PairBefore((row + rest)[s], (row + rest)[s'])
  {
    var r := row + rest;
    forall s, s' | 0 <= s < s' < |r| ensures PairBefore(r[s], r[s']) {
      if s' >= |row| {
        assert r[s'] == rest[s' - |row|];
        if s >= |row| {
          assert r[s] == rest[s - |row|];
        }
      }
    }
  }

  lemma TriangleStep(m: int)
    ensures (m + 1) * m == 2 * m + m * (m - 1)
  {
  }

  /** Every entry of the uniform plan joins two distinct existing pods with the configured budget. */
  lemma UniformPlanFits(cfg: TopoConfig)
    ensures forall s | 0 <= s < |UniformPlan(cfg)| ::
              UniformPlan(cfg)[s].p1 < UniformPlan(cfg)[s].p2 < cfg.numPods && UniformPlan(cfg)[s].links == cfg.ocsLinksPerPodPair
  {
    PairsFromSpec(0, cfg.numPods, cfg.ocsLinksPerPodPair);
  }

  /** `combinations(range(n), 2)` is empty exactly when there are fewer than two pods. */
  lemma UniformPlanEmpty(cfg: TopoConfig)
    ensures |UniformPlan(cfg)| == 0 <==> cfg.numPods < 2
  {
    PairsFromSpec(0, cfg.numPods, cfg.ocsLinksPerPodPair);
    if cfg.numPods >= 2 {
      assert PairBudget(0, 1, cfg.ocsLinksPerPodPair) in UniformPlan(cfg);
    }
  }

  /** After both local phases, the graph is built with no OCS node yet. */
  lemma MeshedIsBuilt(net: Network, cfg: TopoConfig)
    requires Shaped(net, cfg) && NoOcs(net)
    ensures Built(net, cfg, [])
  {
  }

  /** The two phases every builder shares: all nodes, then every ToR joined to every Aggr of its pod. */
  method BuildLocal(cfg: TopoConfig) returns (g: Graph, tors: seq<NodeId>)
    requires cfg.linkCapacity > 0.0
    ensures fresh(g) && Built(g.View(), cfg, []) && tors == TorList(cfg)
    ensures forall p, a | 0 <= p < cfg.numPods && 0 <= a < cfg.aggrsPerPod :: g.adj[AggrName(p, a)] == TorsOf(p, cfg.torsPerPod)
  {
    g := new Graph();
    tors := AddPodNodes(g, cfg);
    AddPodMeshes(g, cfg);
    MeshedIsBuilt(g.View(), cfg);
  }

  /**
   * `build_uniform_topology()`: every pod pair gets up to
   * `OCS_LINKS_PER_POD_PAIR` OCS nodes between randomly chosen Aggrs with
   * free ports, each Aggr pair at most once. Pod pair `s` reads the
   * draws from `starts[s]` to `starts[s + 1]`; each pair drawn there is
   * joined or blocked by a full Aggr, and a pod pair short of its budget
   * while two draws were left had every Aggr pair joined or blocked.
   */
  method BuildUniform(cfg: TopoConfig, draws: seq<nat>)
    returns (g: Graph, tors: seq<NodeId>, ghost wires: seq<Wire>, ghost starts: seq<nat>, ghost meshed: Network)
    requires cfg.linkCapacity > 0.0
    ensures fresh(g) && Built(g.View(), cfg, wires) && tors == TorList(cfg)
    ensures forall k | 0 <= k < |wires| :: WireInSlot(UniformPlan(cfg), wires[k])
    ensures forall s | 0 <= s < |UniformPlan(cfg)| :: CountSlot(wires, s) <= cfg.ocsLinksPerPodPair && SlotDistinct(wires, s)
    ensures |starts| == |UniformPlan(cfg)| + 1 && starts[0] == 0
    ensures forall s | 0 <= s < |UniformPlan(cfg)| :: SlotDrawn(g.View(), cfg, UniformPlan(cfg)[s], s, wires, draws, starts[s], starts[s + 1])
    ensures Built(meshed, cfg, []) && RandomFrom(cfg, UniformPlan(cfg), draws, 0, meshed, [], 0) == PlanRun(g.View(), wires, true)
  {
    g, tors := BuildLocal(cfg);
    meshed := g.View();
    var plan := UniformPlan(cfg);
    UniformPlanFits(cfg);
    var ok;
    ok, wires, starts := WireRandom(g, cfg, plan, draws);
    assert ok;
  }

  /**
   * `build_nonuniform_topology()`: as the uniform builder, over the fixed
   * table. The table names pod 3, so with fewer than four pods the source
   * may raise (`ok` false) when it reads the degree of a missing Aggr.
   */
  method BuildNonUniform(cfg: TopoConfig, draws: seq<nat>)
    returns (g: Graph, tors: seq<NodeId>, ok: bool, ghost wires: seq<Wire>, ghost starts: seq<nat>, ghost meshed: Network)
    requires cfg.linkCapacity > 0.0
    ensures fresh(g) && Built(g.View(), cfg, wires) && tors == TorList(cfg)
    ensures forall k | 0 <= k < |wires| :: WireInSlot(NonUniformPlan, wires[k])
    ensures forall s | 0 <= s < |NonUniformPlan| :: CountSlot(wires, s) <= NonUniformPlan[s].links && SlotDistinct(wires, s)
    ensures ok ==> |starts| == |NonUniformPlan| + 1 && starts[0] == 0 &&
                   forall s | 0 <= s < |NonUniformPlan| :: SlotDrawn(g.View(), cfg, NonUniformPlan[s], s, wires, draws, starts[s], starts[s + 1])
    ensures !ok ==> cfg.numPods < 4
    ensures Built(meshed, cfg, []) && RandomFrom(cfg, NonUniformPlan, draws, 0, meshed, [], 0) == PlanRun(g.View(), wires, ok)
  {
    g, tors := BuildLocal(cfg);
    meshed := g.View();
    ok, wires, starts := WireRandom(g, cfg, NonUniformPlan, draws);
    if !ok {
      NonUniformMissingPod(cfg);
    }
  }

  /**
   * `build_aggr_uniform_topology()`: every pod pair gets up to
   * `OCS_LINKS_PER_POD_PAIR` OCS nodes, taking Aggrs from per-pod cycles
   * and giving up after `10 * OCS_LINKS_PER_POD_PAIR` draws; no two OCS
   * nodes join the same two Aggrs. `ok` is false exactly where the source
   * raises `StopIteration` on pods without Aggrs.
   */
  method BuildRoundRobin(cfg: TopoConfig)
    returns (g: Graph, tors: seq<NodeId>, ok: bool, ghost wires: seq<Wire>, ghost tries: seq<nat>, ghost meshed: Network,
             plan: seq<PairBudget>)
    requires cfg.linkCapacity > 0.0
    ensures plan == UniformPlan(cfg)
    ensures forall s | 0 <= s < |plan| :: plan[s].p1 < plan[s].p2 < cfg.numPods && plan[s].links == cfg.ocsLinksPerPodPair
    ensures Built(meshed, cfg, []) && RoundFrom(cfg, plan, 0, meshed, [], Unstarted(cfg.numPods)) == PlanRun(g.View(), wires, ok)
    ensures fresh(g) && Built(g.View(), cfg, wires) && tors == TorList(cfg) && EndsDistinct(wires)
    ensures forall k | 0 <= k < |wires| :: WireInSlot(plan, wires[k])
    ensures forall s | 0 <= s < |plan| :: CountSlot(wires, s) <= cfg.ocsLinksPerPodPair
    ensures ok <==> cfg.aggrsPerPod > 0 || cfg.ocsLinksPerPodPair == 0 || cfg.numPods < 2
    ensures ok ==> |tries| == |plan| &&
                   forall s | 0 <= s < |plan| :: RoundSettled(g.View(), cfg, plan, wires, tries, s)
  {
    g, tors := BuildLocal(cfg);
    meshed := g.View();
    plan := UniformPlan(cfg);
    UniformPlanFits(cfg);
    UniformPlanIdle(cfg);
    ok, wires, tries := WireRoundRobin(g, cfg, plan);
  }

  /** The uniform plan asks for no OCS node at all exactly when the budget is 0 or there is no pod pair. */
  lemma UniformPlanIdle(cfg: TopoConfig)
    ensures (forall s | 0 <= s < |UniformPlan(cfg)| :: UniformPlan(cfg)[s].links == 0) <==> cfg.ocsLinksPerPodPair == 0 || cfg.numPods < 2
  {
    UniformPlanFits(cfg);
    UniformPlanEmpty(cfg);
    if |UniformPlan(cfg)| > 0 {
      assert UniformPlan(cfg)[0].links == cfg.ocsLinksPerPodPair;
    }
  }
}

=== FILE: wrappers.dfy ===
/** The absent-or-present value used wherever the simulator returns `None`, and the outcome of a step that may raise. */
module Wrappers {
  datatype Option<+T> = None | Some(value: T)

  datatype Result<+T> = Success(value: T) | Failure(error: string)
}
